=== FILE: README.md ===
# A Dafny model of the Custom-Interpreter core

The interpreter takes a small Polish-keyword scripting language through four
stages. The lexer (`core/main/lexer.cpp`) turns the input into tokens. A
recursive-descent parser (`core/main/parser.cpp`) builds syntax trees from
those tokens. Each tree node's `evaluate` (`core/main/ast.cpp`) runs it against
a chain of scopes (`core/scope.cpp`). Values are scalars, lists and
dictionaries (`core/value.cpp`). The built-in `type` function and the list,
dict and string methods are in `util/functions.cpp`, and UTF-8 code-point
counting and indexing are in `util/utf8string.cpp`.

The modules follow that structure:

| module | file | what it holds |
|---|---|---|
| `Errors` | errors.dfy | the error taxonomy of `util/errors.h`, and `Option`/`Result` |
| `Values` | values.dfy | scalars, values, and the list and dict operations of `Value` |
| `Scopes` | scope.dfy | the scope chain: variables and functions, looked up innermost first |
| `Utf8` | utf8.dfy | `getStrLen` and `getStrChar`, as functions and as loops |
| `Lexer` | lexer.dfy | `getNextToken` and its helpers, and the token stream of a whole input |
| `Ast` | ast.dfy | the syntax tree |
| `Parser` | parser.dfy | the parsing functions and `isStatementComplete` |
| `ParserFacts` | parser_facts.dfy | what the parser builds from given token shapes |
| `ParserRules` | parser_rules.dfy | the rule each parsing function follows, for every token stream |
| `Ops` | ops.dfy | the binary-operator visitor, unary operators, casts, indexing |
| `Methods` | methods.dfy | `type`, and the list, dict and string methods |
| `Interp` | interp.dfy | `evaluate` for every node, and `updateNestedContainer` |
| `InterpFacts` | interp_facts.dfy | what given programs evaluate to |
| `NodeRules` | node_rules.dfy | the rule each node's `evaluate` follows, for every operand |

Modelling choices:

- **Byte strings.** A Dafny `string` stands for a C++ `std::string`: each char is one byte.
- **Exceptions.** An error is a `Result`/`Outcome` failure carrying an `Error`. The standard exceptions the core can raise outside its own error classes are errors of their own:
  - a bad variant access;
  - invalid UTF-8;
  - an out-of-range `stol`.
  - Behaviour C++ leaves undefined is the `Undefined` error: signed overflow, division by zero, and dereferencing a null node.
- **Null.** `Value()` is the value of `print`, of a false `if` without an else block, of a bare `return`, of a function declaration, and the starting value of a block. It is `Null`, an alternative of its own beside the scalars, lists and dicts, as `type` has it: `type` names a value that is none of those "null" (`util/functions.cpp:33-45`). `core/value.h` as it stands predates the `long` and dict alternatives that value.cpp and ast.cpp use, and there `Value()` is a default scalar; the model follows the .cpp files. So null is no scalar: indexing it is a bad variant access, because `asBase()` is a `std::get` (`core/main/ast.cpp:399`); using it as a dict key, casting it to bool and index-assigning into it (`core/main/ast.cpp:464-465`) are TypeErrors.
- **Integers.** `long` is 64 bits. Every int result is checked against `LongMin..LongMax`, and an overflow is `Undefined`.
- **Token stream.** The parser reads a stream of tokens produced ahead of time instead of calling the lexer lazily. The lexer is deterministic, and the parser never moves back: `peekNextTokenType` and `isStatementComplete` restore the cursor they move. So both ways see the same tokens. A lexer error surfaces at the token where `getNextToken` would have thrown it.
- **Scope chain.** Scopes form a sequence, innermost first. A function body runs in a child of the *caller's* scope, so the chain is always a stack.
- **Break, continue, return.** Evaluation returns either `Done(value, scopes)` or `Stop(exit)`, where the exit is an error, a break, a continue or a return. This mirrors the C++ exceptions.
- **Fuel.** Every nested evaluation spends one unit of a `fuel` count. Running out is the `OutOfFuel` error.
- **Write-back.** Containers are values. An updated container is written back through its access path, which is what `updateNestedContainer` does.

Where the specification and the code disagree, the model follows the code:

- **Division.** Int `/` and `//` both truncate toward zero; they are not true or floor division.
- **Mixed operands.** Mixed operand types are an `InterpreterError`, not a `TypeError`.
- **Stale parser.** `core/main/parser.cpp` predates the rest of the core:
  - It reads a single NUMBER token and builds `ListMethodCallNode` and `ListAssignmentNode`. The model reads the INT and FLOAT tokens of `core/main/lexer.cpp` and builds the literal, `MethodCallNode` and `IndexAssignmentNode` nodes of `core/main/ast.cpp`.
  - As written, it parses only `if`, `name = expr` assignments, expressions, lists, indexing and method calls.
  - The evaluator still covers every node of `core/main/ast.cpp`.
- **`roundf` precision.** Its guard (`util/functions.cpp:54`) joins the two tests with `&&` instead of `||`. So it never raises its "precision must be an integer" TypeError. A precision that is no scalar fails inside the guard as a bad variant access. A scalar that is not an int passes the guard, and fails as a bad variant access when it is read (`util/functions.cpp:61`), after the value has been checked. The model follows the code.
- **`srtrim`.** Its code-point index starts at the string's *byte* length minus one. This is modelled as written and proved harmless on well-encoded strings.

## Model

A function that only computes has no row of its own: the lemma that states what it computes has the row. So:

- `Methods.TypeName` is stated by `Methods.TypeNameDistinguishes` and `Methods.TypeOfCast`.
- `Methods.Ltrim` and `Methods.Rtrim` are stated by `Methods.LtrimSuffix`, `Methods.LtrimDropsLeading`, `Methods.RtrimPrefix` and `Methods.RtrimDropsTrailing`.
- `Lexer.MatchKeyword` is stated by `Lexer.MatchKeywordSound`.
- `Interp.ArityFits` is stated by `InterpFacts.VariadicNeedsParameter` and `InterpFacts.CallArityMismatch`.
- `Parser.StatementComplete` is stated by `ParserFacts.CompleteRule`.
- `NodeRules.Completes` and `NodeRules.CompletesTail` describe a run of statements or list elements whose first nodes complete; the block and list lemmas use them.

| member | source | states |
|---|---|---|
| Values.SetEntryLookup | core/value.cpp:57-62 | after `dict[k] = x`, `k` maps to `x`, every other key keeps its entry, keys stay unique, and the size grows by one exactly when `k` was new |
| Values.RemoveEntryLookup | core/value.cpp:71-78 | erasing a present key leaves it absent, keeps every other key's entry, and keeps keys unique |
| Values.UpdateListElement | core/value.cpp:13-21 | a non-list is a TypeError; an index outside the list is an IndexError; otherwise only cell `index` changes, to the new value, and the length stays the same |
| Values.Length | core/value.cpp:23-28 | the element count of a list; a TypeError for anything else |
| Values.Append | core/value.cpp:30-35 | the list gains the value at its end and keeps every earlier element; a TypeError for a non-list |
| Values.Remove | core/value.cpp:37-45 | elements before the index stay, later ones shift down by one; out of range is an IndexError, a non-list a TypeError |
| Values.Put | core/value.cpp:47-55 | the value is inserted at the index (the length itself is allowed), earlier elements stay and later ones shift up; beyond the length is an IndexError |
| Values.RemoveUndoesPut | core/value.cpp:37-55 | removing at the index where a value was just put gives back the original list |
| Values.PutUndoesRemove | core/value.cpp:37-55 | putting a removed element back at its index gives back the original list |
| Values.AppendIsPutAtEnd | core/value.cpp:30-55 | append is put at the list's length |
| Values.SetDictElement | core/value.cpp:57-62 | the key then maps to the new value, every other key's lookup is unchanged, unique keys stay unique; a TypeError exactly for non-dicts |
| Values.DictSize | core/value.cpp:64-69 | the number of entries; a TypeError exactly for non-dicts |
| Values.RemoveKey | core/value.cpp:71-78 | a missing key is a NameError (both directions); otherwise one entry fewer, the key gone, every other key unchanged |
| Values.KeyExists | core/value.cpp:80-85 | true exactly when some entry has the key; a TypeError exactly for non-dicts |
| Values.GetDictKeys | core/value.cpp:87-96 | one key per entry, and a scalar is listed exactly when it has an entry; when the dict's keys are unique, no key is listed twice; a TypeError exactly for non-dicts |
| Values.SetThenExists | core/value.cpp:57-85 | after setting a key it exists, and the size grows by one exactly when it did not exist before |
| Scopes.FindVariable | core/scope.cpp:28-37 | the innermost frame binding the name, with no frame nearer binding it; none when no frame binds it |
| Scopes.FindFunction | core/scope.cpp:56-65 | the innermost frame declaring the function, with no nearer frame declaring it; none when no frame does |
| Scopes.SetVariable | core/scope.cpp:7-9 | only the current scope changes: the name is bound to the value and every other variable and function stays as it was |
| Scopes.HasVariableInChain | core/scope.cpp:17-25 | true exactly when some scope of the chain binds the name |
| Scopes.GetVariable | core/scope.cpp:28-37 | the value in the innermost scope binding the name; a NameError exactly when no scope binds it |
| Scopes.AssignVariable | core/scope.cpp:40-48 | rebinds the name in the innermost scope binding it and changes nothing else; a NameError exactly when no scope binds it |
| Scopes.SetFunction | core/scope.cpp:51-53 | only the current scope's functions change: the name is bound to the function, everything else stays |
| Scopes.GetFunction | core/scope.cpp:56-65 | the function in the innermost scope declaring it; none exactly when no scope does |
| Scopes.CreateChild | core/scope.cpp:68-70 | a new empty innermost scope in front of the unchanged chain |
| Scopes.Parent | core/scope.cpp:68-70 | dropping the innermost scope leaves the enclosing chain |
| Scopes.HasIffGets | core/scope.cpp:17-37 | hasVariableInCurrentOrParentScope is true exactly when getVariable succeeds |
| Scopes.ChildFallsThrough | core/scope.cpp:17-70 | a fresh child scope binds nothing itself, and every variable and function lookup falls through to the parent unchanged |
| Scopes.Shadowing | core/scope.cpp:7-70 | a variable set in a child scope shadows the parent's, and dropping the child restores the parent exactly |
| Scopes.AssignKeepsBindings | core/scope.cpp:40-48 | assignVariable binds no new name anywhere, and the name then reads back the assigned value |
| Scopes.AssignLeavesOthers | core/scope.cpp:40-48 | assignVariable leaves every other name's value unchanged |
| Utf8.WidthFollowsMasks | util/utf8string.cpp:7-18 | the lead-byte width is exactly what the mask tests `0x80`, `0xE0`, `0xF0`, `0xF8` select, in the source's order, with 0 for the invalid case |
| Utf8.CodePointsFrom | util/utf8string.cpp:6-20 | each code point is a non-empty chunk no longer than its lead byte's width; failure is invalid encoding |
| Utf8.CodePointsConcat | util/utf8string.cpp:6-20 | the code points, joined, are exactly the bytes they were split from |
| Utf8.AsciiCodePoints | util/utf8string.cpp:6-20 | on an ASCII string every byte is one code point |
| Utf8.AsciiStrLen | util/utf8string.cpp:4-22 | getStrLen of an ASCII string is its byte length |
| Utf8.Skip | util/utf8string.cpp:27-40 | skipping code points never moves backwards, and fails only on an invalid lead byte |
| Utf8.InvalidLeadFails | util/utf8string.cpp:4-22 | an invalid lead byte reached by the walk makes the whole split fail |
| Utf8.InvalidLeadFailsStrLen | util/utf8string.cpp:15-18 | an invalid lead byte reached while counting makes getStrLen fail |
| Utf8.SkipToCodePoint | util/utf8string.cpp:27-40 | skipping k code points of a validly split string stops at the lead byte of code point k |
| Utf8.StrCharIsCodePoint | util/utf8string.cpp:25-53 | getStrChar(s, i) is the i-th code point of the split |
| Utf8.AsciiStrChar | util/utf8string.cpp:25-53 | on an ASCII string getStrChar(s, i) is the single byte s[i] |
| Utf8.GetStrLen | util/utf8string.cpp:4-22 | the source's loop computes the number of code points, or the invalid-encoding error |
| Utf8.GetStrChar | util/utf8string.cpp:25-53 | the source's loops compute getStrChar, including the empty string at the end and the undefined read past it |
| Lexer.MatchKeywordSound | core/main/lexer.cpp:79-138 | the keyword found is in the table and matches at the position, not followed by a letter or digit; none found means no keyword matches |
| Lexer.IdentEnd | core/main/lexer.cpp:284-290 | an identifier is the longest run of letters, digits and underscores |
| Lexer.NumberEnd | core/main/lexer.cpp:268-272 | a number is the longest run of digits and of dots that do not start `..` |
| Lexer.StolDigits | core/main/lexer.cpp:278 | the value of a digit run, at most LONG_MAX, or out_of_range |
| Lexer.ExtractNumber | core/main/lexer.cpp:264-281 | a number token consumes at least one character and is never END |
| Lexer.ScanString | core/main/lexer.cpp:297-313 | a string body ends on a closing quote inside the input; its only error is the LexerError |
| Lexer.ExtractString | core/main/lexer.cpp:293-316 | a string token consumes at least one character and is never END |
| Lexer.Punctuation | core/main/lexer.cpp:141-250 | an operator token consumes at least one character and is never END |
| Lexer.Word | core/main/lexer.cpp:79-139 | a word (keyword or identifier) consumes at least one character and is never END |
| Lexer.TokenAt | core/main/lexer.cpp:76-250 | any token read at a non-blank character consumes at least one character and is never END |
| Lexer.BlankEnd | core/main/lexer.cpp:69-75 | the skipped blanks are exactly the white space before the next newline or non-blank |
| Lexer.NextToken | core/main/lexer.cpp:68-253 | a token other than END moves the cursor forward; END leaves it at the end of the input |
| Lexer.TokenAfterBlanks | core/main/lexer.cpp:68-253 | after the blanks, a token other than END moves the cursor forward, and END is only at the end |
| Lexer.TokenizeFrom | core/main/lexer.cpp:68-253 | repeated getNextToken yields END only as the last token, and always ends with END unless a lexer error cut it short |
| Lexer.SkipBlanks | core/main/lexer.cpp:69-75 | blanks other than newlines do not change the next token |
| Lexer.EolAndEnd | core/main/lexer.cpp:68-253 | a newline is an EOL token of one character, and the end of the input is END |
| Lexer.LookaheadOperators | core/main/lexer.cpp:145-225 | `= ! > < * / : .` take two characters when the next character completes `== != >= <= ** // := ..`, and one otherwise |
| Lexer.PunctuationNext | core/main/lexer.cpp:141-250 | at a character that is neither blank nor alphanumeric, getNextToken is the operator switch |
| Lexer.UnknownCharacter | core/main/lexer.cpp:248-249 | a character the switch does not list is a LexerError |
| Lexer.KeywordsDistinct | core/main/lexer.cpp:80-138 | no two keywords can match at the same position, so the order of the keyword tests does not matter |
| Lexer.KeywordShape | core/main/lexer.cpp:80-138 | every keyword starts with a letter, has length 1 or more than 2, and gives a token other than END |
| Lexer.KeywordRecognized | core/main/lexer.cpp:79-138 | a keyword not followed by a letter or digit is read as its token, consuming exactly its letters |
| Lexer.KeywordFound | core/main/lexer.cpp:79-138 | the keyword search finds exactly the keyword that matches |
| Lexer.LetterStartsWord | core/main/lexer.cpp:79-139 | at a letter the token is either the one matching keyword, or an identifier holding the longest run of letters, digits and underscores |
| Lexer.KeywordPrefixIsIdentifier | core/main/lexer.cpp:79-139 | a keyword glued to a following letter or digit is read as one identifier |
| Lexer.NoKeywordWhenGlued | core/main/lexer.cpp:80-138 | no keyword matches where a keyword's letters are followed by a letter or digit |
| Lexer.UnderscoreEndsKeyword | core/main/lexer.cpp:80-138 | an underscore does not count as alphanumeric in the keyword tests, so `keyword_` reads the keyword and leaves the `_` |
| Lexer.NumberToken | core/main/lexer.cpp:264-281 | a digit run with a dot is a FLOAT token; without one it is an INT token of its decimal value, or out_of_range above LONG_MAX |
| Lexer.NumberStopsBeforeRange | core/main/lexer.cpp:264-281 | in `1..5` the number stops before the `..`, which is then one DBL_DOT token |
| Lexer.PlainString | core/main/lexer.cpp:293-316 | a quoted string without escapes gives its body and consumes through the closing quote |
| Lexer.UnterminatedString | core/main/lexer.cpp:311-313 | a string whose quote is never closed is a LexerError |
| Lexer.StringEscapes | core/main/lexer.cpp:298-306 | the literal `"\n\t\"\\\q"` decodes, escape by escape, to a newline, a tab, a quote, a backslash and `q` |
| Lexer.Unescape | core/main/lexer.cpp:299-305 | an escaped `n` is a newline, an escaped `t` a tab, and any other escaped character (the quote and the backslash included) stands for itself |
| Lexer.EscapeRule | core/main/lexer.cpp:297-309 | in any input, a backslash that is not the last character adds its decoded pair to the body and scanning goes on after the pair, with the same end or the same error |
| Lexer.EscapedAt | core/main/lexer.cpp:297-309 | wherever an escaped text stands in the input, followed by the quote, it scans back to exactly the text and the literal ends at that quote |
| Lexer.EscapedBody | core/main/lexer.cpp:293-316 | for every text and either quote, the body written with `\n` for a newline, `\t` for a tab and a backslash before each backslash and quote scans back to exactly the text and ends at the closing quote, whatever comes before or after it |
| Lexer.EscapeStep | core/main/lexer.cpp:297-309 | the one or two characters written for a character read back as that character, and scanning goes on after them |
| Lexer.PlainStep | core/main/lexer.cpp:307-309 | a character that is neither the quote nor a backslash is added to the body as it is, and scanning goes on after it, with the same end or error |
| Lexer.QuoteIsString | core/main/lexer.cpp:175-176 | a double or single quote starts a string literal |
| Lexer.QuotedString | core/main/lexer.cpp:293-316 | at a quote, getNextToken is the STRING token of the scanned body, and the lexer goes on after the closing quote |
| Parser.Advance | core/main/parser.cpp:12-14 | advancing moves to the next token, stays on END at the end, and fails only with the lexer's error after the last token read |
| Parser.PeekNext | core/main/lexer.cpp:256-261 | peeking gives the next token's kind without consuming anything |
| Parser.IdentName | core/main/parser.cpp:171 | the name of an identifier token; a payload that is not a string is a bad variant access |
| Parser.Leaf | core/main/parser.cpp:236-251 | a literal or variable node, with no null receiver; a payload of the wrong alternative is a bad variant access |
| Parser.ParseProgram | core/main/parser.cpp:152-165 | in the corrected parser no statement holds a method call on a null receiver |
| Parser.Parse | core/main/parser.cpp:152-165 | the corrected parser never yields a method call on a null receiver |
| Parser.ParseInput | core/main/parser.cpp:152-165 | lexing then parsing with the correction yields trees without null receivers |
| Parser.ParseStatement | core/main/parser.cpp:167-180 | a statement consumes at least one token and stops inside the stream |
| Parser.ParseAssignment | core/main/parser.cpp:49-53 | `name = expr` yields an assignment to that name and consumes at least one token |
| Parser.ParseIf | core/main/parser.cpp:55-75 | an if statement consumes at least one token and stops inside the stream |
| Parser.IfBlocks | core/main/parser.cpp:62-74 | the if node carries the parsed condition |
| Parser.CloseIf | core/main/parser.cpp:71-73 | a missing `stop` is the "stop after if" SyntaxError; otherwise the `stop` is consumed |
| Parser.ParseBlock | core/main/parser.cpp:77-99 | a block stops at `stop`, `else` or END, which it does not consume, and keeps the statements collected before it in front of its own |
| Parser.ParseBinary | core/main/parser.cpp:182-224 | an expression at any precedence level consumes at least one token |
| Parser.ParseOperand | core/main/parser.cpp:182-224 | an operand of a precedence level consumes at least one token |
| Parser.BinaryRest | core/main/parser.cpp:182-224 | the operator loop of a level never moves backwards |
| Parser.ParseFactor | core/main/parser.cpp:226-274 | a factor consumes at least one token and stops inside the stream |
| Parser.ParenFactor | core/main/parser.cpp:252-257 | a parenthesised statement yields a node and consumes through the `)` |
| Parser.Postfix | core/main/parser.cpp:258-272 | the `[`/`.` loop keeps a node it was given, and only a method call can create one from nothing |
| Parser.IndexSuffix | core/main/parser.cpp:141-148 | `[index]` yields an index access, or an index assignment when `=` follows |
| Parser.AssignSuffix | core/main/parser.cpp:262-265 | `= expr` after an index access wraps it in an index assignment, otherwise leaves it unchanged |
| Parser.MethodSuffix | core/main/parser.cpp:118-128 | `.name(...)` yields a method call on exactly the node before the `.` |
| Parser.MethodArguments | core/main/parser.cpp:126-138 | the call carries the method name and receiver it was given |
| Parser.CallArguments | core/main/parser.cpp:129-134 | the argument list stops at the `)` |
| Parser.ParseArgs | core/main/parser.cpp:130-134 | comma-separated arguments consume at least one token |
| Parser.ParseList | core/main/parser.cpp:101-116 | a list literal consumes at least one token |
| Parser.ListElements | core/main/parser.cpp:105-113 | the element loop consumes at least one token, and with the correction yields a list without null receivers |
| Parser.ScanComplete | core/main/parser.cpp:23-45 | at nesting level 0 with no `then` awaited, a token other than `if` makes the statement complete; failures are the lexer's |
| Parser.ScanNext | core/main/parser.cpp:41 | reading ahead fails only with the lexer's error |
| ParserFacts.LevelOpsDisjoint | core/main/parser.cpp:182-224 | an operator of one precedence level ends the operand of the next tighter level |
| ParserFacts.AtomFactor | core/main/parser.cpp:226-274 | a literal or variable followed by a non-postfix token is a factor of one token |
| ParserFacts.RestStop | core/main/parser.cpp:182-224 | a level's loop stops at a token that is not one of its operators |
| ParserFacts.FactorIsExpression | core/main/parser.cpp:182-224 | a factor followed by no operator of its level or a tighter one is the whole expression |
| ParserFacts.AtomExpression | core/main/parser.cpp:182-224 | a lone literal or variable is an expression of one token |
| ParserFacts.RestStep | core/main/parser.cpp:182-224 | one turn of a level's loop combines the left node with the next operand under the operator |
| ParserFacts.RestFolds | core/main/parser.cpp:182-224 | the loop over a chain of same-level operators builds the left fold of the chain |
| ParserFacts.LeftAssociative | core/main/parser.cpp:182-224 | `a op b op c` at one level parses as `(a op b) op c` |
| ParserFacts.TighterGroupsFirst | core/main/parser.cpp:182-224 | operands of a looser operator are the chains of the tighter level on each side |
| ParserFacts.PrefixTakesFactor | core/main/parser.cpp:231-234 | `!` and `_` apply to the following factor only |
| ParserFacts.AtomStatement | core/main/parser.cpp:167-180 | an identifier not followed by `=` is an expression statement |
| ParserFacts.Parenthesised | core/main/parser.cpp:252-257 | `( atom )` is the atom |
| ParserFacts.ParenMissing | core/main/parser.cpp:254-256 | `( atom` not followed by `)` is the "closing parenthesis" ParserError |
| ParserFacts.NoOperand | core/main/parser.cpp:270-272 | a token that starts no factor is the "unexpected token" ParserError |
| ParserFacts.ListClose | core/main/parser.cpp:105-115 | the `]` closes the list with the elements read so far |
| ParserFacts.ListItemComma | core/main/parser.cpp:106-109 | an element followed by `,` is kept and the loop goes on after the comma |
| ParserFacts.ListItemClose | core/main/parser.cpp:105-115 | an element followed by `]` is the last one |
| ParserFacts.ListItemBad | core/main/parser.cpp:110-112 | an element followed by anything else is the "',' or ']'" SyntaxError |
| ParserFacts.ListTrailingComma | core/main/parser.cpp:101-116 | `[a, b, ]` is the list of `a` and `b`: a trailing comma is accepted |
| ParserFacts.ListWithoutTrailingComma | core/main/parser.cpp:101-116 | `[a, b, c]` is the list of its atoms in order |
| ParserFacts.ListBadSeparator | core/main/parser.cpp:110-112 | `[a x` is the "',' or ']'" SyntaxError |
| ParserFacts.ListTakesNoIndex | core/main/parser.cpp:228-230 | a list literal is returned before the postfix loop, so `[][` leaves the `[` unparsed and the statement lacks its separator |
| ParserFacts.ProgramStatement | core/main/parser.cpp:152-165 | a statement followed by `;` or a newline is kept and parsing goes on |
| ParserFacts.ProgramSeparator | core/main/parser.cpp:155-156 | a stray `;` or newline is skipped |
| ParserFacts.AssignmentStatement | core/main/parser.cpp:170-177 | `name = atom` is a reassignment of that name |
| ParserFacts.MissingSeparator | core/main/parser.cpp:159-161 | two statements on a line without `;` are the separator SyntaxError |
| ParserFacts.IfWithoutCondition | core/main/parser.cpp:57-59 | `if` followed by a newline is the "condition" SyntaxError |
| ParserFacts.IfWithoutThen | core/main/parser.cpp:62-64 | a condition not followed by `then` is the "then" SyntaxError |
| ParserFacts.IfHead | core/main/parser.cpp:55-65 | `if cond then` continues with the blocks of that condition |
| ParserFacts.EmptyBlock | core/main/parser.cpp:77-99 | a block that starts at `stop`, `else` or END is empty and consumes nothing |
| ParserFacts.IfWithoutStop | core/main/parser.cpp:71-73 | an if that reaches END is the "stop" SyntaxError |
| ParserFacts.EmptyIf | core/main/parser.cpp:55-75 | `if c then stop` has empty blocks and no else |
| ParserFacts.EmptyIfElse | core/main/parser.cpp:55-75 | `if c then else stop` has an empty else block that is present |
| ParserFacts.IndexAssignmentForm | core/main/parser.cpp:258-265 | `a[i] = v` is the index assignment of `v` to `a[i]` |
| ParserFacts.MethodCallForm | core/main/parser.cpp:118-139 | `a.m(x)` is the call of `m` on `a` with argument `x` |
| ParserFacts.BareMethodCall | core/main/parser.cpp:226-274 | as written, `.m()` with nothing before it parses as a call on a null receiver |
| ParserFacts.NullReceiverAsWritten | core/main/parser.cpp:258-272 | the input `.len()` parses, as written, into a method call without a receiver |
| ParserFacts.NullReceiverRejected | core/main/parser.cpp:258-272 | the corrected parser rejects `.len()` as an unexpected token |
| ParserFacts.OpenIf | core/main/parser.cpp:23-45 | for a single `if` followed, up to the end of the input, by no `if`, `stop` or END: the statement is complete exactly when no `then` follows the `if` |
| ParserFacts.ClosedIf | core/main/parser.cpp:23-45 | for a single `if` whose `then` and `stop` have no `if` or `stop` between them, with no `if` right after the `stop`: the statement is complete |
| ParserFacts.ScanRun | core/main/parser.cpp:29-42 | across any run of tokens that does not stop the scan, the nesting level moves by the run's count of `if` minus `stop`, and an `if` awaits its `then` exactly when the last `if` of the run has no `then` after it (or none did and one was awaited already) |
| ParserFacts.CompleteRule | core/main/parser.cpp:23-45 | for every input: when the scan reaches the end, the statement is complete exactly when every `if` it opened is closed or an `if` still awaits its `then`; a token that stops the scan at level 0 makes it complete |
| ParserRules.StatementRule | core/main/parser.cpp:167-180 | for every stream: `if` starts an if statement; an identifier followed by `=` is the assignment of the expression after the `=` (a payload that is not a string is a bad variant access); anything else is an expression |
| ParserRules.IfRule | core/main/parser.cpp:55-64 | a newline right after `if` is the "condition" SyntaxError; an error in the condition is the statement's; a condition not followed by `then` is the "then" SyntaxError; otherwise the blocks follow the `then` |
| ParserRules.IfBlocksRule | core/main/parser.cpp:65-74 | the then block and, after `else`, the else block go into the if node as parsed, with the condition, and the `stop` must follow; an error in a block is the statement's |
| ParserRules.BlockRule | core/main/parser.cpp:77-99 | newlines and `;` are skipped; `stop`, `else` and END end the block with the statements so far; any other token starts a statement (an `if` an if statement) that is appended, and its error is the block's |
| ParserRules.FactorRule | core/main/parser.cpp:226-274 | `[` starts a list; `!` and `_` apply to the following factor; a literal, a variable or a parenthesised statement is followed by the postfix loop; any other token is the "unexpected token" ParserError, a `.` only in the corrected parser |
| Ops.QuotRem | core/main/ast.cpp:237-244 | C++ `/` and `%` truncate: quotient times divisor plus remainder is the dividend, the remainder is smaller than the divisor and has the dividend's sign, and both agree with Dafny's on non-negative operands |
| Ops.QuotRange | core/main/ast.cpp:243-244 | long division overflows exactly for LONG_MIN / -1 |
| Ops.IntOp | core/main/ast.cpp:219-248 | each comparison gives the bool of comparing the two numbers; `+`, `-` and `*` give the exact sum, difference and product when it fits in a `long` and are Undefined when it overflows; every int result lies within `long`; an operator the overload does not list is an InterpreterError |
| Ops.FloatOp | core/main/ast.cpp:186-217 | every float operation fails, and fails as Unsupported exactly for the arithmetic and comparison operators the float overload handles |
| Ops.StrOp | core/main/ast.cpp:250-268 | strings support exactly `+` (concatenation) and the comparisons; `==` and `!=` compare contents, the four orderings compare byte lengths; anything else is an InterpreterError |
| Ops.BoolOp | core/main/ast.cpp:271-284 | bools support exactly `==`, `!=`, `&` and the or operator; any other operator is an InterpreterError |
| Ops.BinaryOp | core/main/ast.cpp:295-306 | only two scalars of the same type combine; anything else is an InterpreterError; a comparison gives a bool |
| Ops.DivisionIdentity | core/main/ast.cpp:237-244 | `//` equals `/` on ints; `/` fails exactly for zero divisors and LONG_MIN / -1; `/` and `%` satisfy the truncating division identity |
| Ops.StringOrderIsLengthOrder | core/main/ast.cpp:258-265 | string `> >= < <=` compare lengths, so `"b" < "aa"` |
| Ops.ComparisonDuals | core/main/ast.cpp:219-268 | `a > b` is `b < a`, `a >= b` is `b <= a`, `<=` negates `>`, and `!=` negates `==` |
| Ops.Stol | core/main/ast.cpp:96-102 | stol yields a value within `long` or a ConversionError |
| Ops.DecimalValue | core/main/ast.cpp:52-53 | the decimal digits of a number read back as that number |
| Ops.StolReadsLongToString | core/main/ast.cpp:47-106 | stol reads back what to_string writes for every long |
| Ops.ToInt | core/main/ast.cpp:86-106 | a TypeError exactly for non-scalars; a string converts to a value within `long` |
| Ops.ToString | core/main/ast.cpp:47-61 | a TypeError exactly for non-scalars; a string converts to itself |
| Ops.ToBool | core/main/ast.cpp:108-128 | a TypeError exactly for null, or for containers without `?`; with `?` a container is true exactly when non-empty |
| Ops.Cast | core/main/ast.cpp:130-144 | a cast gives a scalar of the target type; a non-type token is a ConversionError |
| Ops.Unary | core/main/ast.cpp:151-183 | `!` succeeds exactly on bools; `-` and `_` on anything but a number are TypeErrors, and succeed only on ints, giving an int; `_` gives a non-negative result; an unknown operator is an InterpreterError |
| Ops.CastRoundTrips | core/main/ast.cpp:130-144 | int → str → int gives the long back and bool → int → bool gives the bool back, but the string of `false` casts to true |
| Ops.QMarkExtendsBoolCast | core/main/ast.cpp:108-128 | `?` agrees with the bool cast on scalars and also accepts containers, as their non-emptiness |
| Ops.UnaryAlgebra | core/main/ast.cpp:151-183 | `-` and `!` are involutions, `_` is idempotent, and negating or taking the absolute value of LONG_MIN overflows |
| Ops.Index | core/main/ast.cpp:376-412 | a list needs an int index in range and gives that element; a dict needs a scalar key that is present and gives its value; wrong index types are TypeErrors |
| Ops.IndexAfterUpdate | core/main/ast.cpp:376-388 | reading a list cell after updating it gives the new value |
| Ops.IndexAfterSet | core/main/ast.cpp:389-398 | reading a dict key after setting it gives the new value |
| Ops.IndexIsCodePoint | core/main/ast.cpp:399-408 | indexing a string gives its k-th code point, or the k-th byte of an ASCII string |
| Methods.TypeNameDistinguishes | util/functions.cpp:29-46 | two values get the same type name exactly when they are the same kind of value |
| Methods.TypeOfCast | util/functions.cpp:29-46 | type() of a cast's result names the cast's target type |
| Methods.IntArgument | util/functions.cpp:130-133 | an index argument must be an int, else a TypeError |
| Methods.KeyArgument | util/functions.cpp:171-173 | a key argument must be a scalar, else a TypeError |
| Methods.StrArgument | util/functions.cpp:204-207 | a trim argument must be a string, else a TypeError |
| Methods.StrCharSpan | util/utf8string.cpp:25-53 | getStrChar reads the bytes of one code point from where the skip stops, and fails if the skip failed |
| Methods.RtrimStarts | util/functions.cpp:234 | the srtrim loop starts in its invariant, with the index at the byte length minus one |
| Methods.LtrimFromSuffix | util/functions.cpp:211-219 | what the sltrim loop keeps is a suffix of the string |
| Methods.LtrimSuffix | util/functions.cpp:199-220 | ltrim's result is a suffix of the receiver |
| Methods.RtrimFromPrefix | util/functions.cpp:235-243 | what the srtrim loop keeps is a prefix of the string |
| Methods.RtrimPrefix | util/functions.cpp:223-244 | rtrim's result is a prefix of the receiver |
| Methods.LtrimFromCodePoints | util/functions.cpp:211-218 | the sltrim loop keeps the code points from the first one not found in the trim string on |
| Methods.LtrimDropsLeading | util/functions.cpp:199-220 | on a validly split string, ltrim drops exactly the longest run of leading code points that occur in the trim string |
| Methods.RtrimFromCodePoints | util/functions.cpp:235-242 | the srtrim loop keeps the code points up to the last one not found in the trim string |
| Methods.RtrimDropsTrailing | util/functions.cpp:223-244 | on a well-encoded string, rtrim drops exactly the longest run of trailing code points that occur in the trim string |
| Methods.Arity | core/main/ast.cpp:480-517 | lists have exactly `len append remove put`, dicts `size remove exists` and strings `len ltrim rtrim`; any other name on them is a NameError, and any other receiver a TypeError; `len` and `size` take no argument, `put` two and the others one |
| Methods.Apply | util/functions.cpp:108-244 | len, size and exists answer without changing the receiver; append adds its argument at the end; a list remove is undone by put and a put by remove; a dict remove drops exactly the key; the success conditions of exists, remove and put hold in both directions; ltrim and rtrim need a string argument and give a string |
| Interp.BindEach | core/main/ast.cpp:743-746 | binding the parameters in turn binds exactly the parameter names on top of what was bound |
| Interp.BindParams | core/main/ast.cpp:740-757 | the called function's scope binds exactly its parameter names |
| Interp.Eval | core/main/ast.cpp:11-765 | evaluating any node keeps the depth of the scope chain, and every enclosing scope binds the same names and functions afterwards: only the current scope gains bindings |
| Interp.EvalList | core/main/ast.cpp:341-347 | one value per element; which value each is, in order, is NodeRules.ListValues |
| Interp.EvalEntries | core/main/ast.cpp:358-369 | a dict literal gives a dict whose keys are unique |
| Interp.EvalBinary | core/main/ast.cpp:295-306 | both operands are evaluated in the current scope, so only it can gain bindings |
| Interp.EvalAssignment | core/main/ast.cpp:313-322 | `:=` declares in the current scope and `=` rebinds an existing name, so no enclosing scope gains a name |
| Interp.EvalBlock | core/main/ast.cpp:527-538 | a block leaves no binding behind: every scope keeps the names it bound before; its value is NodeRules.BlockValue |
| Interp.EvalStatements | core/main/ast.cpp:530-536 | running a statement list binds new names only in the current scope; its value and first stop are NodeRules.StatementsComplete and StatementsStop |
| Interp.EvalIf | core/main/ast.cpp:546-558 | the branch block's own scope is dropped, so only the current scope can gain bindings |
| Interp.EvalIndexAssignment | core/main/ast.cpp:443-469 | the write-back reassigns an existing variable, so no enclosing scope gains a name |
| Interp.Store | core/main/ast.cpp:453-466 | storing a list cell or dict entry is the value operation, and reading the index back gives the stored value; other containers are TypeErrors |
| Interp.WriteBack | core/main/ast.cpp:415-436 | writing back rebinds an existing variable, so no enclosing scope gains a name |
| Interp.EvalMethod | core/main/ast.cpp:480-520 | a method call, including its write-back, binds new names only in the current scope |
| Interp.CallMethod | core/main/ast.cpp:480-520 | applying a method and writing the receiver back binds new names only in the current scope |
| Interp.EvalMethodArgs | util/functions.cpp:108-150 | one value per argument |
| Interp.AfterBody | core/main/ast.cpp:606-613 | a break ends the loop with the last value, a continue goes on with it, and a return or an error leaves the loop |
| Interp.CloseLoop | core/main/ast.cpp:573-574 | closing the loop scope leaves every scope's names as before the loop |
| Interp.RangeStep | core/main/ast.cpp:589-605 | a given step must be an int (else a TypeError) and is used as it is when it is non-zero and points from start to end (else a ValueError); without a step it is 1 or -1 towards the end |
| Interp.EvalRange | core/main/ast.cpp:573-614 | the loop scope is dropped on every exit, so only the current scope can gain bindings |
| Interp.RangeLoop | core/main/ast.cpp:606-614 | iterations run in the loop scope, so no enclosing scope gains a name |
| Interp.EvalEach | core/main/ast.cpp:616-629 | the loop scope is dropped on every exit, so only the current scope can gain bindings |
| Interp.EachLoop | core/main/ast.cpp:620-629 | iterations run in the loop scope, so no enclosing scope gains a name |
| Interp.EvalWhile | core/main/ast.cpp:639-659 | the condition and the body run in the current scope, and the body block's own scope is dropped after each run, so only the current scope can gain bindings |
| Interp.WhileLoop | core/main/ast.cpp:644-654 | every iteration runs the body block, whose own scope is dropped, so no enclosing scope gains a name |
| Interp.EvalCall | core/main/ast.cpp:709-764 | the callee's scope is dropped on every exit, so only the current scope can gain bindings |
| Interp.ReturnFrom | core/main/ast.cpp:759-763 | the end of the body or a return gives the call its value in the caller's chain, an error passes through, and every scope of the caller's chain binds the same names |
| InterpFacts.ParentOfChild | core/scope.cpp:68-70 | dropping a fresh child scope gives back the parent chain |
| InterpFacts.EmptyBlock | core/main/ast.cpp:527-538 | an empty block gives null and changes nothing |
| InterpFacts.BoolConnectives | core/main/ast.cpp:271-284 | `&` and the or operator on two bools are conjunction and disjunction |
| InterpFacts.NoShortCircuit | core/main/ast.cpp:295-306 | an instance of NodeRules.BinaryRule: `true` or an unbound variable, and `false` `&` one, fail with a NameError because the right operand is evaluated anyway |
| InterpFacts.ContinueBlock | core/main/ast.cpp:666-672 | a continue statement leaves its block as a continue |
| InterpFacts.ContinueLoopsForever | core/main/ast.cpp:645-651 | a continue skips both the condition and the iteration count, so the loop runs out of any step bound |
| InterpFacts.WhileContinueDiverges | core/main/ast.cpp:639-659 | `while true do continue stop` never ends, despite the iteration cap |
| InterpFacts.EmptyLoopStops | core/main/ast.cpp:642-654 | a true condition with an empty body stops once the counter reaches zero |
| InterpFacts.WhileStopsAtCap | core/main/ast.cpp:642-654 | `while true` with an empty body ends after 999999 iterations with null |
| InterpFacts.BreakBlock | core/main/ast.cpp:666-672 | a break statement leaves its block as a break |
| InterpFacts.SetTwice | core/scope.cpp:7-9 | setting a variable twice keeps only the second value |
| InterpFacts.RangeBreak | core/main/ast.cpp:606-614 | a break in the body ends a range loop after binding the variable once |
| InterpFacts.RangeAtLongMax | core/main/ast.cpp:606 | `for i in LONG_MAX..LONG_MAX` overflows the increment after its only iteration |
| InterpFacts.RangeRunsOnce | core/main/ast.cpp:606-614 | one iteration binds the variable, runs the body, and steps |
| InterpFacts.RangeEnds | core/main/ast.cpp:606 | a range loop past its end stops with the last value |
| InterpFacts.RangeVisits | core/main/ast.cpp:606-614 | `for x in i..end do x stop` gives `end`, with `x` bound to `end` |
| InterpFacts.EachVisits | core/main/ast.cpp:616-629 | a for-each loop whose body reads the loop variable ends with the last key, bound to the variable |
| InterpFacts.BlockBindsNothing | core/main/ast.cpp:527-538 | after a block the chain has the same names and functions as before it |
| InterpFacts.DeclareThenFind | core/main/ast.cpp:692-698 | declaring a built-in's name is a NameError; any other declaration gives null, is found afterwards, and leaves every variable unchanged |
| InterpFacts.VariadicNeedsParameter | core/main/ast.cpp:728-738 | a variadic function without parameters accepts no call, and a plain one without parameters only a call without arguments |
| InterpFacts.CallArityMismatch | core/main/ast.cpp:728-738 | a call with the wrong argument count is a ValueError |
| InterpFacts.BindParamsPositions | core/main/ast.cpp:740-757 | each parameter takes the argument at its position; a variadic last parameter takes the list of the remaining ones |
| InterpFacts.CallWithoutArguments | core/main/ast.cpp:709-764 | a call without parameters runs the body in a child of the caller's scope |
| InterpFacts.DynamicScoping | core/main/ast.cpp:740-764 | a function body reads its caller's variables |
| InterpFacts.ReturnBlock | core/main/ast.cpp:679-685 | a return ends its block with the returned value and skips the rest |
| InterpFacts.ReturnSkipsRest | core/main/ast.cpp:759-763 | a call whose body starts with a return gives that value, and leaves the caller's chain as it was |
| InterpFacts.IndexAssignBody | core/main/ast.cpp:443-469 | index assignment evaluates the container, the index, then the value, stores, writes back, and gives the value |
| InterpFacts.WriteBackVariable | core/main/ast.cpp:433-434 | writing back to a variable reassigns it |
| InterpFacts.WriteBackIndex | core/main/ast.cpp:416-432 | writing back through `c[i]` re-evaluates `c` and `i`, updates the parent, and writes the parent back |
| InterpFacts.IndexAssignThenRead | core/main/ast.cpp:443-469 | after `x[k] = n` the variable holds the updated list and `x[k]` reads `n` |
| InterpFacts.NestedIndexAssign | core/main/ast.cpp:415-436 | `a[i][j] = n` updates the inner list inside the outer one, as updateNestedContainer intends |
| InterpFacts.DictAssign | core/main/ast.cpp:459-463 | `x["k"] = n` sets that key of the dict held by `x` and leaves every other key |
| InterpFacts.MethodUpdates | core/main/ast.cpp:518-519 | a mutating method writes the updated receiver back and returns it |
| InterpFacts.MethodAnswers | core/main/ast.cpp:484-501 | len, size and exists return their answer without a write-back |
| InterpFacts.UpdatesVariable | core/main/ast.cpp:480-520 | a mutating method on a variable leaves the updated value in the variable |
| InterpFacts.AppendApplies | util/functions.cpp:116-122 | append takes one argument and adds it at the end |
| InterpFacts.AppendWritesBack | core/main/ast.cpp:480-520 | `x.append(n)` leaves `x` holding the list with `n` added |
| InterpFacts.LenAnswers | core/main/ast.cpp:484-485 | `x.len()` gives the length of the list in `x` |
| InterpFacts.MissingReceiver | core/main/ast.cpp:480-481 | a method call on a null receiver dereferences a null node, which is undefined |
| InterpFacts.EntryStep | core/main/ast.cpp:360-367 | each dict entry evaluates its key, then its value, and sets the key |
| InterpFacts.DictLiteralLastWins | core/main/ast.cpp:366 | a repeated key in a dict literal keeps its last value |
| NodeRules.BinaryRule | core/main/ast.cpp:295-306 | for any operands: the left one, then the right one in the scope the left one leaves, then the operator on both values; a stop in either operand stops the node, so `&` and the or operator never skip the right operand |
| NodeRules.AssignRule | core/main/ast.cpp:313-322 | the value first; `:=` binds it in the current scope; `=` rebinds the name where it is found, keeping every scope's names, and is a NameError exactly when no scope binds it; afterwards the name reads back the value, which is the result |
| NodeRules.IfRule | core/main/ast.cpp:546-558 | a condition that is not a bool is a TypeError; true runs the then block, false the else block or gives null without one |
| NodeRules.RangeNeedsInts | core/main/ast.cpp:577-584 | bounds that are not both ints are a TypeError, raised before any step is evaluated |
| NodeRules.RangeWithoutStep | core/main/ast.cpp:573-605 | without a step, the loop counts by 1 or -1 towards the end, in a loop scope opened in the scope the bounds leave and closed afterwards |
| NodeRules.RangeWithStep | core/main/ast.cpp:573-614 | the step is evaluated after both bounds; a stop in it stops the loop, an unusable step is RangeStep's error, and a usable one drives the loop in its loop scope |
| NodeRules.StepStops | core/main/ast.cpp:591 | a step whose evaluation stops stops the loop with the same exit |
| NodeRules.StepRejected | core/main/ast.cpp:592-605 | a step RangeStep rejects stops the loop with RangeStep's error before any iteration |
| NodeRules.StepAccepted | core/main/ast.cpp:573-614 | a step RangeStep accepts drives the range loop in a loop scope opened in the scope the step leaves |
| NodeRules.RangeTurn | core/main/ast.cpp:606-614 | one turn for any body: past the end the loop gives the last body value; otherwise the variable is set and the body runs; a break ends the loop, an error or return leaves it, and a normal end or a continue moves the variable on by the step, an overflowing increment being undefined |
| NodeRules.RangeVisitsByStep | core/main/ast.cpp:606-614 | with any positive step, `for x in i..end` visits `i, i + step, …` and ends on the last of them not past `end`, leaving the variable bound to it |
| NodeRules.RangeBodyDone | core/main/ast.cpp:606-609 | a body that ends normally hands its value and scope to the next turn, at the variable plus the step |
| NodeRules.RangePast | core/main/ast.cpp:606 | a loop with a positive step past its end gives the last body value and leaves the scope as it is |
| NodeRules.EachRule | core/main/ast.cpp:616-629 | a value that is not a dict is a TypeError; a dict's keys are taken once and looped over in a loop scope opened in the enclosing scope |
| NodeRules.EachTurn | core/main/ast.cpp:620-628 | one turn for any body: with no key left the loop gives the last body value; otherwise the variable takes the next key and the body's break, continue, error or return are treated as in a range loop |
| NodeRules.WhileRule | core/main/ast.cpp:639-659 | the condition is evaluated in the current scope and must be a bool, else a TypeError; the loop then starts in that scope, with no scope of its own, and a budget of 999999 iterations |
| NodeRules.WhileTurn | core/main/ast.cpp:644-654 | one turn for any condition and body: a false condition or a spent budget ends the loop with the last body value; a break ends it; an error or return leaves it; a continue goes back to the test without re-evaluating the condition or spending an iteration; a normal run re-evaluates the condition and spends one |
| NodeRules.WhileBodyStops | core/main/ast.cpp:645-651 | under a true condition, a continue in the body returns to the test with the same budget, a break ends the loop with the last value, and an error or return leaves it |
| NodeRules.WhileBodyDone | core/main/ast.cpp:645-653 | under a true condition, a body that ends normally is followed by the condition, evaluated in the scope the body leaves, and one iteration less |
| NodeRules.CalleeScope | core/main/ast.cpp:740-757 | the called body's scope is one frame holding exactly the parameter names and no functions, directly inside the caller's chain |
| NodeRules.CallRule | core/main/ast.cpp:709-764 | for any arguments and body: the arguments are evaluated in the caller's scope, the body runs in the parameters' scope, and a return or the end of the body gives the call its value, an error passing through |
| NodeRules.CallUnknown | core/main/ast.cpp:724-726 | a call of a name that is neither a built-in nor a declared function is a NameError |
| NodeRules.RoundingRule | util/functions.cpp:71-104 | `round`, `floor` and `ceil` take exactly one argument, or are a ValueError before anything is evaluated; the argument's stop is the call's; a value that is not a float is a TypeError; only rounding a float is left unmodelled |
| NodeRules.RoundfRule | util/functions.cpp:49-68 | `roundf` takes exactly two arguments, or is a ValueError before anything is evaluated; the precision is evaluated before the value; a precision that is no scalar is a bad variant access in the guard, a value that is not a float a TypeError, a scalar precision that is not an int a bad variant access when it is read, and a negative precision a ValueError |
| NodeRules.MethodRule | core/main/ast.cpp:480-520 | the receiver first; a receiver or method name the table rejects, or a wrong argument count, stops the call before any argument is evaluated; otherwise the method is applied and the receiver written back |
| NodeRules.PutArguments | util/functions.cpp:141-150 | put evaluates its index, which must be an int, before the value to insert; a non-int index is a TypeError and the value is then not evaluated |
| NodeRules.BlockRule | core/main/ast.cpp:527-538 | a block runs its statements in a child of the current scope starting from null; a normal end gives the last value and a break, continue or return its exit, each with the child scope closed; an error passes through |
| NodeRules.StatementsRule | core/main/ast.cpp:530-536 | no statement left gives the value carried so far; otherwise the first statement runs, its stop is the outcome, and a normal end carries its value and scope to the rest |
| NodeRules.StatementsComplete | core/main/ast.cpp:527-538 | statements that all complete, each in the scope the previous one left, give the last one's value (the value carried in when there are none) and the scope the last one leaves |
| NodeRules.StatementsStop | core/main/ast.cpp:530-536 | the first statement that stops ends the list with its exit; no later statement runs |
| NodeRules.BlockValue | core/main/ast.cpp:527-538 | a block whose statements all complete gives the last statement's value, or null when it is empty, with its own scope closed |
| NodeRules.ListRule | core/main/ast.cpp:341-347 | a list literal evaluates its first element, then the rest in the scope the first leaves, and puts the first value in front; the first stop is the outcome |
| NodeRules.ListValues | core/main/ast.cpp:341-347 | elements that all complete give the list of their values: element i of the result is the value of element i, evaluated left to right |
| NodeRules.ListStops | core/main/ast.cpp:341-347 | the first element that stops ends the literal with its exit; no later element is evaluated |

## Left out

- Floating point. A float literal keeps its text, and every float computation is the `Unsupported` error. This covers float arithmetic, `stod`, `fmod`, `pow`, and the float side of the casts.
- Ops.IntOp: int `**` goes through floating-point `pow`, so it is `Unsupported`.
- Ops.ToInt: a float cast to int is `Unsupported`; the truncating `static_cast<long>` of a double is not modelled.
- Float keys compare by literal text, so `1.0` and `1.00` are different keys.
- The rounding built-ins (`roundf`, `round`, `floor`, `ceil`): their argument count, the evaluation of their arguments, and their type and precision checks are modelled (NodeRules.RoundingRule and RoundfRule). Only the rounding of a float, which is floating-point arithmetic, is `Unsupported`.
- `print` evaluates its arguments and gives null. Its output is I/O and is not modelled.
- Aliasing of shared cells. In the source, list elements and dict values are shared cells, so an update through one copy of a container is seen by every copy. The model gives containers value semantics plus the write-back of `updateNestedContainer`. The two agree for updates made through a variable's own access path. They differ for containers that two variables share after an assignment.
- Dict key order. The header that defines the dict type is not part of this model. `getDictKeys` and dict iteration use the order the keys were first set in.
- State after an error. A failing statement hands back no scope chain. Bindings made before the error inside the failing statement are not kept, which only matters to the REPL that carries on after an error.
- Evaluation depth. Evaluation has a `fuel` bound. A program that needs more steps ends in `OutOfFuel`, which stands for non-termination or a deeper run than the bound. This includes deep recursion, which overflows the C++ stack.
- main.cpp and the REPL driver are not part of this model. This covers reading lines, calling `isStatementComplete` to decide whether to read more, and printing results and errors. `isStatementComplete` itself is modelled.
- `getTypeName` is not modelled, and neither are any error message texts: errors are told apart by kind.
- Value printing and `to_string` of `core/value.cpp` are not modelled: they are output.
- Statements the parser as written cannot produce are not parsed: `:=`, `for`, `while`, `def`, dict literals, casts, `return`, `break`/`continue` and function calls. Their evaluation is still modelled, node by node.
- Parser.ParseStatement: its own contract states progress; what it parses for every stream is ParserRules.StatementRule.
- Parser.ParseIf: its own contract states progress; the rule for every stream is ParserRules.IfRule.
- Parser.IfBlocks: its own contract states the condition only; the blocks for every stream are ParserRules.IfBlocksRule.
- Parser.ParseBlock: its own contract states where the block stops; what it collects is ParserRules.BlockRule.
- Parser.ParseFactor: its own contract states progress; the rule for every stream is ParserRules.FactorRule.
- Parser.ParseBinary: the contracts of the parsing functions state progress and the absence of null receivers. The trees they build are stated by the ParserFacts lemmas for chains of literals and variables, not for arbitrary sub-expressions.
- Interp.Eval: the contracts of the evaluation functions state scope discipline only. What each node does with the outcomes of its parts, for any operands, is stated by the NodeRules lemmas (blocks and list literals by BlockRule, BlockValue, ListRule and ListValues), and what particular programs evaluate to by the InterpFacts lemmas.
- Interp.EvalBlock: its own contract states scope discipline; its value is NodeRules.BlockRule and BlockValue.
- Interp.EvalList: its own contract states the count; the values in order are NodeRules.ListRule and ListValues.
- Interp.EvalBinary: its own contract states scope discipline; the evaluation order and the operator are NodeRules.BinaryRule.
- Interp.EvalAssignment: its own contract states scope discipline; what `:=` and `=` bind is NodeRules.AssignRule.
- Interp.EvalIf: its own contract states scope discipline; which block runs is NodeRules.IfRule.
- Interp.EvalRange: its own contract states scope discipline; its errors and loop are NodeRules.RangeNeedsInts, RangeWithoutStep and RangeWithStep.
- Interp.RangeLoop: its own contract states scope discipline; one turn for any body is NodeRules.RangeTurn, and the visited values NodeRules.RangeVisitsByStep for a positive step and a body reading the variable.
- Interp.EvalEach: its own contract states scope discipline; its error and loop are NodeRules.EachRule.
- Interp.EachLoop: its own contract states scope discipline; one turn for any body is NodeRules.EachTurn.
- Interp.EvalWhile: its own contract states scope discipline; its error and loop are NodeRules.WhileRule.
- Interp.WhileLoop: its own contract states scope discipline; one turn for any condition and body is NodeRules.WhileTurn.
- Interp.EvalCall: its own contract states scope discipline; a call of a user function is NodeRules.CallRule, an unknown name NodeRules.CallUnknown, and the rounding built-ins NodeRules.RoundingRule and RoundfRule.
- Interp.EvalMethod: its own contract states scope discipline; the order of its checks is NodeRules.MethodRule.
- Interp.EvalMethodArgs: its own contract states the count; put's order is NodeRules.PutArguments.
- The parser's debug variant of `advanceToken` is not modelled: it only adds output. The lexer's `reset` is `Lexer.Reset`, which starts the one whole input the model lexes.

## Findings

| source | as written | input that shows it | evidently intended | confidence | as-written member | corrected member |
|---|---|---|---|---|---|---|
| core/main/parser.cpp:258-272 | parseFactor enters the postfix loop with a null node when no primary was read, and a '.' there builds a method call on the null node; evaluating it dereferences null | the input `.len()` | a '.' with nothing before it is rejected as an unexpected token | not executed | ParserFacts.NullReceiverAsWritten | ParserFacts.NullReceiverRejected |

The evaluator runs what `Parser.ParseInput` yields, which uses the corrected parser. `InterpFacts.MissingReceiver` states what the tree built as written would do: an undefined dereference.

=== FILE: ast.dfy ===
/** The syntax tree of core/main/ast.cpp: one alternative per node class.
    Each node owns its children, so the tree is an ordinary datatype. A block
    (BlockNode) is kept as its sequence of statements wherever the source
    holds a BlockNode directly. */
module Ast {
  import opened Errors
  import opened Lexer

  datatype Node =
    | IntLit(n: int)
    | FloatLit(text: string)
    | StrLit(s: string)
    | BoolLit(b: bool)
    /** A cast to the type named by a type keyword (INT_T, FLOAT_T, BOOL_T, STR_T). */
    | TypeCast(target: TokenKind, operand: Node)
    | Unary(uop: TokenKind, operand: Node)
    | Binary(bop: TokenKind, left: Node, right: Node)
    /** `reassign` picks assignVariable (rebind where found) over setVariable
        (bind in the current scope). */
    | Assignment(name: string, reassign: bool, value: Node)
    | Variable(name: string)
    | ListLit(elements: seq<Node>)
    | DictLit(entries: seq<Entry>)
    | IndexAccess(container: Node, index: Node)
    | IndexAssignment(access: Node, value: Node)
    /** A method call; the receiver is absent when the parser built the call
        on a null node (a statement that starts with '.'). */
    | MethodCall(receiver: Option<Node>, mname: string, args: seq<Node>)
    | Block(statements: seq<Node>)
    /** `hasElse` is false where the source's else block is a null pointer. */
    | IfElse(cond: Node, thenBlock: seq<Node>, hasElse: bool, elseBlock: seq<Node>)
    /** ForLoopNode with isRangeLoop set: start..end, with an optional step. */
    | ForRange(variable: string, start: Node, end: Node, step: Option<Node>, body: seq<Node>)
    /** ForLoopNode without isRangeLoop: iteration over the keys of a dict. */
    | ForEach(variable: string, iterable: Node, body: seq<Node>)
    | While(cond: Node, body: seq<Node>)
    | ControlFlow(isBreak: bool)
    | Return(expr: Option<Node>)
    | FuncDecl(fname: string, params: seq<string>, hasArgs: bool, body: seq<Node>)
    | Call(callee: string, args: seq<Node>)

  /** One `key: value` entry of a dictionary literal. */
  datatype Entry = Entry(key: Node, value: Node)
}

=== FILE: errors.dfy ===
/** The closed error taxonomy of the interpreter (util/errors.h), plus the
    standard-library exceptions the core can raise outside that taxonomy, and
    the failure-compatible Option/Result wrappers used by every other module. */
module Errors {

  /** What a `SyntaxError` says was expected. Each missing piece of a
      construct is reported with its own message in the source; the model keeps
      them apart so that "each is a distinct error" can be stated. */
  datatype Expected =
    | ConditionAfterIf
    | ThenAfterCondition
    | StopAfterIf
    | CommaOrBracketInList
    | BracketAfterIndex
    | MethodNameAfterDot
    | ParenAfterMethodName
    | ParenAfterArguments
    | SeparatorAfterStatement

  /** What a `ParserError` complains about. */
  datatype Unparsable =
    | UnexpectedToken
    | ClosingParenMissing

  datatype Error =
    // the BaseError family of util/errors.h
    | InterpreterError
    | SyntaxError(expected: Expected)
    | LexerError
    | ParserError(what: Unparsable)
    | TypeError
    | NameError
    | IndexError
    | ValueError
    | ConversionError
    // standard exceptions that are not BaseErrors; the driver reports them as
    // unexpected errors
    | InvalidEncoding      // std::runtime_error("Invalid UTF-8 encoding")
    | BadVariantAccess     // std::get on the wrong alternative of a variant
    | OutOfRange           // std::out_of_range from std::stol
    // outcomes that exist only in the model
    | Undefined            // the C++ behaviour is undefined (null child, overflow, x / 0)
    | Unsupported          // floating-point computation, which is not modelled
    | OutOfFuel            // the evaluator's step bound ran out

  datatype Option<+T> = None | Some(value: T) {
    predicate IsFailure() { None? }

    function PropagateFailure<U>(): Option<U>
      requires None?
    {
      None
    }

    function Extract(): T
      requires Some?
    {
      value
    }
  }

  datatype Result<+T> = Ok(value: T) | Err(error: Error) {
    predicate IsFailure() { Err? }

    function PropagateFailure<U>(): Result<U>
      requires Err?
    {
      Err(error)
    }

    function Extract(): T
      requires Ok?
    {
      value
    }
  }

  function Min(a: int, b: int): int {
    if a <= b then a else b
  }
}

=== FILE: interp.dfy ===
/** The evaluator of core/main/ast.cpp: every node's evaluate, run against a
    scope chain that is passed in and handed back.

    The source signals break, continue, return and errors with C++
    exceptions; here an evaluation either finishes (`Done`, with a value and
    the scope chain afterwards) or stops (`Stop`) with one of those exits.
    Every scope a node opens (a block, a loop, a function call) is closed
    again on every exit that carries a chain, so the chain handed back
    always has the depth of the chain passed in. Evaluation is bounded by a
    `fuel` count, which every nested evaluation spends one of; running out
    is the `OutOfFuel` error and stands for a computation that does not end
    within the bound. */
module Interp {
  import opened Errors
  import opened Values
  import opened Scopes
  import opened Ast
  import Lexer
  import Ops
  import Methods

  /** What FunctionDeclarationNode stores in a scope: the parameter names,
      whether the last one collects the remaining arguments (`hasArgs`), and
      the statements of the body block. */
  datatype FuncDef = FuncDef(params: seq<string>, hasArgs: bool, body: seq<Node>)

  type Env = Chain<FuncDef>

  /** The exceptions of the source: an error, or a break, continue or return
      that unwinds to the loop or call that catches it. */
  datatype Exit =
    | Fail(error: Error)
    | Broke(env: Env)
    | Continued(env: Env)
    | Returned(result: Value, env: Env)

  datatype Outcome<T> = Done(value: T, env: Env) | Stop(exit: Exit) {
    predicate IsFailure() {
      Stop?
    }

    function PropagateFailure<U>(): Outcome<U>
      requires Stop?
    {
      Stop(exit)
    }

    function Extract(): (T, Env)
      requires Done?
    {
      (value, env)
    }
  }

  function Lift<T>(r: Result<T>, env: Env): (o: Outcome<T>)
    ensures r.Ok? ==> o == Done(r.value, env)
    ensures r.Err? ==> o == Stop(Fail(r.error))
  {
    match r
    case Ok(v) => Done(v, env)
    case Err(e) => Stop(Fail(e))
  }

  // ---- scope shapes ---------------------------------------------------

  /** Which names each frame binds: the variables' names and the functions. */
  function Shape(c: seq<Frame<FuncDef>>): (r: seq<(set<string>, map<string, FuncDef>)>)
    ensures |r| == |c|
  {
    seq(|c|, j requires 0 <= j < |c| => (c[j].vars.Keys, c[j].funcs))
  }

  /** `d` has the frames of `c`, and every frame but the innermost binds the
      same names: only the current scope can gain bindings. */
  predicate Outer(c: Env, d: Env) {
    |d| == |c| && Shape(d)[1..] == Shape(c)[1..]
  }

  /** `d` has the frames of `c`, each binding the same names. */
  predicate Whole(c: Env, d: Env) {
    Shape(d) == Shape(c)
  }

  /** An outcome keeps the outer frames' bindings of `c` on every exit that
      carries a chain. */
  predicate Keeps<T>(c: Env, o: Outcome<T>) {
    match o
    case Done(_, d) => Outer(c, d)
    case Stop(x) => x.Fail? || Outer(c, x.env)
  }

  /** An outcome keeps all of the bindings of `c` on every exit that carries
      a chain: the evaluation bound nothing new in any scope it did not open. */
  predicate Encloses<T>(c: Env, o: Outcome<T>) {
    match o
    case Done(_, d) => Whole(c, d)
    case Stop(x) => x.Fail? || Whole(c, x.env)
  }

  lemma ShapeTail(c: seq<Frame<FuncDef>>)
    requires |c| > 0
    ensures Shape(c[1..]) == Shape(c)[1..]
  {
  }

  lemma ShapeSet(c: Env, name: string, v: Value)
    ensures Outer(c, SetVariable(c, name, v))
  {
    ShapeTail(c);
    ShapeTail(SetVariable(c, name, v));
  }

  lemma ShapeFunction(c: Env, name: string, f: FuncDef)
    ensures Outer(c, SetFunction(c, name, f))
  {
    ShapeTail(c);
    ShapeTail(SetFunction(c, name, f));
  }

  lemma ShapeAssign(c: Env, name: string, v: Value)
    requires AssignVariable(c, name, v).Ok?
    ensures Whole(c, AssignVariable(c, name, v).value)
  {
    var d := AssignVariable(c, name, v).value;
    var i := FindVariable(c, name).value;
    forall j | 0 <= j < |c|
      ensures Shape(d)[j] == Shape(c)[j]
    {
      if j == i {
        assert d[j].vars.Keys == c[j].vars.Keys;
      }
    }
  }

  lemma ShapeChild(c: Env)
    ensures Shape(CreateChild(c))[1..] == Shape(c)
  {
    ShapeTail(CreateChild(c));
  }

  lemma ShapeParent(c: Env)
    requires |c| > 1
    ensures Shape(Parent(c)) == Shape(c)[1..]
  {
    assert Parent(c) == c[1..];
    ShapeTail(c);
  }

  // ---- function calls -------------------------------------------------

  /** The argument count FunctionCallNode accepts: with `hasArgs`, at least
      one fewer than the parameters (the size_t subtraction makes a
      variadic function without parameters accept nothing); without, exactly
      as many as the parameters. */
  predicate ArityFits(f: FuncDef, n: nat) {
    if f.hasArgs then |f.params| > 0 && |f.params| - 1 <= n else |f.params| == n
  }

  /** setVariable for each parameter in turn, so a repeated name keeps the
      last value bound to it. */
  function BindEach(ps: seq<string>, vs: seq<Value>, m: map<string, Value>): (r: map<string, Value>)
    requires |ps| == |vs|
    ensures r.Keys == m.Keys + set p | p in ps
    decreases |ps|
  {
    if |ps| == 0 then m else BindEach(ps[1..], vs[1..], m[ps[0] := vs[0]])
  }

  /** The variables of the called function's scope: the leading parameters
      take the leading arguments, and the last parameter takes the last
      argument, or with `hasArgs` a list of all the remaining ones. */
  function BindParams(f: FuncDef, vs: seq<Value>): (r: map<string, Value>)
    requires ArityFits(f, |vs|)
    ensures r.Keys == set p | p in f.params
  {
    if |f.params| == 0 then map[]
    else
      var n := |f.params| - 1;
      var last := if f.hasArgs then List(vs[n..]) else vs[n];
      BindEach(f.params[..n], vs[..n], map[])[f.params[n] := last]
  }

  const Builtins: set<string> := {"print", "type", "roundf", "round", "floor", "ceil"}

  // ---- evaluation -----------------------------------------------------

  function Eval(n: Node, env: Env, fuel: nat): (o: Outcome<Value>)
    ensures Keeps(env, o)
    decreases fuel
  {
    if fuel == 0 then Stop(Fail(OutOfFuel))
    else
      match n
      case IntLit(i) => Done(Base(Int(i)), env)
      case FloatLit(t) => Done(Base(Float(t)), env)
      case StrLit(s) => Done(Base(Str(s)), env)
      case BoolLit(b) => Done(Base(Bool(b)), env)
      case TypeCast(target, operand) =>
        var v :- Eval(operand, env, fuel - 1);
        Lift(Ops.Cast(target, v.0), v.1)
      case Unary(op, operand) =>
        var v :- Eval(operand, env, fuel - 1);
        Lift(Ops.Unary(op, v.0), v.1)
      case Binary(op, left, right) => EvalBinary(op, left, right, env, fuel - 1)
      case Assignment(name, reassign, value) => EvalAssignment(name, reassign, value, env, fuel - 1)
      case Variable(name) => Lift(GetVariable(env, name), env)
      case ListLit(elements) =>
        var vs :- EvalList(elements, env, fuel - 1);
        Done(List(vs.0), vs.1)
      case DictLit(entries) => EvalEntries(entries, [], env, fuel - 1)
      case IndexAccess(container, index) =>
        var c :- Eval(container, env, fuel - 1);
        var i :- Eval(index, c.1, fuel - 1);
        Lift(Ops.Index(c.0, i.0), i.1)
      case IndexAssignment(access, value) => EvalIndexAssignment(access, value, env, fuel - 1)
      case MethodCall(receiver, name, args) => EvalMethod(receiver, name, args, env, fuel - 1)
      case Block(statements) => EvalBlock(statements, env, fuel - 1)
      case IfElse(cond, thenBlock, hasElse, elseBlock) => EvalIf(cond, thenBlock, hasElse, elseBlock, env, fuel - 1)
      case ForRange(x, start, end, step, body) => EvalRange(x, start, end, step, body, env, fuel - 1)
      case ForEach(x, iterable, body) => EvalEach(x, iterable, body, env, fuel - 1)
      case While(cond, body) => EvalWhile(cond, body, env, fuel - 1)
      case ControlFlow(isBreak) => if isBreak then Stop(Broke(env)) else Stop(Continued(env))
      case Return(expr) =>
        if expr.None? then Stop(Returned(Null, env))
        else
          var v :- Eval(expr.value, env, fuel - 1);
          Stop(Returned(v.0, v.1))
      case FuncDecl(name, params, hasArgs, body) =>
        if name in Builtins then Stop(Fail(NameError))
        else
          ShapeFunction(env, name, FuncDef(params, hasArgs, body));
          Done(Null, SetFunction(env, name, FuncDef(params, hasArgs, body)))
      case Call(name, args) => EvalCall(name, args, env, fuel - 1)
  }

  /** The elements of a list literal (and the arguments of a call), left to right. */
  function EvalList(ns: seq<Node>, env: Env, fuel: nat): (o: Outcome<seq<Value>>)
    ensures Keeps(env, o)
    ensures o.Done? ==> |o.value| == |ns|
    decreases fuel
  {
    if fuel == 0 then Stop(Fail(OutOfFuel))
    else if |ns| == 0 then Done([], env)
    else
      var v :- Eval(ns[0], env, fuel - 1);
      var vs :- EvalList(ns[1..], v.1, fuel - 1);
      Done([v.0] + vs.0, vs.1)
  }

  /** DictNode: for each entry the key, which must be a scalar, then the
      value; a later entry with the same key overwrites an earlier one. */
  function EvalEntries(es: seq<Entry>, acc: seq<(Scalar, Value)>, env: Env, fuel: nat): (o: Outcome<Value>)
    ensures Keeps(env, o)
    ensures o.Done? ==> o.value.Dict? && (KeysUnique(acc) ==> KeysUnique(o.value.entries))
    decreases fuel
  {
    if fuel == 0 then Stop(Fail(OutOfFuel))
    else if |es| == 0 then Done(Dict(acc), env)
    else
      var k :- Eval(es[0].key, env, fuel - 1);
      if !k.0.Base? then Stop(Fail(TypeError))
      else
        var v :- Eval(es[0].value, k.1, fuel - 1);
        SetEntryLookup(acc, k.0.base, v.0, k.0.base);
        EvalEntries(es[1..], SetEntry(acc, k.0.base, v.0), v.1, fuel - 1)
  }

  /** BinaryOpNode: both operands are evaluated, `and` and `or` included. */
  function EvalBinary(op: Lexer.TokenKind, left: Node, right: Node, env: Env, fuel: nat): (o: Outcome<Value>)
    ensures Keeps(env, o)
    decreases fuel
  {
    if fuel == 0 then Stop(Fail(OutOfFuel))
    else
      var l :- Eval(left, env, fuel - 1);
      var r :- Eval(right, l.1, fuel - 1);
      Lift(Ops.BinaryOp(op, l.0, r.0), r.1)
  }

  /** AssignmentNode: `:=`-style binding in the current scope, or `=`
      rebinding where the name is found (a NameError when it is nowhere). */
  function EvalAssignment(name: string, reassign: bool, value: Node, env: Env, fuel: nat): (o: Outcome<Value>)
    ensures Keeps(env, o)
    decreases fuel
  {
    if fuel == 0 then Stop(Fail(OutOfFuel))
    else
      var v :- Eval(value, env, fuel - 1);
      if reassign then
        match AssignVariable(v.1, name, v.0)
        case Err(e) => Stop(Fail(e))
        case Ok(e) =>
          ShapeAssign(v.1, name, v.0);
          Done(v.0, e)
      else
        ShapeSet(v.1, name, v.0);
        Done(v.0, SetVariable(v.1, name, v.0))
  }

  /** BlockNode: the statements run in a new child scope, which is closed
      again however the block ends; the value is the last statement's, or
      null for an empty block. */
  function EvalBlock(stmts: seq<Node>, env: Env, fuel: nat): (o: Outcome<Value>)
    ensures Encloses(env, o)
    decreases fuel
  {
    if fuel == 0 then Stop(Fail(OutOfFuel))
    else
      var inner := CreateChild(env);
      ShapeChild(env);
      var o := EvalStatements(stmts, Null, inner, fuel - 1);
      match o
      case Done(v, d) => ShapeParent(d); Done(v, Parent(d))
      case Stop(Fail(e)) => Stop(Fail(e))
      case Stop(Broke(d)) => ShapeParent(d); Stop(Broke(Parent(d)))
      case Stop(Continued(d)) => ShapeParent(d); Stop(Continued(Parent(d)))
      case Stop(Returned(v, d)) => ShapeParent(d); Stop(Returned(v, Parent(d)))
  }

  function EvalStatements(stmts: seq<Node>, last: Value, env: Env, fuel: nat): (o: Outcome<Value>)
    ensures Keeps(env, o)
    decreases fuel
  {
    if fuel == 0 then Stop(Fail(OutOfFuel))
    else if |stmts| == 0 then Done(last, env)
    else
      var v :- Eval(stmts[0], env, fuel - 1);
      EvalStatements(stmts[1..], v.0, v.1, fuel - 1)
  }

  /** IfElseNode: the condition must be a bool; a false condition without an
      else block gives null. */
  function EvalIf(cond: Node, thenBlock: seq<Node>, hasElse: bool, elseBlock: seq<Node>, env: Env, fuel: nat): (o: Outcome<Value>)
    ensures Keeps(env, o)
    decreases fuel
  {
    if fuel == 0 then Stop(Fail(OutOfFuel))
    else
      var c :- Eval(cond, env, fuel - 1);
      if !(c.0.Base? && c.0.base.Bool?) then Stop(Fail(TypeError))
      else if c.0.base.b then EvalBlock(thenBlock, c.1, fuel - 1)
      else if hasElse then EvalBlock(elseBlock, c.1, fuel - 1)
      else Done(Null, c.1)
  }

  // ---- indexing -------------------------------------------------------

  /** IndexAssignmentNode: the container, the index and the new value are
      evaluated in that order; a list needs an int index in range, a dict a
      scalar key; the updated container is written back through the access
      path, and the value assigned is the result. */
  function EvalIndexAssignment(access: Node, value: Node, env: Env, fuel: nat): (o: Outcome<Value>)
    ensures Keeps(env, o)
    decreases fuel
  {
    if fuel == 0 then Stop(Fail(OutOfFuel))
    else if !access.IndexAccess? then Stop(Fail(InterpreterError))
    else
      var c :- Eval(access.container, env, fuel - 1);
      var i :- Eval(access.index, c.1, fuel - 1);
      var x :- Eval(value, i.1, fuel - 1);
      var updated :- Lift(Store(c.0, i.0, x.0), x.1);
      var w :- WriteBack(access.container, updated.0, updated.1, fuel - 1);
      Done(x.0, w.1)
  }

  /** The store an index assignment makes: a list cell or a dict entry. */
  function Store(c: Value, i: Value, x: Value): (r: Result<Value>)
    ensures c.List? && Ops.IsIntValue(i) && 0 <= i.base.i < |c.items| ==> r == UpdateListElement(c, i.base.i, x)
    ensures c.Dict? && i.Base? ==> r == SetDictElement(c, i.base, x)
    ensures !c.List? && !c.Dict? ==> r == Err(TypeError)
    ensures r.Ok? ==> Ops.Index(r.value, i) == Ok(x)
  {
    if c.List? then
      if !Ops.IsIntValue(i) then Err(TypeError)
      else
        var u :- UpdateListElement(c, i.base.i, x);
        Ops.IndexAfterUpdate(c, i.base.i, x);
        Ok(u)
    else if c.Dict? then
      if !i.Base? then Err(TypeError)
      else
        Ops.IndexAfterSet(c, i.base, x);
        SetDictElement(c, i.base, x)
    else Err(TypeError)
  }

  /** updateNestedContainer: hand an updated container back to where it came
      from. Through an index access the parent container and the index are
      evaluated again, the parent's cell is updated (a parent that is neither
      a list nor a dict is passed on unchanged) and the parent is written
      back in turn; a variable is reassigned; anything else is left alone. */
  function WriteBack(n: Node, updated: Value, env: Env, fuel: nat): (o: Outcome<()>)
    ensures Keeps(env, o)
    decreases fuel
  {
    if fuel == 0 then Stop(Fail(OutOfFuel))
    else
      match n
      case IndexAccess(container, index) =>
        var p :- Eval(container, env, fuel - 1);
        var i :- Eval(index, p.1, fuel - 1);
        var parent :- Lift(if p.0.List? || p.0.Dict? then Store(p.0, i.0, updated) else Ok(p.0), i.1);
        WriteBack(container, parent.0, parent.1, fuel - 1)
      case Variable(name) =>
        (match AssignVariable(env, name, updated)
         case Err(e) => Stop(Fail(e))
         case Ok(e) =>
           ShapeAssign(env, name, updated);
           Done((), e))
      case _ => Done((), env)
  }

  /** MethodCallNode. The receiver is evaluated first and picks the method
      table; an unknown name, then a wrong argument count, fail before any
      argument is evaluated. `put` checks its index before evaluating the
      value to insert. len, size and exists return their answer; every
      other method writes the updated receiver back and returns it. */
  function EvalMethod(receiver: Option<Node>, name: string, args: seq<Node>, env: Env, fuel: nat): (o: Outcome<Value>)
    ensures Keeps(env, o)
    decreases fuel, 1
  {
    if fuel == 0 then Stop(Fail(OutOfFuel))
    else if receiver.None? then Stop(Fail(Undefined))
    else
      var c :- Eval(receiver.value, env, fuel - 1);
      var arity :- Lift(Methods.Arity(c.0, name), c.1);
      if |args| != arity.0 then Stop(Fail(ValueError))
      else CallMethod(receiver.value, c.0, name, args, c.1, fuel)
  }

  /** The rest of MethodCallNode once the receiver `r` has evaluated to `c`
      and the argument count is right: the arguments, the method, and the
      write-back of an updated receiver. */
  function CallMethod(r: Node, c: Value, name: string, args: seq<Node>, env: Env, fuel: nat): (o: Outcome<Value>)
    requires Methods.Arity(c, name) == Ok(|args|)
    ensures Keeps(env, o)
    decreases fuel, 0
  {
    if fuel == 0 then Stop(Fail(OutOfFuel))
    else
      var vs :- EvalMethodArgs(c, name, args, env, fuel - 1);
      var effect :- Lift(Methods.Apply(c, name, vs.0), vs.1);
      match effect.0
      case Answer(v) => Done(v, effect.1)
      case Update(u) =>
        var w :- WriteBack(r, u, effect.1, fuel - 1);
        Done(u, w.1)
  }

  function EvalMethodArgs(receiver: Value, name: string, args: seq<Node>, env: Env, fuel: nat): (o: Outcome<seq<Value>>)
    ensures Keeps(env, o)
    ensures o.Done? ==> |o.value| == |args|
    decreases fuel
  {
    if fuel == 0 then Stop(Fail(OutOfFuel))
    else if receiver.List? && name == "put" && |args| == 2 then
      var k :- Eval(args[0], env, fuel - 1);
      if !Ops.IsIntValue(k.0) then Stop(Fail(TypeError))
      else
        var x :- Eval(args[1], k.1, fuel - 1);
        Done([k.0, x.0], x.1)
    else EvalList(args, env, fuel - 1)
  }

  // ---- loops ----------------------------------------------------------

  /** What a loop makes of one run of its body: a break ends the loop, a
      continue goes on without a new value, and a return or an error leaves
      the loop. */
  datatype Turn = Next(last: Value, env: Env) | Leave(o: Outcome<Value>)

  function AfterBody(o: Outcome<Value>, last: Value): (t: Turn)
    ensures o.Done? ==> t == Next(o.value, o.env)
    ensures o.Stop? && o.exit.Continued? ==> t == Next(last, o.exit.env)
    ensures o.Stop? && o.exit.Broke? ==> t == Leave(Done(last, o.exit.env))
    ensures o.Stop? && (o.exit.Fail? || o.exit.Returned?) ==> t == Leave(o)
  {
    match o
    case Done(v, d) => Next(v, d)
    case Stop(Continued(d)) => Next(last, d)
    case Stop(Broke(d)) => Leave(Done(last, d))
    case Stop(_) => Leave(o)
  }

  /** Close the loop scope a for loop opened. */
  function CloseLoop(o: Outcome<Value>, env: Env): (r: Outcome<Value>)
    requires |env| > 0 && Keeps(CreateChild(env), o)
    ensures Encloses(env, r)
  {
    ShapeChild(env);
    match o
    case Done(v, d) => ShapeParent(d); Done(v, Parent(d))
    case Stop(Fail(e)) => Stop(Fail(e))
    case Stop(Broke(d)) => ShapeParent(d); Stop(Broke(Parent(d)))
    case Stop(Continued(d)) => ShapeParent(d); Stop(Continued(Parent(d)))
    case Stop(Returned(v, d)) => ShapeParent(d); Stop(Returned(v, Parent(d)))
  }

  /** The step a range loop takes: the given one, which must be a non-zero
      int, or 1 or -1 towards the end; a step pointing away from the end is
      a ValueError. */
  function RangeStep(start: int, end: int, step: Option<Value>): (r: Result<int>)
    ensures r.Ok? ==> r.value != 0
    ensures r.Ok? ==> (r.value > 0 ==> start <= end) && (r.value < 0 ==> start >= end)
    ensures step.None? ==> r == Ok(if start <= end then 1 else -1)
    // a given int step is used as it is, unless it is zero or points away from the end
    ensures step.Some? && Ops.IsIntValue(step.value) ==>
      var s := step.value.base.i;
      (r.Ok? <==> s != 0 && (s > 0 ==> start <= end) && (s < 0 ==> start >= end)) &&
      (r.Ok? ==> r.value == s) && (r.Err? ==> r.error == ValueError)
    ensures step.Some? && !Ops.IsIntValue(step.value) ==> r == Err(TypeError)
  {
    var s :- if step.None? then Ok(if start <= end then 1 else -1)
             else if Ops.IsIntValue(step.value) then Ok(step.value.base.i)
             else Err(TypeError);
    if s == 0 then Err(ValueError)
    else if (s > 0 && start > end) || (s < 0 && start < end) then Err(ValueError)
    else Ok(s)
  }

  /** ForLoopNode over a range: the bounds and the step are evaluated in the
      enclosing scope, and the loop variable lives in a loop scope of its own. */
  function EvalRange(x: string, start: Node, end: Node, step: Option<Node>, body: seq<Node>, env: Env, fuel: nat): (o: Outcome<Value>)
    ensures Keeps(env, o)
    decreases fuel
  {
    if fuel == 0 then Stop(Fail(OutOfFuel))
    else
      var a :- Eval(start, env, fuel - 1);
      var b :- Eval(end, a.1, fuel - 1);
      if !Ops.IsIntValue(a.0) || !Ops.IsIntValue(b.0) then Stop(Fail(TypeError))
      else
        var s :- if step.None? then Done(None, b.1)
                 else var v :- Eval(step.value, b.1, fuel - 1); Done(Some(v.0), v.1);
        var st :- Lift(RangeStep(a.0.base.i, b.0.base.i, s.0), s.1);
        var inner := CreateChild(st.1);
        CloseLoop(RangeLoop(x, a.0.base.i, b.0.base.i, st.0, body, Null, inner, fuel - 1), st.1)
  }

  /** `for (i = start; step > 0 ? i <= end : i >= end; i += step)`: the
      variable is set in the loop scope before each run of the body; the
      increment is signed 64-bit arithmetic, and overflowing it is undefined. */
  function RangeLoop(x: string, i: int, end: int, step: int, body: seq<Node>, last: Value, env: Env, fuel: nat): (o: Outcome<Value>)
    ensures Keeps(env, o)
    decreases fuel
  {
    if fuel == 0 then Stop(Fail(OutOfFuel))
    else if !(if step > 0 then i <= end else i >= end) then Done(last, env)
    else
      var bound := SetVariable(env, x, Base(Int(i)));
      ShapeSet(env, x, Base(Int(i)));
      match AfterBody(EvalBlock(body, bound, fuel - 1), last)
      case Leave(o) => o
      case Next(v, d) =>
        if !Ops.IsLong(i + step) then Stop(Fail(Undefined))
        else RangeLoop(x, i + step, end, step, body, v, d, fuel - 1)
  }

  /** ForLoopNode over a dict: the keys are taken once, before the first
      run of the body, and the variable takes each in turn. */
  function EvalEach(x: string, iterable: Node, body: seq<Node>, env: Env, fuel: nat): (o: Outcome<Value>)
    ensures Keeps(env, o)
    decreases fuel
  {
    if fuel == 0 then Stop(Fail(OutOfFuel))
    else
      var d :- Eval(iterable, env, fuel - 1);
      if !d.0.Dict? then Stop(Fail(TypeError))
      else
        var keys := GetDictKeys(d.0).value;
        CloseLoop(EachLoop(x, keys, body, Null, CreateChild(d.1), fuel - 1), d.1)
  }

  function EachLoop(x: string, keys: seq<Scalar>, body: seq<Node>, last: Value, env: Env, fuel: nat): (o: Outcome<Value>)
    ensures Keeps(env, o)
    decreases fuel
  {
    if fuel == 0 then Stop(Fail(OutOfFuel))
    else if |keys| == 0 then Done(last, env)
    else
      var bound := SetVariable(env, x, Base(keys[0]));
      ShapeSet(env, x, Base(keys[0]));
      match AfterBody(EvalBlock(body, bound, fuel - 1), last)
      case Leave(o) => o
      case Next(v, d) => EachLoop(x, keys[1..], body, v, d, fuel - 1)
  }

  /** The iteration cap of WhileLoopNode. */
  const MaxIterations := 999999

  /** WhileLoopNode: the first condition must be a bool; the body runs in
      the current scope (as a block, so in a child of it). */
  function EvalWhile(cond: Node, body: seq<Node>, env: Env, fuel: nat): (o: Outcome<Value>)
    ensures Keeps(env, o)
    decreases fuel
  {
    if fuel == 0 then Stop(Fail(OutOfFuel))
    else
      var c :- Eval(cond, env, fuel - 1);
      if !(c.0.Base? && c.0.base.Bool?) then Stop(Fail(TypeError))
      else WhileLoop(cond, body, c.0, MaxIterations, Null, c.1, fuel - 1)
  }

  /** The loop of WhileLoopNode on the condition value `c`, with `left`
      iterations to go. After a run of the body the condition is evaluated
      again and read with std::get, so a value that is no longer a bool is a
      bad variant access. A continue jumps straight back to the test: the
      condition is not evaluated again and the iteration is not counted. */
  function WhileLoop(cond: Node, body: seq<Node>, c: Value, left: int, last: Value, env: Env, fuel: nat): (o: Outcome<Value>)
    ensures Keeps(env, o)
    decreases fuel
  {
    if fuel == 0 then Stop(Fail(OutOfFuel))
    else if !(c.Base? && c.base.Bool?) then Stop(Fail(BadVariantAccess))
    else if !c.base.b || left <= 0 then Done(last, env)
    else
      var o := EvalBlock(body, env, fuel - 1);
      if o.Stop? && o.exit.Continued? then WhileLoop(cond, body, c, left, last, o.exit.env, fuel - 1)
      else
        match AfterBody(o, last)
        case Leave(r) => r
        case Next(v, d) =>
          var c' :- Eval(cond, d, fuel - 1);
          WhileLoop(cond, body, c'.0, left - 1, v, c'.1, fuel - 1)
  }

  // ---- functions ------------------------------------------------------

  /** FunctionCallNode. The built-ins come first: print evaluates its
      arguments and gives null, type() names the type of its one argument,
      and the rounding functions are not modelled. A user function is looked
      up through the whole chain; after the argument count is checked, the
      arguments are evaluated in the caller's scope, and the body runs in a
      child of the caller's scope (so a function sees its caller's
      variables). A return ends the call with its value; a break or continue
      passes through the call. */
  function EvalCall(name: string, args: seq<Node>, env: Env, fuel: nat): (o: Outcome<Value>)
    ensures Keeps(env, o)
    decreases fuel
  {
    if fuel == 0 then Stop(Fail(OutOfFuel))
    else if name == "print" then
      var vs :- EvalList(args, env, fuel - 1);
      Done(Null, vs.1)
    else if name == "type" then
      if |args| != 1 then Stop(Fail(ValueError))
      else
        var v :- Eval(args[0], env, fuel - 1);
        Done(Base(Str(Methods.TypeName(v.0))), v.1)
    else if name == "roundf" then
      if |args| != 2 then Stop(Fail(ValueError))
      else
        // the precision first; the guard joins its tests with `&&`, so it
        // reads the payload of a non-scalar precision and lets any scalar through
        var p :- Eval(args[1], env, fuel - 1);
        if !p.0.Base? then Stop(Fail(BadVariantAccess))
        else
          var v :- Eval(args[0], p.1, fuel - 1);
          if !(v.0.Base? && v.0.base.Float?) then Stop(Fail(TypeError))
          else if !p.0.base.Int? then Stop(Fail(BadVariantAccess))
          else if p.0.base.i < 0 then Stop(Fail(ValueError))
          else Stop(Fail(Unsupported))
    else if name in Builtins then
      // round, floor and ceil: one float argument, rounded in floating point
      if |args| != 1 then Stop(Fail(ValueError))
      else
        var v :- Eval(args[0], env, fuel - 1);
        if !(v.0.Base? && v.0.base.Float?) then Stop(Fail(TypeError))
        else Stop(Fail(Unsupported))
    else
      match GetFunction(env, name)
      case None => Stop(Fail(NameError))
      case Some(f) =>
        if !ArityFits(f, |args|) then Stop(Fail(ValueError))
        else
          var vs :- EvalList(args, env, fuel - 1);
          var callee := [Frame(BindParams(f, vs.0), map[])] + vs.1;
          assert callee == CreateChild(vs.1)[0 := Frame(BindParams(f, vs.0), map[])];
          assert callee[1..] == vs.1;
          ShapeTail(callee);
          ReturnFrom(EvalBlock(f.body, callee, fuel - 1), vs.1)
  }

  /** Close the scope of a call: a return becomes the call's value. */
  function ReturnFrom(o: Outcome<Value>, caller: Env): (r: Outcome<Value>)
    requires o.Done? ==> |o.env| > 1 && Shape(o.env)[1..] == Shape(caller)
    requires o.Stop? && !o.exit.Fail? ==> |o.exit.env| > 1 && Shape(o.exit.env)[1..] == Shape(caller)
    ensures Encloses(caller, r)
    // a return, like the end of the body, gives the call its value
    ensures o.Done? ==> r == Done(o.value, Parent(o.env))
    ensures o.Stop? && o.exit.Returned? ==> r == Done(o.exit.result, Parent(o.exit.env))
    // a break or continue passes through to the caller's scope; an error is unchanged
    ensures o.Stop? && o.exit.Broke? ==> r == Stop(Broke(Parent(o.exit.env)))
    ensures o.Stop? && o.exit.Continued? ==> r == Stop(Continued(Parent(o.exit.env)))
    ensures o.Stop? && o.exit.Fail? ==> r == o
  {
    match o
    case Done(v, d) => ShapeParent(d); Done(v, Parent(d))
    case Stop(Fail(e)) => Stop(Fail(e))
    case Stop(Broke(d)) => ShapeParent(d); Stop(Broke(Parent(d)))
    case Stop(Continued(d)) => ShapeParent(d); Stop(Continued(Parent(d)))
    case Stop(Returned(v, d)) => ShapeParent(d); Done(v, Parent(d))
  }
}

=== FILE: interp_facts.dfy ===
/** Properties of the evaluator: how operators, loops, calls and index
    assignments behave on whole classes of programs. Each lemma names the
    fuel it needs; with less, the evaluation only runs out of fuel. */
module InterpFacts {
  import opened Errors
  import opened Values
  import opened Scopes
  import opened Ast
  import opened Interp
  import Lexer
  import Ops

  // ---- scopes of blocks -----------------------------------------------

  lemma ParentOfChild(c: Env)
    ensures Parent(CreateChild(c)) == c
  {
  }

  /** An empty block gives null and changes nothing. */
  lemma EmptyBlock(env: Env, fuel: nat)
    requires fuel >= 2
    ensures EvalBlock([], env, fuel) == Done(Null, env)
  {
    ParentOfChild(env);
  }

  // ---- operators ------------------------------------------------------

  /** `and` and `or` on two bool literals are the logical connectives. */
  lemma BoolConnectives(op: Lexer.TokenKind, a: bool, b: bool, env: Env, fuel: nat)
    requires (op.And? || op.Or?) && fuel >= 3
    ensures Eval(Binary(op, BoolLit(a), BoolLit(b)), env, fuel)
      == Done(Base(Bool(if op.And? then a && b else a || b)), env)
  {
    assert Eval(BoolLit(a), env, fuel - 2) == Done(Base(Bool(a)), env);
    assert Eval(BoolLit(b), env, fuel - 2) == Done(Base(Bool(b)), env);
    assert EvalBinary(op, BoolLit(a), BoolLit(b), env, fuel - 1)
      == Lift(Ops.BinaryOp(op, Base(Bool(a)), Base(Bool(b))), env);
  }

  /** There is no short-circuit: even when the left operand already decides
      an `and` (false) or an `or` (true), the right operand is evaluated, and
      an error there is the error of the whole expression. */
  lemma NoShortCircuit(op: Lexer.TokenKind, x: string, env: Env, fuel: nat)
    requires (op.And? || op.Or?) && GetVariable(env, x).Err? && fuel >= 3
    ensures Eval(Binary(op, BoolLit(op.Or?), Variable(x)), env, fuel) == Stop(Fail(NameError))
  {
    assert Eval(BoolLit(op.Or?), env, fuel - 2) == Done(Base(Bool(op.Or?)), env);
    assert Eval(Variable(x), env, fuel - 2) == Stop(Fail(NameError));
    assert EvalBinary(op, BoolLit(op.Or?), Variable(x), env, fuel - 1) == Stop(Fail(NameError));
  }

  // ---- while loops ----------------------------------------------------

  /** A body that is just `continue`, run as a block. */
  lemma ContinueBlock(env: Env, fuel: nat)
    ensures EvalBlock([ControlFlow(false)], env, fuel)
      == if fuel < 3 then Stop(Fail(OutOfFuel)) else Stop(Continued(env))
  {
    if fuel >= 3 {
      var inner := CreateChild(env);
      assert Eval(ControlFlow(false), inner, fuel - 2) == Stop(Continued(inner));
      assert EvalStatements([ControlFlow(false)], Null, inner, fuel - 1) == Stop(Continued(inner));
      ParentOfChild(env);
    }
  }

  lemma {:induction false} ContinueLoopsForever(left: int, last: Value, env: Env, fuel: nat)
    requires left > 0
    ensures WhileLoop(BoolLit(true), [ControlFlow(false)], Base(Bool(true)), left, last, env, fuel)
      == Stop(Fail(OutOfFuel))
    decreases fuel
  {
    if fuel > 0 {
      ContinueBlock(env, fuel - 1);
      if fuel - 1 >= 3 {
        ContinueLoopsForever(left, last, env, fuel - 1);
      }
    }
  }

  /** `while true { continue }` never ends, however much fuel it is given:
      a continue skips both the new test of the condition and the count
      towards the iteration cap. */
  lemma WhileContinueDiverges(env: Env, fuel: nat)
    ensures Eval(While(BoolLit(true), [ControlFlow(false)]), env, fuel) == Stop(Fail(OutOfFuel))
  {
    if fuel > 0 {
      WhileUnfold(BoolLit(true), [ControlFlow(false)], env, fuel);
      if fuel >= 3 {
        assert Eval(BoolLit(true), env, fuel - 2) == Done(Base(Bool(true)), env);
        ContinueLoopsForever(MaxIterations, Null, env, fuel - 2);
        assert EvalWhile(BoolLit(true), [ControlFlow(false)], env, fuel - 1) == Stop(Fail(OutOfFuel));
      } else if fuel == 2 {
        assert Eval(BoolLit(true), env, 0) == Stop(Fail(OutOfFuel));
      }
    }
  }

  lemma WhileUnfold(cond: Node, body: seq<Node>, env: Env, fuel: nat)
    requires fuel >= 1
    ensures Eval(While(cond, body), env, fuel) == EvalWhile(cond, body, env, fuel - 1)
  {
  }

  lemma {:induction false} EmptyLoopStops(left: int, env: Env, fuel: nat)
    requires left >= 0 && fuel >= left + 3
    ensures WhileLoop(BoolLit(true), [], Base(Bool(true)), left, Null, env, fuel) == Done(Null, env)
    decreases left
  {
    if left > 0 {
      EmptyBlock(env, fuel - 1);
      EmptyLoopStops(left - 1, env, fuel - 1);
    }
  }

  /** `while true {}` does not run forever: the iteration cap ends it, with
      null and without an error. */
  lemma WhileStopsAtCap(env: Env, fuel: nat)
    requires fuel >= MaxIterations + 5
    ensures Eval(While(BoolLit(true), []), env, fuel) == Done(Null, env)
  {
    assert Eval(BoolLit(true), env, fuel - 2) == Done(Base(Bool(true)), env);
    EmptyLoopStops(MaxIterations, env, fuel - 2);
    assert EvalWhile(BoolLit(true), [], env, fuel - 1) == Done(Null, env);
  }

  /** A body that is just `break`, run as a block. */
  lemma BreakBlock(env: Env, fuel: nat)
    requires fuel >= 3
    ensures EvalBlock([ControlFlow(true)], env, fuel) == Stop(Broke(env))
  {
    var inner := CreateChild(env);
    assert Eval(ControlFlow(true), inner, fuel - 2) == Stop(Broke(inner));
    assert EvalStatements([ControlFlow(true)], Null, inner, fuel - 1) == Stop(Broke(inner));
    ParentOfChild(env);
  }

  /** Setting a variable of the current scope twice keeps the later value. */
  lemma SetTwice(env: Env, x: string, a: Value, b: Value)
    ensures SetVariable(SetVariable(env, x, a), x, b) == SetVariable(env, x, b)
  {
    assert SetVariable(env, x, a)[0].vars[x := b] == env[0].vars[x := b];
  }

  /** A break in the first run of a range loop ends it with the value the
      loop had before, leaving the loop variable at the start value. */
  lemma RangeBreak(x: string, i: int, end: int, step: int, last: Value, env: Env, fuel: nat)
    requires (if step > 0 then i <= end else i >= end) && fuel >= 4
    ensures RangeLoop(x, i, end, step, [ControlFlow(true)], last, env, fuel)
      == Done(last, SetVariable(env, x, Base(Int(i))))
  {
    BreakBlock(SetVariable(env, x, Base(Int(i))), fuel - 1);
  }

  /** The increment after the last run of `for (i = max; i <= max; i++)`
      leaves the signed 64-bit range: the loop ends in undefined behaviour
      rather than stopping. */
  lemma RangeAtLongMax(x: string, last: Value, env: Env, fuel: nat)
    requires fuel >= 3
    ensures RangeLoop(x, Lexer.LongMax, Lexer.LongMax, 1, [], last, env, fuel) == Stop(Fail(Undefined))
  {
    EmptyBlock(SetVariable(env, x, Base(Int(Lexer.LongMax))), fuel - 1);
  }

  /** One run of a range loop's body that ends normally moves on to the
      next value with the body's value as the loop's. */
  lemma RangeRunsOnce(x: string, i: int, end: int, step: int, body: seq<Node>, last: Value, env: Env, fuel: nat,
                      v: Value, d: Env)
    requires (if step > 0 then i <= end else i >= end) && fuel >= 1 && Ops.IsLong(i + step)
    requires EvalBlock(body, SetVariable(env, x, Base(Int(i))), fuel - 1) == Done(v, d)
    ensures RangeLoop(x, i, end, step, body, last, env, fuel) == RangeLoop(x, i + step, end, step, body, v, d, fuel - 1)
  {
  }

  /** A block reading a variable just set in the current scope. */
  lemma ReadBound(x: string, v: Value, env: Env, fuel: nat)
    requires fuel >= 3
    ensures EvalBlock([Variable(x)], SetVariable(env, x, v), fuel) == Done(v, SetVariable(env, x, v))
  {
    ReadBlock(x, SetVariable(env, x, v), fuel);
  }

  lemma RangeEnds(x: string, i: int, end: int, step: int, body: seq<Node>, last: Value, env: Env, fuel: nat)
    requires !(if step > 0 then i <= end else i >= end) && fuel >= 1
    ensures RangeLoop(x, i, end, step, body, last, env, fuel) == Done(last, env)
  {
  }

  /** One run of a range loop counting up by one whose body reads the
      loop variable. */
  lemma RangeReadsOnce(x: string, i: int, end: int, last: Value, env: Env, fuel: nat)
    requires i <= end < Lexer.LongMax && Ops.IsLong(i) && fuel >= 4
    ensures RangeLoop(x, i, end, 1, [Variable(x)], last, env, fuel)
      == RangeLoop(x, i + 1, end, 1, [Variable(x)], Base(Int(i)), SetVariable(env, x, Base(Int(i))), fuel - 1)
  {
    ReadBound(x, Base(Int(i)), env, fuel - 1);
    RangeRunsOnce(x, i, end, 1, [Variable(x)], last, env, fuel, Base(Int(i)), SetVariable(env, x, Base(Int(i))));
  }

  /** A range loop counting up by one whose body reads the loop variable runs
      once for each of `i..end`: it ends with the last value, `end`, which is
      also where it leaves the variable. */
  lemma {:induction false} RangeVisits(x: string, i: int, end: int, last: Value, env: Env, fuel: nat)
    requires Ops.IsLong(i) && i <= end < Lexer.LongMax && fuel >= end - i + 5
    ensures RangeLoop(x, i, end, 1, [Variable(x)], last, env, fuel)
      == Done(Base(Int(end)), SetVariable(env, x, Base(Int(end))))
    decreases end - i
  {
    var bound := SetVariable(env, x, Base(Int(i)));
    RangeReadsOnce(x, i, end, last, env, fuel);
    if i < end {
      RangeVisits(x, i + 1, end, Base(Int(i)), bound, fuel - 1);
      SetTwice(env, x, Base(Int(i)), Base(Int(end)));
    } else {
      RangeEnds(x, i + 1, end, 1, [Variable(x)], Base(Int(i)), bound, fuel - 1);
    }
  }

  /** One run of a loop over keys whose body reads the loop variable. */
  lemma EachReadsOnce(x: string, keys: seq<Scalar>, last: Value, env: Env, fuel: nat)
    requires |keys| > 0 && fuel >= 4
    ensures EachLoop(x, keys, [Variable(x)], last, env, fuel)
      == EachLoop(x, keys[1..], [Variable(x)], Base(keys[0]), SetVariable(env, x, Base(keys[0])), fuel - 1)
  {
    ReadBound(x, Base(keys[0]), env, fuel - 1);
  }

  /** A loop over keys whose body reads the loop variable ends with the last
      key, which is also where it leaves the variable. */
  lemma {:induction false} EachVisits(x: string, keys: seq<Scalar>, last: Value, env: Env, fuel: nat)
    requires |keys| > 0 && fuel >= |keys| + 4
    ensures EachLoop(x, keys, [Variable(x)], last, env, fuel)
      == Done(Base(keys[|keys| - 1]), SetVariable(env, x, Base(keys[|keys| - 1])))
    decreases |keys|
  {
    var bound := SetVariable(env, x, Base(keys[0]));
    EachReadsOnce(x, keys, last, env, fuel);
    if |keys| > 1 {
      EachVisits(x, keys[1..], Base(keys[0]), bound, fuel - 1);
      SetTwice(env, x, Base(keys[0]), Base(keys[|keys| - 1]));
    } else {
      assert EachLoop(x, keys[1..], [Variable(x)], Base(keys[0]), bound, fuel - 1) == Done(Base(keys[0]), bound);
    }
  }

  // ---- what a block leaves behind -------------------------------------

  lemma {:induction false} SameFunctionsFrom(c: Env, d: Env, name: string, k: nat)
    requires |d| == |c| && k < |c| && forall j :: 0 <= j < |c| ==> d[j].funcs == c[j].funcs
    ensures GetFunctionFrom(d, name, k) == GetFunctionFrom(c, name, k)
    decreases |c| - k
  {
    if k + 1 < |c| && name !in c[k].funcs {
      SameFunctionsFrom(c, d, name, k + 1);
    }
  }

  lemma SameFunctions(c: Env, d: Env, name: string)
    requires |d| == |c| && forall j :: 0 <= j < |c| ==> d[j].funcs == c[j].funcs
    ensures GetFunction(d, name) == GetFunction(c, name)
  {
    SameFunctionsFrom(c, d, name, 0);
  }

  /** Two chains whose frames bind the same names show the same variables
      and the very same functions. */
  lemma WholeBindsNothing(env: Env, d: Env, name: string)
    requires Whole(env, d)
    ensures |d| == |env|
    ensures HasVariableInChain(d, name) == HasVariableInChain(env, name)
    ensures GetFunction(d, name) == GetFunction(env, name)
  {
    forall j | 0 <= j < |env|
      ensures d[j].funcs == env[j].funcs && d[j].vars.Keys == env[j].vars.Keys
    {
      assert Shape(d)[j] == Shape(env)[j];
    }
    SameFunctions(env, d, name);
    if HasVariableInChain(env, name) {
      var j :| 0 <= j < |env| && name in env[j].vars;
      assert name in d[j].vars.Keys;
    }
    if HasVariableInChain(d, name) {
      var j :| 0 <= j < |d| && name in d[j].vars;
      assert name in env[j].vars.Keys;
    }
  }

  /** Whatever the statements of a block do, afterwards exactly the same
      variables and functions are visible as before: a declaration or a
      fresh binding made in a block dies with the block's scope, and the
      functions visible are the very same ones. Only the values of variables
      that already existed can have changed. */
  lemma BlockBindsNothing(stmts: seq<Node>, env: Env, fuel: nat, name: string)
    requires EvalBlock(stmts, env, fuel).Done?
    ensures var d := EvalBlock(stmts, env, fuel).env;
      && |d| == |env|
      && HasVariableInChain(d, name) == HasVariableInChain(env, name)
      && GetFunction(d, name) == GetFunction(env, name)
  {
    WholeBindsNothing(env, EvalBlock(stmts, env, fuel).env, name);
  }


  // ---- function declarations and calls --------------------------------

  /** A declaration binds the function in the current scope, unless its name
      is one of the built-ins, which cannot be redefined; no variable changes. */
  lemma DeclareThenFind(name: string, params: seq<string>, hasArgs: bool, body: seq<Node>, env: Env, fuel: nat, y: string)
    requires fuel >= 1
    ensures var o := Eval(FuncDecl(name, params, hasArgs, body), env, fuel);
      && (name in Builtins <==> o == Stop(Fail(NameError)))
      && (name !in Builtins ==>
            && o.Done? && o.value == Null
            && GetFunction(o.env, name) == Some(FuncDef(params, hasArgs, body))
            && GetVariable(o.env, y) == GetVariable(env, y))
  {
    if name !in Builtins {
      var d := SetFunction(env, name, FuncDef(params, hasArgs, body));
      assert d[0].vars == env[0].vars && d[1..] == env[1..];
      SameBindings(env, d, y);
    }
  }

  /** A variadic function needs at least one parameter to collect the
      remaining arguments: with none, the unsigned count of the fixed
      parameters wraps around and no call is accepted. */
  lemma VariadicNeedsParameter(body: seq<Node>, n: nat)
    ensures !ArityFits(FuncDef([], true, body), n)
    ensures ArityFits(FuncDef([], false, body), n) <==> n == 0
  {
  }

  /** A call with the wrong number of arguments is a ValueError, raised
      before any argument is evaluated. */
  lemma CallArityMismatch(name: string, args: seq<Node>, env: Env, fuel: nat)
    requires name !in Builtins && GetFunction(env, name).Some?
    requires !ArityFits(GetFunction(env, name).value, |args|) && fuel >= 2
    ensures Eval(Call(name, args), env, fuel) == Stop(Fail(ValueError))
  {
  }

  lemma {:induction false} BindEachAt(ps: seq<string>, vs: seq<Value>, m: map<string, Value>, i: nat)
    requires |ps| == |vs| && i < |ps|
    requires forall b :: i < b < |ps| ==> ps[b] != ps[i]
    ensures BindEach(ps, vs, m)[ps[i]] == vs[i]
    decreases |ps|
  {
    if i > 0 {
      BindEachAt(ps[1..], vs[1..], m[ps[0] := vs[0]], i - 1);
    } else {
      BindEachKeeps(ps[1..], vs[1..], m[ps[0] := vs[0]], ps[0]);
    }
  }

  lemma {:induction false} BindEachKeeps(ps: seq<string>, vs: seq<Value>, m: map<string, Value>, p: string)
    requires |ps| == |vs| && p in m
    requires forall b :: 0 <= b < |ps| ==> ps[b] != p
    ensures BindEach(ps, vs, m)[p] == m[p]
    decreases |ps|
  {
    if |ps| > 0 {
      BindEachKeeps(ps[1..], vs[1..], m[ps[0] := vs[0]], p);
    }
  }

  /** Each leading parameter whose name does not come again later is bound
      to the argument in its position; the last parameter is bound to the
      last argument, or, for a variadic function, to the list of all
      arguments from its position on. */
  lemma BindParamsPositions(f: FuncDef, vs: seq<Value>, i: nat)
    requires ArityFits(f, |vs|) && i < |f.params|
    requires forall b :: i < b < |f.params| ==> f.params[b] != f.params[i]
    ensures var n := |f.params| - 1;
      BindParams(f, vs)[f.params[i]] ==
        if i < n then vs[i] else if f.hasArgs then List(vs[n..]) else vs[n]
  {
    var n := |f.params| - 1;
    var ps := f.params[..n];
    var last := if f.hasArgs then List(vs[n..]) else vs[n];
    assert BindParams(f, vs) == BindEach(ps, vs[..n], map[])[f.params[n] := last];
    if i < n {
      BindEachAt(ps, vs[..n], map[], i);
      assert vs[..n][i] == vs[i];
    }
  }

  /** The scope a call opens for a function without parameters. */
  lemma CalleeScope(f: FuncDef, env: Env)
    requires f.params == [] && !f.hasArgs
    ensures [Frame(BindParams(f, []), map[])] + env == CreateChild(env)
  {
  }

  /** Calling a function without parameters: its body runs as a block in a
      fresh child of the caller's scope, and a return gives the call's value. */
  lemma CallWithoutArguments(name: string, f: FuncDef, env: Env, fuel: nat)
    requires name !in Builtins && GetFunction(env, name) == Some(f)
    requires f.params == [] && !f.hasArgs && fuel >= 3
    ensures Eval(Call(name, []), env, fuel) == ReturnFrom(EvalBlock(f.body, CreateChild(env), fuel - 2), env)
  {
    CallUnfold(name, [], env, fuel);
    CallBody(name, f, env, fuel - 1);
  }

  lemma CallUnfold(name: string, args: seq<Node>, env: Env, fuel: nat)
    requires fuel >= 1
    ensures Eval(Call(name, args), env, fuel) == EvalCall(name, args, env, fuel - 1)
  {
  }

  lemma CallBody(name: string, f: FuncDef, env: Env, fuel: nat)
    requires name !in Builtins && GetFunction(env, name) == Some(f)
    requires f.params == [] && !f.hasArgs && fuel >= 2
    ensures EvalCall(name, [], env, fuel) == ReturnFrom(EvalBlock(f.body, CreateChild(env), fuel - 1), env)
  {
    CalleeScope(f, env);
    assert EvalList([], env, fuel - 1) == Done([], env);
  }

  /** A block that reads one variable. */
  lemma ReadBlock(x: string, env: Env, fuel: nat)
    requires fuel >= 3
    ensures EvalBlock([Variable(x)], env, fuel) == Lift(GetVariable(env, x), env)
  {
    var inner := CreateChild(env);
    ChildFallsThrough(env, x);
    assert Eval(Variable(x), inner, fuel - 2) == Lift(GetVariable(env, x), inner);
    assert EvalStatements([Variable(x)], Null, inner, fuel - 1) == Lift(GetVariable(env, x), inner);
  }

  /** Scoping is dynamic: the body of a function sees the variables of the
      scope it is called from (not of the scope it was declared in), so a
      parameterless function whose body reads `x` gives the caller's `x`. */
  lemma DynamicScoping(name: string, x: string, env: Env, fuel: nat)
    requires name !in Builtins && GetFunction(env, name) == Some(FuncDef([], false, [Variable(x)]))
    requires fuel >= 5
    ensures Eval(Call(name, []), env, fuel) == Lift(GetVariable(env, x), env)
  {
    CallWithoutArguments(name, FuncDef([], false, [Variable(x)]), env, fuel);
    ReadBlock(x, CreateChild(env), fuel - 2);
    ChildFallsThrough(env, x);
  }

  /** A block whose first statement returns a literal. */
  lemma ReturnBlock(k: int, rest: seq<Node>, env: Env, fuel: nat)
    requires fuel >= 4
    ensures EvalBlock([Return(Some(IntLit(k)))] + rest, env, fuel) == Stop(Returned(Base(Int(k)), env))
  {
    var inner := CreateChild(env);
    var body := [Return(Some(IntLit(k)))] + rest;
    assert body[0] == Return(Some(IntLit(k)));
    assert Eval(IntLit(k), inner, fuel - 3) == Done(Base(Int(k)), inner);
    assert Eval(Return(Some(IntLit(k))), inner, fuel - 2) == Stop(Returned(Base(Int(k)), inner));
    assert EvalStatements(body, Null, inner, fuel - 1) == Stop(Returned(Base(Int(k)), inner));
  }

  /** A return ends the call at once with its value: the statements after it
      never run, whatever they would have done. */
  lemma ReturnSkipsRest(name: string, k: int, rest: seq<Node>, env: Env, fuel: nat)
    requires name !in Builtins && GetFunction(env, name) == Some(FuncDef([], false, [Return(Some(IntLit(k)))] + rest))
    requires fuel >= 6
    ensures Eval(Call(name, []), env, fuel) == Done(Base(Int(k)), env)
  {
    CallWithoutArguments(name, FuncDef([], false, [Return(Some(IntLit(k)))] + rest), env, fuel);
    ReturnBlock(k, rest, CreateChild(env), fuel - 2);
  }

  /** A finished write-back answered with `v`; a stopped one stops the
      statement. */
  function Answering(w: Outcome<()>, v: Value): Outcome<Value>
  {
    match w
    case Done(_, d) => Done(v, d)
    case Stop(x) => Stop(x)
  }

  // ---- index assignment and write-back --------------------------------

  lemma IndexAssignUnfold(access: Node, value: Node, env: Env, fuel: nat)
    requires fuel >= 1
    ensures Eval(IndexAssignment(access, value), env, fuel) == EvalIndexAssignment(access, value, env, fuel - 1)
  {
  }

  /** One index assignment whose container, index and value evaluate
      normally and whose store succeeds: what is left is the write-back. */
  lemma IndexAssignBody(c: Node, i: Node, value: Node, env: Env, fuel: nat,
                        cv: Value, iv: Value, xv: Value, e1: Env, e2: Env, e3: Env, u: Value)
    requires fuel >= 1
    requires Eval(c, env, fuel - 1) == Done(cv, e1)
    requires Eval(i, e1, fuel - 1) == Done(iv, e2)
    requires Eval(value, e2, fuel - 1) == Done(xv, e3)
    requires Store(cv, iv, xv) == Ok(u)
    ensures EvalIndexAssignment(IndexAccess(c, i), value, env, fuel) == Answering(WriteBack(c, u, e3, fuel - 1), xv)
  {
  }

  lemma WriteBackVariable(x: string, u: Value, env: Env, fuel: nat)
    requires fuel >= 1 && AssignVariable(env, x, u).Ok?
    ensures WriteBack(Variable(x), u, env, fuel) == Done((), AssignVariable(env, x, u).value)
    ensures GetVariable(AssignVariable(env, x, u).value, x) == Ok(u)
  {
    AssignKeepsBindings(env, x, u, x);
  }

  lemma WriteBackIndex(c: Node, i: Node, updated: Value, env: Env, fuel: nat,
                       pv: Value, iv: Value, e1: Env, e2: Env, parent: Value)
    requires fuel >= 1
    requires Eval(c, env, fuel - 1) == Done(pv, e1)
    requires Eval(i, e1, fuel - 1) == Done(iv, e2)
    requires (pv.List? || pv.Dict?) && Store(pv, iv, updated) == Ok(parent)
    ensures WriteBack(IndexAccess(c, i), updated, env, fuel) == WriteBack(c, parent, e2, fuel - 1)
  {
  }

  lemma ReadIndex(c: Node, i: Node, env: Env, fuel: nat, cv: Value, iv: Value, e1: Env, e2: Env)
    requires fuel >= 1
    requires Eval(c, env, fuel - 1) == Done(cv, e1)
    requires Eval(i, e1, fuel - 1) == Done(iv, e2)
    ensures Eval(IndexAccess(c, i), env, fuel) == Lift(Ops.Index(cv, iv), e2)
  {
  }

  lemma ReadVariable(x: string, env: Env, fuel: nat)
    requires fuel >= 1
    ensures Eval(Variable(x), env, fuel) == Lift(GetVariable(env, x), env)
  {
  }

  /** After `x[k] = n` on a list variable with `k` in range, the variable
      holds the list with cell `k` replaced, the assignment's value is `n`,
      and reading `x[k]` back gives `n`. */
  lemma IndexAssignThenRead(x: string, items: seq<Value>, k: int, n: int, env: Env, fuel: nat)
    requires GetVariable(env, x) == Ok(List(items)) && 0 <= k < |items| && fuel >= 3
    ensures var o := Eval(IndexAssignment(IndexAccess(Variable(x), IntLit(k)), IntLit(n)), env, fuel);
      && o.Done? && o.value == Base(Int(n))
      && GetVariable(o.env, x) == Ok(List(items[k := Base(Int(n))]))
      && Eval(IndexAccess(Variable(x), IntLit(k)), o.env, fuel) == Done(Base(Int(n)), o.env)
  {
    var u := List(items[k := Base(Int(n))]);
    ReadVariable(x, env, fuel - 2);
    assert Store(List(items), Base(Int(k)), Base(Int(n))) == Ok(u);
    WriteBackVariable(x, u, env, fuel - 2);
    var d := AssignVariable(env, x, u).value;
    IntLitValue(k, env, fuel - 2);
    IntLitValue(n, env, fuel - 2);
    IntLitValue(k, AssignVariable(env, x, u).value, fuel - 1);
    IndexAssignUnfold(IndexAccess(Variable(x), IntLit(k)), IntLit(n), env, fuel);
    IndexAssignBody(Variable(x), IntLit(k), IntLit(n), env, fuel - 1, List(items), Base(Int(k)), Base(Int(n)), env, env, env, u);
    ReadVariable(x, d, fuel - 1);
    ReadIndex(Variable(x), IntLit(k), d, fuel, u, Base(Int(k)), d, d);
  }

  /** `a[i][j] = n` writes through both levels: the inner list is updated and
      stored back into the outer one, which is stored back into `a`. */
  lemma NestedIndexAssign(a: string, outer: seq<Value>, inner: seq<Value>, i: int, j: int, n: int, env: Env, fuel: nat)
    requires GetVariable(env, a) == Ok(List(outer)) && 0 <= i < |outer| && outer[i] == List(inner)
    requires 0 <= j < |inner| && fuel >= 5
    ensures var o := Eval(IndexAssignment(IndexAccess(IndexAccess(Variable(a), IntLit(i)), IntLit(j)), IntLit(n)), env, fuel);
      && o.Done? && o.value == Base(Int(n))
      && GetVariable(o.env, a) == Ok(List(outer[i := List(inner[j := Base(Int(n))])]))
  {
    var row := IndexAccess(Variable(a), IntLit(i));
    var v := List(inner[j := Base(Int(n))]);
    RowRead(a, outer, i, env, fuel - 2);
    assert Store(List(inner), Base(Int(j)), Base(Int(n))) == Ok(v);
    RowWriteBack(a, outer, i, v, env, fuel - 2);
    IntLitValue(j, env, fuel - 2);
    IntLitValue(n, env, fuel - 2);
    IndexAssignUnfold(IndexAccess(row, IntLit(j)), IntLit(n), env, fuel);
    IndexAssignBody(row, IntLit(j), IntLit(n), env, fuel - 1, List(inner), Base(Int(j)), Base(Int(n)), env, env, env, v);
  }

  lemma StrLitValue(s: string, env: Env, fuel: nat)
    requires fuel >= 1
    ensures Eval(StrLit(s), env, fuel) == Done(Base(Str(s)), env)
  {
  }

  lemma IntLitValue(k: int, env: Env, fuel: nat)
    requires fuel >= 1
    ensures Eval(IntLit(k), env, fuel) == Done(Base(Int(k)), env)
  {
  }

  /** Reading row `i` of a list variable. */
  lemma RowRead(a: string, outer: seq<Value>, i: int, env: Env, fuel: nat)
    requires GetVariable(env, a) == Ok(List(outer)) && 0 <= i < |outer| && fuel >= 2
    ensures Eval(IndexAccess(Variable(a), IntLit(i)), env, fuel) == Done(outer[i], env)
  {
    ReadVariable(a, env, fuel - 1);
    ReadIndex(Variable(a), IntLit(i), env, fuel, List(outer), Base(Int(i)), env, env);
  }

  /** Writing a new row `i` back stores it into the outer list and the
      outer list into the variable. */
  lemma RowWriteBack(a: string, outer: seq<Value>, i: int, v: Value, env: Env, fuel: nat)
    requires GetVariable(env, a) == Ok(List(outer)) && 0 <= i < |outer| && fuel >= 2
    ensures var w := WriteBack(IndexAccess(Variable(a), IntLit(i)), v, env, fuel);
      w.Done? && GetVariable(w.env, a) == Ok(List(outer[i := v]))
  {
    var u := List(outer[i := v]);
    ReadVariable(a, env, fuel - 1);
    assert Store(List(outer), Base(Int(i)), v) == Ok(u);
    WriteBackVariable(a, u, env, fuel - 1);
    WriteBackIndex(Variable(a), IntLit(i), v, env, fuel, List(outer), Base(Int(i)), env, env, u);
  }

  /** `x[key] = n` on a dict variable sets the entry of `key` (adding it if it
      is new) and leaves every other key as it was. */
  lemma DictAssign(x: string, entries: seq<(Scalar, Value)>, key: string, n: int, env: Env, fuel: nat, other: Scalar)
    requires GetVariable(env, x) == Ok(Dict(entries)) && fuel >= 3
    ensures var o := Eval(IndexAssignment(IndexAccess(Variable(x), StrLit(key)), IntLit(n)), env, fuel);
      && o.Done? && o.value == Base(Int(n))
      && GetVariable(o.env, x).Ok? && GetVariable(o.env, x).value.Dict?
      && Lookup(GetVariable(o.env, x).value.entries, Str(key)) == Some(Base(Int(n)))
      && (other != Str(key) ==> Lookup(GetVariable(o.env, x).value.entries, other) == Lookup(entries, other))
  {
    var u := SetDictElement(Dict(entries), Str(key), Base(Int(n))).value;
    ReadVariable(x, env, fuel - 2);
    assert Store(Dict(entries), Base(Str(key)), Base(Int(n))) == Ok(u);
    WriteBackVariable(x, u, env, fuel - 2);
    StrLitValue(key, env, fuel - 2);
    IntLitValue(n, env, fuel - 2);
    IndexAssignUnfold(IndexAccess(Variable(x), StrLit(key)), IntLit(n), env, fuel);
    IndexAssignBody(Variable(x), StrLit(key), IntLit(n), env, fuel - 1, Dict(entries), Base(Str(key)), Base(Int(n)), env, env, env, u);
  }

  // ---- methods --------------------------------------------------------

  lemma MethodUnfold(receiver: Option<Node>, name: string, args: seq<Node>, env: Env, fuel: nat)
    requires fuel >= 1
    ensures Eval(MethodCall(receiver, name, args), env, fuel) == EvalMethod(receiver, name, args, env, fuel - 1)
  {
  }

  /** A method call whose receiver and arguments evaluate normally and whose
      method updates the receiver: what is left is the write-back. */
  lemma MethodBody(r: Node, name: string, args: seq<Node>, env: Env, fuel: nat, cv: Value, e1: Env)
    requires fuel >= 1
    requires Eval(r, env, fuel - 1) == Done(cv, e1)
    requires Methods.Arity(cv, name) == Ok(|args|)
    ensures EvalMethod(Some(r), name, args, env, fuel) == CallMethod(r, cv, name, args, e1, fuel)
  {
  }

  lemma MethodUpdates(r: Node, cv: Value, name: string, args: seq<Node>, env: Env, fuel: nat,
                      vs: seq<Value>, e: Env, u: Value)
    requires fuel >= 1
    requires Methods.Arity(cv, name) == Ok(|args|) && |vs| == |args|
    requires EvalMethodArgs(cv, name, args, env, fuel - 1) == Done(vs, e)
    requires Methods.Apply(cv, name, vs) == Ok(Methods.Update(u))
    ensures CallMethod(r, cv, name, args, env, fuel) == Answering(WriteBack(r, u, e, fuel - 1), u)
  {
  }

  lemma MethodAnswers(r: Node, cv: Value, name: string, args: seq<Node>, env: Env, fuel: nat,
                      vs: seq<Value>, e: Env, v: Value)
    requires fuel >= 1
    requires Methods.Arity(cv, name) == Ok(|args|) && |vs| == |args|
    requires EvalMethodArgs(cv, name, args, env, fuel - 1) == Done(vs, e)
    requires Methods.Apply(cv, name, vs) == Ok(Methods.Answer(v))
    ensures CallMethod(r, cv, name, args, env, fuel) == Done(v, e)
  {
  }

  lemma EvalSingleton(n: Node, env: Env, fuel: nat, v: Value, e: Env)
    requires fuel >= 2 && Eval(n, env, fuel - 1) == Done(v, e)
    ensures EvalList([n], env, fuel) == Done([v], e)
  {
    assert [n][1..] == [];
    assert EvalList([n][1..], e, fuel - 1) == Done([], e);
    assert [v] + [] == [v];
  }

  /** A method called on a variable, whose arguments evaluate without side
      effects and which updates its receiver, stores the update back. */
  lemma UpdatesVariable(x: string, cv: Value, name: string, args: seq<Node>, env: Env, fuel: nat,
                        vs: seq<Value>, u: Value)
    requires fuel >= 3 && GetVariable(env, x) == Ok(cv)
    requires Methods.Arity(cv, name) == Ok(|args|) && |vs| == |args|
    requires EvalMethodArgs(cv, name, args, env, fuel - 2) == Done(vs, env)
    requires Methods.Apply(cv, name, vs) == Ok(Methods.Update(u))
    ensures var o := Eval(MethodCall(Some(Variable(x)), name, args), env, fuel);
      && o.Done? && o.value == u && GetVariable(o.env, x) == Ok(u)
  {
    ReadVariable(x, env, fuel - 2);
    WriteBackVariable(x, u, env, fuel - 2);
    MethodUnfold(Some(Variable(x)), name, args, env, fuel);
    MethodBody(Variable(x), name, args, env, fuel - 1, cv, env);
    MethodUpdates(Variable(x), cv, name, args, env, fuel - 1, vs, env, u);
  }

  lemma AppendArgument(items: seq<Value>, n: int, env: Env, fuel: nat)
    requires fuel >= 3
    ensures EvalMethodArgs(List(items), "append", [IntLit(n)], env, fuel) == Done([Base(Int(n))], env)
  {
    IntLitValue(n, env, fuel - 2);
    EvalSingleton(IntLit(n), env, fuel - 1, Base(Int(n)), env);
  }

  lemma AppendApplies(items: seq<Value>, v: Value)
    ensures Methods.Arity(List(items), "append") == Ok(1)
    ensures Methods.Apply(List(items), "append", [v]) == Ok(Methods.Update(List(items + [v])))
  {
  }

  /** `x.append(n)` returns the extended list and stores it back into `x`. */
  lemma AppendWritesBack(x: string, items: seq<Value>, n: int, env: Env, fuel: nat)
    requires GetVariable(env, x) == Ok(List(items)) && fuel >= 5
    ensures var o := Eval(MethodCall(Some(Variable(x)), "append", [IntLit(n)]), env, fuel);
      && o.Done? && o.value == List(items + [Base(Int(n))])
      && GetVariable(o.env, x) == Ok(List(items + [Base(Int(n))]))
  {
    AppendArgument(items, n, env, fuel - 2);
    AppendApplies(items, Base(Int(n)));
    UpdatesVariable(x, List(items), "append", [IntLit(n)], env, fuel, [Base(Int(n))], List(items + [Base(Int(n))]));
  }


  /** `x.len()` answers with the length and writes nothing back. */
  lemma LenAnswers(x: string, items: seq<Value>, env: Env, fuel: nat)
    requires GetVariable(env, x) == Ok(List(items)) && fuel >= 4
    ensures Eval(MethodCall(Some(Variable(x)), "len", []), env, fuel) == Done(Base(Int(|items|)), env)
  {
    ReadVariable(x, env, fuel - 2);
    assert EvalList([], env, fuel - 3) == Done([], env);
    assert EvalMethodArgs(List(items), "len", [], env, fuel - 2) == Done([], env);
    MethodUnfold(Some(Variable(x)), "len", [], env, fuel);
    MethodBody(Variable(x), "len", [], env, fuel - 1, List(items), env);
    MethodAnswers(Variable(x), List(items), "len", [], env, fuel - 1, [], env, Base(Int(|items|)));
  }

  /** A method call parsed without a receiver (a statement that starts with
      a dot) evaluates a null node. */
  lemma MissingReceiver(name: string, args: seq<Node>, env: Env, fuel: nat)
    requires fuel >= 2
    ensures Eval(MethodCall(None, name, args), env, fuel) == Stop(Fail(Undefined))
  {
  }

  // ---- literals -------------------------------------------------------

  lemma EntryStep(es: seq<Entry>, acc: seq<(Scalar, Value)>, env: Env, fuel: nat,
                  k: Scalar, e1: Env, v: Value, e2: Env)
    requires fuel >= 1 && |es| > 0
    requires Eval(es[0].key, env, fuel - 1) == Done(Base(k), e1)
    requires Eval(es[0].value, e1, fuel - 1) == Done(v, e2)
    ensures EvalEntries(es, acc, env, fuel) == EvalEntries(es[1..], SetEntry(acc, k, v), e2, fuel - 1)
  {
  }

  /** In a dict literal a repeated key keeps one entry, holding the value
      written last. */
  lemma DictLiteralLastWins(k: string, a: int, b: int, env: Env, fuel: nat)
    requires fuel >= 4
    ensures Eval(DictLit([Entry(StrLit(k), IntLit(a)), Entry(StrLit(k), IntLit(b))]), env, fuel)
      == Done(Dict([(Str(k), Base(Int(b)))]), env)
  {
    var es := [Entry(StrLit(k), IntLit(a)), Entry(StrLit(k), IntLit(b))];
    var one := [(Str(k), Base(Int(a)))];
    assert SetEntry([], Str(k), Base(Int(a))) == one;
    assert SetEntry(one, Str(k), Base(Int(b))) == [(Str(k), Base(Int(b)))];
    EntryStep(es, [], env, fuel - 1, Str(k), env, Base(Int(a)), env);
    EntryStep(es[1..], one, env, fuel - 2, Str(k), env, Base(Int(b)), env);
    assert es[1..][1..] == [];
    assert EvalEntries(es[1..][1..], [(Str(k), Base(Int(b)))], env, fuel - 3) == Done(Dict([(Str(k), Base(Int(b)))]), env);
  }
}

=== FILE: lexer.dfy ===
/** The tokenizer of core/main/lexer.cpp.

    The lexer is a cursor over the input text. A Dafny `string` stands for the
    C++ byte string; reading at or past the end yields '\0', as
    `std::string::operator[]` does at `size()`. The character classes are those
    of the "C" locale; bytes of 0x80 and above are in none of them. */
module Lexer {
  import opened Errors
  import opened Values

  /** TokenType of core/main/lexer.h. */
  datatype TokenKind =
    | IntNum | FloatNum | Identifier | StringLit | True | False
    | IntType | FloatType | StrType | BoolType
    | Equal | NotEq | Gt | Lt | GtEq | LtEq
    | QMark | Not | And | Or
    | Underscore | Plus | Minus | Mod | Aster | DblAster | Slash | DblSlash
    | Assign | AssignNew | If | Else | Then | For | In | While | Do | Def | As
    | Break | Continue | Return | Stop
    | Semicolon | Colon | Comma | Dot | DblDot
    | LBrace | RBrace | LBracket | RBracket | LParen | RParen
    | Eol | End

  /** A token and the value it carries (a default, null value for most kinds). */
  datatype Token = Token(kind: TokenKind, payload: Value)

  function Tok(kind: TokenKind): Token {
    Token(kind, Null)
  }

  datatype Lexer = Lexer(input: string, pos: nat)

  /** `reset`: lex a new input from its start. */
  function Reset(input: string): Lexer {
    Lexer(input, 0)
  }

  function CharAt(s: string, i: nat): char {
    if i < |s| then s[i] else '\0'
  }

  predicate IsSpace(c: char) {
    c == ' ' || c == '\t' || c == '\n' || c == '\r' || c as int == 0x0B || c as int == 0x0C
  }

  predicate IsDigit(c: char) {
    '0' <= c <= '9'
  }

  predicate IsAlpha(c: char) {
    'a' <= c <= 'z' || 'A' <= c <= 'Z'
  }

  predicate IsAlnum(c: char) {
    IsAlpha(c) || IsDigit(c)
  }

  /** The keywords, in the order in which they are tried. */
  const Keywords: seq<(string, TokenKind)> := [
    ("calk", IntType), ("zmienno", FloatType), ("lancuch", StrType), ("logiczna", BoolType),
    ("prawda", True), ("falsz", False), ("jezeli", If), ("inaczej", Else), ("wtedy", Then),
    ("dla", For), ("w", In), ("podczas gdy", While), ("wykonuj", Do), ("zdef", Def),
    ("jako", As), ("przelam", Break), ("kontynuuj", Continue), ("zwroc", Return), ("stop", Stop)
  ]

  /** `input.substr(pos, n) == kw && !isalnum(input[pos + n])`: the keyword
      is written at `p` and no letter or digit follows it. */
  predicate KeywordAt(s: string, p: nat, kw: string) {
    p + |kw| <= |s| && s[p..p + |kw|] == kw && !IsAlnum(CharAt(s, p + |kw|))
  }

  /** The first keyword from index `k` of `table` on that is written at
      `p`, with its index. */
  function MatchKeyword(s: string, p: nat, table: seq<(string, TokenKind)>, k: nat): Option<nat>
    // `|s|` keeps the search from being unrolled over the literal table
    // whenever the input is not itself a literal
    decreases |table| - k, |s|
  {
    if k >= |table| then None
    else if KeywordAt(s, p, table[k].0) then Some(k)
    else MatchKeyword(s, p, table, k + 1)
  }

  /** The search finds a keyword that is written at `p`, and it finds none
      only when no keyword it tries is. */
  lemma {:induction false} MatchKeywordSound(s: string, p: nat, table: seq<(string, TokenKind)>, k: nat)
    ensures var r := MatchKeyword(s, p, table, k);
      && (r.Some? ==> k <= r.value < |table| && KeywordAt(s, p, table[r.value].0))
      && (r.None? ==> forall j :: k <= j < |table| ==> !KeywordAt(s, p, table[j].0))
    decreases |table| - k
  {
    if k < |table| && !KeywordAt(s, p, table[k].0) {
      MatchKeywordSound(s, p, table, k + 1);
    }
  }

  /** The token of keyword `i`; the two boolean literals carry their value. */
  function KeywordToken(i: nat): Token
    requires i < |Keywords|
  {
    Token(Keywords[i].1, KeywordPayload(Keywords[i].1))
  }

  function KeywordPayload(kind: TokenKind): Value {
    if kind == True then Base(Bool(true))
    else if kind == False then Base(Bool(false))
    else Null
  }

  /** End of the run of identifier characters (letters, digits, '_') from `p`. */
  function IdentEnd(s: string, p: nat): (e: nat)
    requires p <= |s|
    ensures p <= e <= |s|
    ensures forall k :: p <= k < e ==> IsAlnum(s[k]) || s[k] == '_'
    ensures e == |s| || !(IsAlnum(s[e]) || s[e] == '_')
    decreases |s| - p
  {
    if p < |s| && (IsAlnum(s[p]) || s[p] == '_') then IdentEnd(s, p + 1) else p
  }

  /** A digit, or a dot that is not followed by another dot. */
  predicate NumberChar(s: string, k: nat)
    requires k < |s|
  {
    IsDigit(s[k]) || (s[k] == '.' && CharAt(s, k + 1) != '.')
  }

  function NumberEnd(s: string, p: nat): (e: nat)
    requires p <= |s|
    ensures p <= e <= |s|
    ensures forall k :: p <= k < e ==> NumberChar(s, k)
    ensures e == |s| || !NumberChar(s, e)
    decreases |s| - p
  {
    if p < |s| && NumberChar(s, p) then NumberEnd(s, p + 1) else p
  }

  function DigitValue(c: char): nat {
    if IsDigit(c) then (c as int) - ('0' as int) else 0
  }

  /** The decimal value of a string of digits. */
  function DigitsValue(ds: string): nat {
    if |ds| == 0 then 0 else 10 * DigitsValue(ds[..|ds| - 1]) + DigitValue(ds[|ds| - 1])
  }

  const LongMax: int := 0x7FFF_FFFF_FFFF_FFFF

  /** `std::stol` on a non-empty run of digits: its value, or out_of_range
      when it does not fit a 64-bit long. */
  function StolDigits(ds: string): (r: Result<int>)
    ensures r.Ok? ==> 0 <= r.value <= LongMax
    ensures r.Err? ==> r.error == OutOfRange
  {
    var n := DigitsValue(ds);
    if n > LongMax then Err(OutOfRange) else Ok(n)
  }

  /** extractNumber: a run of number characters; FLOAT if it holds a dot,
      INT otherwise. The float keeps the text of its literal. */
  function ExtractNumber(s: string, p: nat): (r: Result<(Token, nat)>)
    requires p < |s| && IsDigit(s[p])
    ensures r.Ok? ==> p < r.value.1 <= |s| && r.value.0.kind != End
  {
    var e := NumberEnd(s, p);
    var text := s[p..e];
    if '.' in text then Ok((Token(FloatNum, Base(Float(text))), e))
    else
      var n :- StolDigits(text);
      Ok((Token(IntNum, Base(Int(n))), e))
  }

  /** The character an escape sequence stands for. */
  function Unescape(c: char): (r: char)
    ensures c == 'n' ==> r == '\n'
    ensures c == 't' ==> r == '\t'
    ensures c != 'n' && c != 't' ==> r == c
  {
    if c == 'n' then '\n'
    else if c == 't' then '\t'
    else c   // '"' and '\\' stand for themselves, as does every other character
  }

  /** The body of a string literal from `p` up to the closing `quote`: the
      decoded text and the position of the closing quote. */
  function ScanString(s: string, quote: char, p: nat): (r: Result<(string, nat)>)
    ensures r.Ok? ==> p <= r.value.1 < |s| && s[r.value.1] == quote
    ensures r.Err? ==> r.error == LexerError
    decreases |s| - p
  {
    if p >= |s| then Err(LexerError)
    else if s[p] == quote then Ok(([], p))
    else if s[p] == '\\' && p + 1 < |s| then
      var (body, close) :- ScanString(s, quote, p + 2);
      Ok(([Unescape(s[p + 1])] + body, close))
    else
      var (body, close) :- ScanString(s, quote, p + 1);
      Ok(([s[p]] + body, close))
  }

  /** extractString: the literal opened by the quote at `p`. */
  function ExtractString(s: string, p: nat): (r: Result<(Token, nat)>)
    requires p < |s|
    ensures r.Ok? ==> p < r.value.1 <= |s| && r.value.0.kind != End
  {
    var (body, close) :- ScanString(s, s[p], p + 1);
    Ok((Token(StringLit, Base(Str(body))), close + 1))
  }

  /** The operators and punctuation of the `switch` in getNextToken. */
  function Punctuation(s: string, p: nat): (r: Result<(Token, nat)>)
    requires p < |s|
    ensures r.Ok? ==> p < r.value.1 <= |s| && r.value.0.kind != End
  {
    var next := CharAt(s, p + 1);
    match s[p]
    case '?' => Ok((Tok(QMark), p + 1))
    case '=' => if next == '=' then Ok((Tok(Equal), p + 2)) else Ok((Tok(Assign), p + 1))
    case '&' => Ok((Tok(And), p + 1))
    case '|' => Ok((Tok(Or), p + 1))
    case '!' => if next == '=' then Ok((Tok(NotEq), p + 2)) else Ok((Tok(Not), p + 1))
    case '>' => if next == '=' then Ok((Tok(GtEq), p + 2)) else Ok((Tok(Gt), p + 1))
    case '<' => if next == '=' then Ok((Tok(LtEq), p + 2)) else Ok((Tok(Lt), p + 1))
    case '"' => ExtractString(s, p)
    case '\'' => ExtractString(s, p)
    case '_' => Ok((Tok(Underscore), p + 1))
    case '+' => Ok((Tok(Plus), p + 1))
    case '-' => Ok((Tok(Minus), p + 1))
    case '%' => Ok((Tok(Mod), p + 1))
    case '*' => if next == '*' then Ok((Tok(DblAster), p + 2)) else Ok((Tok(Aster), p + 1))
    case '/' => if next == '/' then Ok((Tok(DblSlash), p + 2)) else Ok((Tok(Slash), p + 1))
    case ';' => Ok((Tok(Semicolon), p + 1))
    case ':' => if next == '=' then Ok((Tok(AssignNew), p + 2)) else Ok((Tok(Colon), p + 1))
    case ',' => Ok((Tok(Comma), p + 1))
    case '.' => if next == '.' then Ok((Tok(DblDot), p + 2)) else Ok((Tok(Dot), p + 1))
    case '{' => Ok((Tok(LBrace), p + 1))
    case '}' => Ok((Tok(RBrace), p + 1))
    case '[' => Ok((Tok(LBracket), p + 1))
    case ']' => Ok((Tok(RBracket), p + 1))
    case '(' => Ok((Tok(LParen), p + 1))
    case ')' => Ok((Tok(RParen), p + 1))
    case _ => Err(LexerError)
  }

  /** A word that starts with a letter: a keyword, or else an identifier. */
  function Word(s: string, p: nat): (r: (Token, nat))
    requires p < |s| && IsAlpha(s[p])
    ensures p < r.1 <= |s| && r.0.kind != End
  {
    MatchKeywordSound(s, p, Keywords, 0);
    match MatchKeyword(s, p, Keywords, 0)
    case Some(i) =>
      KeywordShape(i);
      (KeywordToken(i), p + |Keywords[i].0|)
    case None =>
      var e := IdentEnd(s, p);
      (Token(Identifier, Base(Str(s[p..e]))), e)
  }

  /** The token that starts at a character that is not blank. */
  function TokenAt(s: string, p: nat): (r: Result<(Token, nat)>)
    requires p < |s| && !IsSpace(s[p])
    ensures r.Ok? ==> p < r.value.1 <= |s| && r.value.0.kind != End
  {
    if IsDigit(s[p]) then ExtractNumber(s, p)
    else if IsAlpha(s[p]) then Ok(Word(s, p))
    else Punctuation(s, p)
  }

  /** End of the run of blanks other than newlines from `p`: the blanks
      getNextToken skips before a token. */
  function BlankEnd(s: string, p: nat): (e: nat)
    requires p <= |s|
    ensures p <= e <= |s|
    ensures forall k :: p <= k < e ==> IsSpace(s[k]) && s[k] != '\n'
    ensures e == |s| || !IsSpace(s[e]) || s[e] == '\n'
    decreases |s| - p
  {
    if p < |s| && IsSpace(s[p]) && s[p] != '\n' then BlankEnd(s, p + 1) else p
  }

  /** getNextToken: skip blanks, then read one token. Every token but END
      moves the cursor forward; END leaves it at the end of the input. */
  function NextToken(lx: Lexer): (r: Result<(Token, Lexer)>)
    requires lx.pos <= |lx.input|
    ensures r.Ok? ==> r.value.1.input == lx.input && lx.pos <= r.value.1.pos <= |lx.input|
    ensures r.Ok? && r.value.0.kind != End ==> lx.pos < r.value.1.pos
    ensures r.Ok? && r.value.0.kind == End ==> r.value.1.pos == |lx.input|
  {
    TokenAfterBlanks(lx.input, BlankEnd(lx.input, lx.pos))
  }

  /** The rest of getNextToken, once the blanks before `p` are skipped. */
  function TokenAfterBlanks(s: string, p: nat): (r: Result<(Token, Lexer)>)
    requires p <= |s| && (p == |s| || !IsSpace(s[p]) || s[p] == '\n')
    ensures r.Ok? ==> r.value.1.input == s && p <= r.value.1.pos <= |s|
    ensures r.Ok? && r.value.0.kind != End ==> p < r.value.1.pos
    ensures r.Ok? && r.value.0.kind == End ==> r.value.1.pos == |s|
  {
    if p == |s| then Ok((Tok(End), Lexer(s, p)))
    else if s[p] == '\n' then Ok((Tok(Eol), Lexer(s, p + 1)))
    else
      var (t, q) :- TokenAt(s, p);
      Ok((t, Lexer(s, q)))
  }

  /** The token sequence the parser pulls from the lexer: every token up to
      and including END, or up to the point where lexing fails. */
  datatype Stream = Stream(toks: seq<Token>, fault: Option<Error>)

  function TokenizeFrom(lx: Lexer): (st: Stream)
    requires lx.pos <= |lx.input|
    ensures forall k :: 0 <= k < |st.toks| - 1 ==> st.toks[k].kind != End
    ensures st.fault.None? ==> |st.toks| > 0 && st.toks[|st.toks| - 1].kind == End
    decreases |lx.input| - lx.pos
  {
    match NextToken(lx)
    case Err(e) => Stream([], Some(e))
    case Ok((t, lx')) =>
      if t.kind == End then Stream([t], None)
      else
        var rest := TokenizeFrom(lx');
        Stream([t] + rest.toks, rest.fault)
  }

  function Tokenize(input: string): Stream {
    TokenizeFrom(Reset(input))
  }

  // ---- properties ---------------------------------------------------------

  /** Blanks other than newlines are skipped: lexing from the start of a run of
      them is lexing from its end. */
  lemma {:induction false} SkipBlanks(s: string, p: nat, q: nat)
    requires p <= q <= |s|
    requires forall k :: p <= k < q ==> IsSpace(s[k]) && s[k] != '\n'
    ensures NextToken(Lexer(s, p)) == NextToken(Lexer(s, q))
  {
    BlankEndFrom(s, p, q);
  }

  lemma {:induction false} BlankEndFrom(s: string, p: nat, q: nat)
    requires p <= q <= |s|
    requires forall k :: p <= k < q ==> IsSpace(s[k]) && s[k] != '\n'
    ensures BlankEnd(s, p) == BlankEnd(s, q)
    decreases q - p
  {
    if p < q {
      BlankEndFrom(s, p + 1, q);
    }
  }

  /** At a character that is not blank, getNextToken reads the token there. */
  lemma NextIsTokenAt(s: string, p: nat)
    requires p < |s| && !IsSpace(s[p])
    ensures TokenAt(s, p).Ok? ==> NextToken(Lexer(s, p)) == Ok((TokenAt(s, p).value.0, Lexer(s, TokenAt(s, p).value.1)))
    ensures TokenAt(s, p).Err? ==> NextToken(Lexer(s, p)) == Err(TokenAt(s, p).error)
  {
  }

  /** A newline is an EOL token and the end of input is END. */
  lemma EolAndEnd(s: string, p: nat)
    requires p <= |s|
    ensures p < |s| && s[p] == '\n' ==> NextToken(Lexer(s, p)) == Ok((Tok(Eol), Lexer(s, p + 1)))
    ensures p == |s| ==> NextToken(Lexer(s, p)) == Ok((Tok(End), Lexer(s, p)))
  {
  }

  /** The two-character operators and the one-character operators they extend:
      (first char, second char, long form, short form). */
  const Lookahead: seq<(char, char, TokenKind, TokenKind)> := [
    ('=', '=', Equal, Assign), ('!', '=', NotEq, Not), ('>', '=', GtEq, Gt), ('<', '=', LtEq, Lt),
    ('*', '*', DblAster, Aster), ('/', '/', DblSlash, Slash), (':', '=', AssignNew, Colon), ('.', '.', DblDot, Dot)
  ]

  /** One character of lookahead picks the long form exactly when its second
      character follows. */
  lemma LookaheadOperators(s: string, p: nat, i: nat)
    requires p < |s| && i < |Lookahead| && s[p] == Lookahead[i].0
    ensures CharAt(s, p + 1) == Lookahead[i].1 ==>
      NextToken(Lexer(s, p)) == Ok((Tok(Lookahead[i].2), Lexer(s, p + 2)))
    ensures CharAt(s, p + 1) != Lookahead[i].1 ==>
      NextToken(Lexer(s, p)) == Ok((Tok(Lookahead[i].3), Lexer(s, p + 1)))
  {
    var (c, d, long, short) := Lookahead[i];
    assert !IsSpace(c) && !IsAlnum(c);
    PunctuationNext(s, p);
    assert Punctuation(s, p) == if CharAt(s, p + 1) == d then Ok((Tok(long), p + 2)) else Ok((Tok(short), p + 1));
  }

  /** At an operator or punctuation character, getNextToken reads it through
      the `switch`. */
  lemma PunctuationNext(s: string, p: nat)
    requires p < |s| && !IsSpace(s[p]) && !IsAlnum(s[p])
    ensures Punctuation(s, p).Ok? ==>
      NextToken(Lexer(s, p)) == Ok((Punctuation(s, p).value.0, Lexer(s, Punctuation(s, p).value.1)))
    ensures Punctuation(s, p).Err? ==> NextToken(Lexer(s, p)) == Err(Punctuation(s, p).error)
  {
    assert TokenAt(s, p) == Punctuation(s, p);
    NextIsTokenAt(s, p);
  }

  const Recognized: string := "?=&|!><\"'_+-%*/;:,.{}[]()"

  /** Any other character that is neither blank, digit nor letter is a LexerError. */
  lemma UnknownCharacter(s: string, p: nat)
    requires p < |s| && !IsSpace(s[p]) && !IsAlnum(s[p]) && s[p] !in Recognized
    ensures NextToken(Lexer(s, p)) == Err(LexerError)
  {
  }

  /** The first three characters a keyword fixes: its first letter, then
      either the next two letters or, for the one-letter keyword, a following
      character that is not a letter or digit. */
  predicate Fits(kw: string, c0: char, c1: char, c2: char) {
    |kw| > 0 && kw[0] == c0 && (if |kw| == 1 then !IsAlnum(c1) else |kw| > 2 && kw[1] == c1 && kw[2] == c2)
  }

  lemma KeywordFits(s: string, p: nat, kw: string)
    requires KeywordAt(s, p, kw) && (|kw| == 1 || |kw| > 2)
    ensures p < |s| && Fits(kw, s[p], CharAt(s, p + 1), CharAt(s, p + 2))
  {
    assert s[p..p + |kw|][0] == kw[0];
    if |kw| > 2 {
      assert s[p..p + |kw|][1] == kw[1];
      assert s[p..p + |kw|][2] == kw[2];
    }
  }

  /** No two keywords can be written at the same place: the order in which
      they are tried does not matter. */
  lemma KeywordsDistinct(c0: char, c1: char, c2: char, i: nat, j: nat)
    requires i < |Keywords| && j < |Keywords|
    requires Fits(Keywords[i].0, c0, c1, c2) && Fits(Keywords[j].0, c0, c1, c2)
    ensures i == j
  {
  }

  /** Every keyword starts with a letter and has one letter or at least three. */
  lemma KeywordShape(i: nat)
    requires i < |Keywords|
    ensures |Keywords[i].0| > 0 && IsAlpha(Keywords[i].0[0])
    ensures |Keywords[i].0| == 1 || |Keywords[i].0| > 2
    ensures Keywords[i].1 != End
  {
  }

  /** A keyword followed by a character that is not a letter or digit is
      lexed as that keyword, whatever its place in the table. */
  lemma KeywordRecognized(s: string, p: nat, i: nat)
    requires i < |Keywords| && KeywordAt(s, p, Keywords[i].0)
    ensures NextToken(Lexer(s, p)) == Ok((KeywordToken(i), Lexer(s, p + |Keywords[i].0|)))
  {
    WordKeyword(s, p, i);
    WordNext(s, p, KeywordToken(i), p + |Keywords[i].0|);
  }

  lemma WordNext(s: string, p: nat, t: Token, q: nat)
    requires p < |s| && IsAlpha(s[p]) && Word(s, p).0 == t && Word(s, p).1 == q
    ensures NextToken(Lexer(s, p)) == Ok((t, Lexer(s, q)))
  {
    WordAt(s, p);
  }

  lemma WordKeyword(s: string, p: nat, i: nat)
    requires i < |Keywords| && KeywordAt(s, p, Keywords[i].0)
    ensures p < |s| && IsAlpha(s[p])
    ensures Word(s, p).0 == KeywordToken(i) && Word(s, p).1 == p + |Keywords[i].0|
  {
    KeywordFound(s, p, i);
  }

  /** At a letter, getNextToken reads a word. */
  lemma WordAt(s: string, p: nat)
    requires p < |s| && IsAlpha(s[p])
    ensures NextToken(Lexer(s, p)).Ok?
    ensures NextToken(Lexer(s, p)).value.0 == Word(s, p).0
    ensures NextToken(Lexer(s, p)).value.1 == Lexer(s, Word(s, p).1)
  {
    assert TokenAt(s, p) == Ok(Word(s, p));
  }

  /** Whatever keyword is written at `p`, the table search finds that one. */
  lemma KeywordFound(s: string, p: nat, i: nat)
    requires i < |Keywords| && KeywordAt(s, p, Keywords[i].0)
    ensures p < |s| && IsAlpha(s[p]) && !IsSpace(s[p]) && !IsDigit(s[p])
    ensures MatchKeyword(s, p, Keywords, 0) == Some(i)
  {
    KeywordShape(i);
    KeywordFits(s, p, Keywords[i].0);
    MatchKeywordSound(s, p, Keywords, 0);
    var m := MatchKeyword(s, p, Keywords, 0);
    assert m.Some?;
    FitsDecides(s, p, i, m.value);
  }

  /** Starting at a letter, the token is either a keyword written there with a
      boundary after it, or, when no keyword is, the whole run of letters,
      digits and underscores as an IDENTIFIER. */
  lemma LetterStartsWord(s: string, p: nat)
    requires p < |s| && IsAlpha(s[p])
    ensures NextToken(Lexer(s, p)).Ok?
    ensures var (t, lx) := NextToken(Lexer(s, p)).value;
      || (exists i :: 0 <= i < |Keywords| && KeywordAt(s, p, Keywords[i].0)
            && t.kind == Keywords[i].1 && lx.pos == p + |Keywords[i].0|)
      || (&& (forall i :: 0 <= i < |Keywords| ==> !KeywordAt(s, p, Keywords[i].0))
          && t == Token(Identifier, Base(Str(s[p..lx.pos])))
          && (forall k :: p <= k < lx.pos ==> IsAlnum(s[k]) || s[k] == '_')
          && (lx.pos == |s| || !(IsAlnum(s[lx.pos]) || s[lx.pos] == '_')))
  {
    MatchKeywordSound(s, p, Keywords, 0);
    match MatchKeyword(s, p, Keywords, 0)
    case Some(i) =>
    case None =>
  }

  /** A keyword of more than one letter glued to a letter or digit is not
      lexed as a keyword at all: the whole run of identifier characters is an
      IDENTIFIER ("stopx" is one identifier). */
  lemma KeywordPrefixIsIdentifier(s: string, p: nat, i: nat)
    requires i < |Keywords| && |Keywords[i].0| > 1
    requires p + |Keywords[i].0| < |s| && s[p..p + |Keywords[i].0|] == Keywords[i].0
    requires IsAlnum(s[p + |Keywords[i].0|])
    ensures p < IdentEnd(s, p)
    ensures NextToken(Lexer(s, p)) == Ok((Token(Identifier, Base(Str(s[p..IdentEnd(s, p)]))), Lexer(s, IdentEnd(s, p))))
  {
    NoKeywordWhenGlued(s, p, i);
    assert TokenAt(s, p) == Ok(Word(s, p));
  }

  lemma NoKeywordWhenGlued(s: string, p: nat, i: nat)
    requires i < |Keywords| && |Keywords[i].0| > 1
    requires p + |Keywords[i].0| < |s| && s[p..p + |Keywords[i].0|] == Keywords[i].0
    requires IsAlnum(s[p + |Keywords[i].0|])
    ensures IsAlpha(s[p])
    ensures MatchKeyword(s, p, Keywords, 0) == None
  {
    SliceFits(s, p, i);
    MatchKeywordSound(s, p, Keywords, 0);
    var m := MatchKeyword(s, p, Keywords, 0);
    if m.Some? {
      var j := m.value;
      assert KeywordAt(s, p, Keywords[j].0);
      FitsDecides(s, p, i, j);
      assert false;
    }
  }

  /** A keyword written at `p` with a boundary after it is the only keyword
      whose first three characters fit there. */
  lemma FitsDecides(s: string, p: nat, i: nat, j: nat)
    requires p < |s| && i < |Keywords| && j < |Keywords|
    requires Fits(Keywords[i].0, s[p], CharAt(s, p + 1), CharAt(s, p + 2))
    requires KeywordAt(s, p, Keywords[j].0)
    ensures i == j
  {
    KeywordShape(j);
    KeywordFits(s, p, Keywords[j].0);
    KeywordsDistinct(s[p], CharAt(s, p + 1), CharAt(s, p + 2), i, j);
  }

  /** A keyword of more than one letter written at `p` fixes the three
      characters there, whatever follows it. */
  lemma SliceFits(s: string, p: nat, i: nat)
    requires i < |Keywords| && |Keywords[i].0| > 1
    requires p + |Keywords[i].0| <= |s| && s[p..p + |Keywords[i].0|] == Keywords[i].0
    ensures p < |s| && IsAlpha(s[p]) && Fits(Keywords[i].0, s[p], CharAt(s, p + 1), CharAt(s, p + 2))
  {
    var kw := Keywords[i].0;
    KeywordShape(i);
    assert s[p..p + |kw|][0] == kw[0] && s[p..p + |kw|][1] == kw[1] && s[p..p + |kw|][2] == kw[2];
  }

  /** The keyword boundary tests letters and digits only, so an underscore
      ends a keyword: "stop_x" starts with STOP. */
  lemma UnderscoreEndsKeyword(s: string, p: nat, i: nat)
    requires i < |Keywords| && p + |Keywords[i].0| < |s|
    requires s[p..p + |Keywords[i].0|] == Keywords[i].0 && s[p + |Keywords[i].0|] == '_'
    ensures NextToken(Lexer(s, p)) == Ok((KeywordToken(i), Lexer(s, p + |Keywords[i].0|)))
  {
    KeywordRecognized(s, p, i);
  }

  lemma {:induction false} NumberEndAt(s: string, p: nat, e: nat)
    requires p <= e <= |s|
    requires forall k :: p <= k < e ==> NumberChar(s, k)
    requires e == |s| || !NumberChar(s, e)
    ensures NumberEnd(s, p) == e
    decreases e - p
  {
    if p < e {
      NumberEndAt(s, p + 1, e);
    }
  }

  /** A maximal run of number characters from a digit is FLOAT when it holds
      a dot, and INT otherwise, when std::stol can represent it. */
  lemma NumberToken(s: string, p: nat, e: nat)
    requires p < e <= |s| && IsDigit(s[p])
    requires forall k :: p <= k < e ==> NumberChar(s, k)
    requires e == |s| || !NumberChar(s, e)
    ensures '.' in s[p..e] ==> NextToken(Lexer(s, p)) == Ok((Token(FloatNum, Base(Float(s[p..e]))), Lexer(s, e)))
    ensures '.' !in s[p..e] && DigitsValue(s[p..e]) <= LongMax ==>
      NextToken(Lexer(s, p)) == Ok((Token(IntNum, Base(Int(DigitsValue(s[p..e])))), Lexer(s, e)))
    ensures '.' !in s[p..e] && DigitsValue(s[p..e]) > LongMax ==> NextToken(Lexer(s, p)) == Err(OutOfRange)
  {
    NumberEndAt(s, p, e);
    assert TokenAt(s, p) == ExtractNumber(s, p);
  }

  /** A number stops before "..": digits, two dots and more lex as INT,
      then DBL_DOT, so "1..5" is a range and not a malformed float. */
  lemma NumberStopsBeforeRange(s: string, p: nat, q: nat)
    requires p < q && q + 1 < |s| && s[q] == '.' && s[q + 1] == '.'
    requires forall k :: p <= k < q ==> IsDigit(s[k])
    requires DigitsValue(s[p..q]) <= LongMax
    ensures NextToken(Lexer(s, p)) == Ok((Token(IntNum, Base(Int(DigitsValue(s[p..q])))), Lexer(s, q)))
    ensures NextToken(Lexer(s, q)) == Ok((Tok(DblDot), Lexer(s, q + 2)))
  {
    assert '.' !in s[p..q] by {
      forall k | 0 <= k < q - p ensures s[p..q][k] != '.' {
        assert IsDigit(s[p + k]);
      }
    }
    NumberToken(s, p, q);
    LookaheadOperators(s, q, 7);
  }

  /** A string without escapes or its own quote inside is taken verbatim. */
  lemma {:induction false} PlainStringBody(s: string, quote: char, p: nat, q: nat)
    requires p <= q < |s| && s[q] == quote
    requires forall k :: p <= k < q ==> s[k] != quote && s[k] != '\\'
    ensures ScanString(s, quote, p) == Ok((s[p..q], q))
    decreases q - p
  {
    if p < q {
      PlainStringBody(s, quote, p + 1, q);
      assert s[p] != quote && s[p] != '\\';
      assert ScanString(s, quote, p) == Ok(([s[p]] + s[p + 1..q], q));
      assert [s[p]] + s[p + 1..q] == s[p..q];
    } else {
      assert s[p..q] == [];
    }
  }

  lemma PlainString(s: string, p: nat, q: nat)
    requires p < q < |s| && (s[p] == '"' || s[p] == '\'') && s[q] == s[p]
    requires forall k :: p < k < q ==> s[k] != s[p] && s[k] != '\\'
    ensures NextToken(Lexer(s, p)) == Ok((Token(StringLit, Base(Str(s[p + 1..q]))), Lexer(s, q + 1)))
  {
    PlainStringBody(s, s[p], p + 1, q);
    QuotedString(s, p, s[p + 1..q], q);
  }

  /** Reaching the end of the input before the closing quote is a LexerError. */
  lemma {:induction false} UnterminatedBody(s: string, quote: char, p: nat)
    requires forall k :: p <= k < |s| ==> s[k] != quote
    ensures ScanString(s, quote, p) == Err(LexerError)
    decreases |s| - p
  {
    if p < |s| {
      if s[p] == '\\' && p + 1 < |s| {
        UnterminatedBody(s, quote, p + 2);
      } else {
        UnterminatedBody(s, quote, p + 1);
      }
    }
  }

  lemma UnterminatedString(s: string, p: nat)
    requires p < |s| && (s[p] == '"' || s[p] == '\'')
    requires forall k :: p < k < |s| ==> s[k] != s[p]
    ensures NextToken(Lexer(s, p)) == Err(LexerError)
  {
    UnterminatedBody(s, s[p], p + 1);
    assert TokenAt(s, p) == ExtractString(s, p);
    NextIsTokenAt(s, p);
  }

  /** The escapes \n, \t, \" and \\ are decoded, any other escaped character
      is kept, and an escaped quote does not close the literal. */
  lemma StringEscapes()
    ensures ScanString("\\n\\t\\\"\\\\\\q\"", '"', 0) == Ok(("\n\t\"\\q", 10))
  {
    var s := "\\n\\t\\\"\\\\\\q\"";
    assert |s| == 11 && s[10] == '"';
    assert ScanString(s, '"', 10) == Ok(([], 10));
    EscapeRule(s, '"', 8);
    assert s[9] == 'q' && ['q'] + [] == "q";
    assert ScanString(s, '"', 8) == Ok(("q", 10));
    EscapeRule(s, '"', 6);
    assert s[7] == '\\' && ['\\'] + "q" == "\\q";
    assert ScanString(s, '"', 6) == Ok(("\\q", 10));
    EscapeRule(s, '"', 4);
    assert s[5] == '"' && ['"'] + "\\q" == "\"\\q";
    assert ScanString(s, '"', 4) == Ok(("\"\\q", 10));
    EscapeRule(s, '"', 2);
    assert s[3] == 't' && ['\t'] + "\"\\q" == "\t\"\\q";
    assert ScanString(s, '"', 2) == Ok(("\t\"\\q", 10));
    EscapeRule(s, '"', 0);
    assert s[1] == 'n' && ['\n'] + "\t\"\\q" == "\n\t\"\\q";
  }

  /** A backslash that is not the last character escapes the character
      after it, whatever follows: the literal goes on after the pair, with
      the pair decoded by Unescape. */
  lemma EscapeRule(s: string, quote: char, p: nat)
    requires p + 1 < |s| && s[p] == '\\' && s[p] != quote
    ensures var rest := ScanString(s, quote, p + 2);
      && (rest.Err? ==> ScanString(s, quote, p) == rest)
      && (rest.Ok? ==> ScanString(s, quote, p) == Ok(([Unescape(s[p + 1])] + rest.value.0, rest.value.1)))
  {
  }

  /** How a text is written inside a literal closed by `quote`: a new line,
      a tab, a backslash and the quote itself are escaped, and every other
      character is written as it is. */
  function EscapeChar(c: char, quote: char): (r: string)
    ensures 1 <= |r| <= 2
  {
    if c == '\n' then "\\n"
    else if c == '\t' then "\\t"
    else if c == '\\' || c == quote then ['\\', c]
    else [c]
  }

  function Escape(t: string, quote: char): (r: string)
    ensures |r| >= |t|
    decreases |t|
  {
    if |t| == 0 then [] else EscapeChar(t[0], quote) + Escape(t[1..], quote)
  }

  /** Escaping is undone by the lexer: wherever the escaped text stands in
      the input, followed by the quote, it scans back as the text and the
      literal ends at that quote. */
  lemma {:induction false} EscapedAt(s: string, p: nat, t: string, quote: char)
    requires quote == '"' || quote == '\''
    requires p + |Escape(t, quote)| < |s| && s[p + |Escape(t, quote)|] == quote
    requires forall k :: 0 <= k < |Escape(t, quote)| ==> s[p + k] == Escape(t, quote)[k]
    ensures ScanString(s, quote, p) == Ok((t, p + |Escape(t, quote)|))
    decreases |t|
  {
    if |t| > 0 {
      var e := EscapeChar(t[0], quote);
      var more := Escape(t[1..], quote);
      assert Escape(t, quote) == e + more;
      forall k | 0 <= k < |more|
        ensures s[p + |e| + k] == more[k]
      {
        assert s[p + (|e| + k)] == Escape(t, quote)[|e| + k];
      }
      EscapedAt(s, p + |e|, t[1..], quote);
      assert s[p] == e[0] by {
        assert s[p + 0] == Escape(t, quote)[0];
      }
      if |e| == 2 {
        assert s[p + 1] == e[1] by {
          assert s[p + 1] == Escape(t, quote)[1];
        }
      }
      EscapeStep(s, p, t[0], quote, t[1..], p + |Escape(t, quote)|);
      assert [t[0]] + t[1..] == t;
    }
  }

  /** One escaped character read back: the characters EscapeChar writes for
      `c` add `c` to the body. */
  lemma EscapeStep(s: string, p: nat, c: char, quote: char, body: string, close: nat)
    requires quote == '"' || quote == '\''
    requires p + |EscapeChar(c, quote)| <= |s| && s[p] == EscapeChar(c, quote)[0]
    requires |EscapeChar(c, quote)| == 2 ==> s[p + 1] == EscapeChar(c, quote)[1]
    requires ScanString(s, quote, p + |EscapeChar(c, quote)|) == Ok((body, close))
    ensures ScanString(s, quote, p) == Ok(([c] + body, close))
  {
    var e := EscapeChar(c, quote);
    if |e| == 2 {
      EscapeRule(s, quote, p);
      assert Unescape(e[1]) == c;
    } else {
      PlainStep(s, quote, p);
    }
  }

  /** The same for a literal body written out between a prefix and a rest:
      the round trip holds whatever comes before or after it. */
  lemma EscapedBody(pre: string, t: string, quote: char, rest: string)
    requires quote == '"' || quote == '\''
    ensures ScanString(pre + Escape(t, quote) + [quote] + rest, quote, |pre|) == Ok((t, |pre| + |Escape(t, quote)|))
  {
    var body := Escape(t, quote);
    var s := pre + body + [quote] + rest;
    forall k | 0 <= k < |body|
      ensures s[|pre| + k] == body[k]
    {
    }
    assert s[|pre| + |body|] == quote;
    EscapedAt(s, |pre|, t, quote);
  }

  /** A character that is neither the quote nor a backslash is taken into
      the body as it is, and scanning goes on after it. */
  lemma PlainStep(s: string, quote: char, p: nat)
    requires p < |s| && s[p] != quote && s[p] != '\\'
    ensures var rest := ScanString(s, quote, p + 1);
      && (rest.Err? ==> ScanString(s, quote, p) == rest)
      && (rest.Ok? ==> ScanString(s, quote, p) == Ok(([s[p]] + rest.value.0, rest.value.1)))
  {
  }

  /** At a quote, the token is the string literal it opens. */
  lemma QuoteIsString(s: string, p: nat)
    requires p < |s| && (s[p] == '"' || s[p] == '\'')
    ensures !IsSpace(s[p]) && TokenAt(s, p) == ExtractString(s, p)
  {
    assert !IsDigit(s[p]) && !IsAlpha(s[p]) && !IsSpace(s[p]);
    if s[p] == '"' {
      assert Punctuation(s, p) == ExtractString(s, p);
    } else {
      assert Punctuation(s, p) == ExtractString(s, p);
    }
  }

  /** A quote whose literal body scans to `body` is a STRING token of it. */
  lemma QuotedString(s: string, p: nat, body: string, close: nat)
    requires p < |s| && (s[p] == '"' || s[p] == '\'') && ScanString(s, s[p], p + 1) == Ok((body, close))
    ensures NextToken(Lexer(s, p)) == Ok((Token(StringLit, Base(Str(body))), Lexer(s, close + 1)))
  {
    var tok := Token(StringLit, Base(Str(body)));
    QuoteIsString(s, p);
    ExtractScanned(s, p, s[p], body, close);
    NextIsOk(s, p, tok, close + 1);
  }

  lemma ExtractScanned(s: string, p: nat, quote: char, body: string, close: nat)
    requires p < |s| && s[p] == quote && ScanString(s, quote, p + 1) == Ok((body, close))
    ensures ExtractString(s, p) == Ok((Token(StringLit, Base(Str(body))), close + 1))
  {
  }

  /** A token read at a character that is not blank is the next token. */
  lemma NextIsOk(s: string, p: nat, tok: Token, q: nat)
    requires p < |s| && !IsSpace(s[p]) && TokenAt(s, p) == Ok((tok, q))
    ensures NextToken(Lexer(s, p)) == Ok((tok, Lexer(s, q)))
  {
    NextIsTokenAt(s, p);
  }
}

=== FILE: methods.dfy ===
/** The built-in `type` function and the container and string methods of
    util/functions.cpp, on argument values that have already been evaluated.
    Which method a name selects, and how many arguments it takes, is the
    dispatch of MethodCallNode::evaluate in core/main/ast.cpp. */
module Methods {
  import opened Errors
  import opened Values
  import opened Utf8
  import Ops
  import Lexer

  /** type(): the name of the type of a value. */
  function TypeName(v: Value): string {
    match v
    case Null => "null"
    case List(_) => "list"
    case Dict(_) => "dict"
    case Base(b) =>
      match b
      case Float(_) => "float"
      case Int(_) => "int"
      case Bool(_) => "bool"
      case Str(_) => "str"
  }

  /** Two values have the same type name exactly when they are the same
      alternative. */
  lemma TypeNameDistinguishes(v: Value, w: Value)
    ensures TypeName(v) == TypeName(w) <==>
      (v.Null? && w.Null?) || (v.List? && w.List?) || (v.Dict? && w.Dict?) ||
      (v.Base? && w.Base? && Ops.SameTag(v.base, w.base))
  {
  }

  /** A successful cast produces a value whose type() is the cast's target. */
  lemma TypeOfCast(target: Lexer.TokenKind, v: Value)
    requires Ops.Cast(target, v).Ok?
    ensures TypeName(Ops.Cast(target, v).value) ==
      if target.IntType? then "int"
      else if target.FloatType? then "float"
      else if target.BoolType? then "bool"
      else "str"
  {
  }

  // ---- argument checks ------------------------------------------------

  function IntArgument(v: Value): (r: Result<int>)
    ensures r.Ok? <==> Ops.IsIntValue(v)
    ensures r.Ok? ==> r.value == v.base.i
    ensures r.Err? ==> r.error == TypeError
  {
    if Ops.IsIntValue(v) then Ok(v.base.i) else Err(TypeError)
  }

  function KeyArgument(v: Value): (r: Result<Scalar>)
    ensures r.Ok? <==> v.Base?
    ensures r.Ok? ==> r.value == v.base
    ensures r.Err? ==> r.error == TypeError
  {
    if v.Base? then Ok(v.base) else Err(TypeError)
  }

  function StrArgument(v: Value): (r: Result<string>)
    ensures r.Ok? <==> v.Base? && v.base.Str?
    ensures r.Ok? ==> r.value == v.base.s
    ensures r.Err? ==> r.error == TypeError
  {
    if v.Base? && v.base.Str? then Ok(v.base.s) else Err(TypeError)
  }

  // ---- trimming -------------------------------------------------------

  /** `t.find(p) != npos`: `p` occurs in `t` as a contiguous piece; the empty
      string occurs in every string. */
  predicate Occurs(p: string, t: string) {
    exists k: nat :: k <= |t| && OccursAt(p, t, k)
  }

  predicate OccursAt(p: string, t: string, k: nat) {
    k + |p| <= |t| && t[k..k + |p|] == p
  }

  lemma EmptyOccurs(t: string)
    ensures Occurs([], t)
  {
    var e: string := [];
    assert OccursAt(e, t, 0);
  }

  /** How many bytes getStrChar reads for the lead byte `c`: a byte that
      starts no code point is read alone. */
  function ReadWidth(c: char): nat {
    var w := Width(c);
    if w == 0 then 1 else w
  }

  /** Where the bytes getStrChar returns end, when it starts reading at `p`. */
  function ReadEnd(s: string, p: nat): (e: nat)
    ensures p < |s| ==> p < e <= |s|
    ensures p >= |s| ==> e == p
  {
    if p >= |s| then p else Min(p + ReadWidth(s[p]), |s|)
  }

  /** getStrChar(s, k) in terms of where skipping k code points stops. */
  lemma StrCharSpan(s: string, k: nat)
    ensures Skip(s, 0, k).Err? ==> StrChar(s, k) == Err(InvalidEncoding)
    ensures Skip(s, 0, k).Ok? && Skip(s, 0, k).value > |s| ==> StrChar(s, k) == Err(Undefined)
    ensures Skip(s, 0, k).Ok? && Skip(s, 0, k).value <= |s| ==>
      StrChar(s, k) == Ok(s[Skip(s, 0, k).value..ReadEnd(s, Skip(s, 0, k).value)])
  {
    if Skip(s, 0, k).Ok? && Skip(s, 0, k).value == |s| {
      assert s[|s|..|s|] == [];
    }
  }

  /** What the sltrim loop keeps true: `start` is where the code point
      counted by `i` begins, whenever that code point lies inside the string. */
  predicate LtrimInvariant(s: string, start: nat, i: nat) {
    start <= |s| && (start < |s| && Skip(s, 0, i).Ok? ==> Skip(s, 0, i).value == start)
  }

  /** The loop of sltrim from byte `start`, code point `i`: read code point
      i, stop at the first one that does not occur in `trim`, and keep the
      rest of the string. */
  function LtrimFrom(s: string, trim: string, start: nat, i: nat): Result<string>
    requires LtrimInvariant(s, start, i)
    decreases |s| - start
  {
    if start >= |s| then Ok(s[start..])
    else
      var cur :- StrChar(s, i);
      if !Occurs(cur, trim) then Ok(s[start..])
      else
        StrCharSpan(s, i);
        SkipLast(s, 0, i);
        LtrimFrom(s, trim, start + |cur|, i + 1)
  }

  /** sltrim on the receiver `s` with the argument `trim`. */
  function Ltrim(s: string, trim: string): Result<string>
  {
    LtrimFrom(s, trim, 0, 0)
  }

  /** What the srtrim loop keeps true: `end` is where the code point counted
      by `i` ends, whenever getStrChar can read that code point, and the loop
      has consumed the whole string when `i` has gone below zero. */
  predicate RtrimInvariant(s: string, end: nat, i: int) {
    && end <= |s| && i >= -1
    && (i == -1 ==> end == 0)
    && (i >= 0 && Skip(s, 0, i).Ok? && Skip(s, 0, i).value <= |s| ==> end == ReadEnd(s, Skip(s, 0, i).value))
  }

  /** The loop of srtrim. As written, the code-point index starts at the
      byte length minus one, so on a string with multi-byte code points the
      first reads land past the last code point; getStrChar then returns the
      empty string, which every `trim` contains, and the loop only counts
      the index down until it reaches the last code point. */
  function RtrimFrom(s: string, trim: string, end: nat, i: int): Result<string>
    requires RtrimInvariant(s, end, i)
    decreases end + i + 1
  {
    if end == 0 then Ok(s[..end])
    else
      var cur :- StrChar(s, i);
      if !Occurs(cur, trim) then Ok(s[..end])
      else
        StrCharSpan(s, i);
        if i == 0 then RtrimFrom(s, trim, end - |cur|, i - 1)
        else
          SkipLast(s, 0, i - 1);
          RtrimFrom(s, trim, end - |cur|, i - 1)
  }

  /** The srtrim loop starts in its invariant. */
  lemma RtrimStarts(s: string)
    ensures RtrimInvariant(s, |s|, |s| - 1)
  {
    if |s| > 0 && Skip(s, 0, |s| - 1).Ok? {
      SkipAdvances(s, 0, |s| - 1);
    }
  }

  /** srtrim on the receiver `s` with the argument `trim`. */
  function Rtrim(s: string, trim: string): Result<string>
  {
    RtrimStarts(s);
    RtrimFrom(s, trim, |s|, |s| - 1)
  }
  /** Whatever sltrim keeps from byte `start` on is a suffix of the string. */
  lemma {:induction false} LtrimFromSuffix(s: string, trim: string, start: nat, i: nat)
    requires LtrimInvariant(s, start, i)
    ensures var r := LtrimFrom(s, trim, start, i);
      r.Ok? ==> |r.value| <= |s| - start && r.value == s[|s| - |r.value|..]
    decreases |s| - start
  {
    if start < |s| && StrChar(s, i).Ok? && Occurs(StrChar(s, i).value, trim) {
      StrCharSpan(s, i);
      SkipLast(s, 0, i);
      LtrimFromSuffix(s, trim, start + |StrChar(s, i).value|, i + 1);
    }
  }

  /** sltrim gives a suffix of the receiver. */
  lemma LtrimSuffix(s: string, trim: string)
    ensures Ltrim(s, trim).Ok? ==>
      |Ltrim(s, trim).value| <= |s| && Ltrim(s, trim).value == s[|s| - |Ltrim(s, trim).value|..]
  {
    LtrimFromSuffix(s, trim, 0, 0);
  }

  /** Whatever srtrim keeps of the first `end` bytes is a prefix of the string. */
  lemma {:induction false} RtrimFromPrefix(s: string, trim: string, end: nat, i: int)
    requires RtrimInvariant(s, end, i)
    ensures var r := RtrimFrom(s, trim, end, i);
      r.Ok? ==> |r.value| <= end && r.value == s[..|r.value|]
    decreases end + i + 1
  {
    if end > 0 && StrChar(s, i).Ok? && Occurs(StrChar(s, i).value, trim) {
      StrCharSpan(s, i);
      if i > 0 {
        SkipLast(s, 0, i - 1);
      }
      RtrimFromPrefix(s, trim, end - |StrChar(s, i).value|, i - 1);
    }
  }

  /** srtrim gives a prefix of the receiver. */
  lemma RtrimPrefix(s: string, trim: string)
    ensures Rtrim(s, trim).Ok? ==>
      |Rtrim(s, trim).value| <= |s| && Rtrim(s, trim).value == s[..|Rtrim(s, trim).value|]
  {
    RtrimStarts(s);
    RtrimFromPrefix(s, trim, |s|, |s| - 1);
  }


  /** The first code point at or after `i` that does not occur in `trim`. */
  function KeepFrom(cps: seq<string>, trim: string, i: nat): (r: nat)
    requires i <= |cps|
    ensures i <= r <= |cps|
    ensures forall j :: i <= j < r ==> Occurs(cps[j], trim)
    ensures r == |cps| || !Occurs(cps[r], trim)
    decreases |cps| - i
  {
    if i < |cps| && Occurs(cps[i], trim) then KeepFrom(cps, trim, i + 1) else i
  }

  /** How many code points are left once the trailing ones before `m` that
      occur in `trim` are dropped. */
  function KeepUpTo(cps: seq<string>, trim: string, m: nat): (r: nat)
    requires m <= |cps|
    ensures r <= m
    ensures forall j :: r <= j < m ==> Occurs(cps[j], trim)
    ensures r == 0 || !Occurs(cps[r - 1], trim)
  {
    if m > 0 && Occurs(cps[m - 1], trim) then KeepUpTo(cps, trim, m - 1) else m
  }

  /** The code points before `m` are a prefix of the string, and those from
      `m` on the rest of it. */
  lemma SplitAt(s: string, m: nat)
    requires CodePoints(s).Ok? && m <= |CodePoints(s).value|
    ensures var cps := CodePoints(s).value; var c := Concat(cps[..m]);
      |c| <= |s| && s[..|c|] == c && s[|c|..] == Concat(cps[m..])
  {
    var cps := CodePoints(s).value;
    CodePointsConcat(s, 0);
    assert cps == cps[..m] + cps[m..];
    ConcatAppend(cps[..m], cps[m..]);
  }

  lemma ConcatSnoc(cps: seq<string>, i: nat)
    requires i < |cps|
    ensures Concat(cps[..i + 1]) == Concat(cps[..i]) + cps[i]
  {
    assert cps[..i + 1] == cps[..i] + [cps[i]];
    ConcatAppend(cps[..i], [cps[i]]);
    assert Concat([cps[i]]) == cps[i] + Concat([]);
  }

  /** Code point `j` sits in the string right after the ones before it. */
  lemma CodePointAt(s: string, j: nat)
    requires CodePoints(s).Ok? && j < |CodePoints(s).value|
    ensures var cps := CodePoints(s).value; var p := |Concat(cps[..j])|;
      p + |cps[j]| <= |s| && s[p] == cps[j][0] && s[p..p + |cps[j]|] == cps[j]
  {
    var cps := CodePoints(s).value;
    SplitAt(s, j);
    assert cps[j..] == [cps[j]] + cps[j + 1..];
    ConcatAppend([cps[j]], cps[j + 1..]);
    assert Concat([cps[j]]) == cps[j] + Concat([]);
  }

  /** One turn of the sltrim loop reads code point `i` and moves past it. */
  lemma LtrimStep(s: string, trim: string, start: nat, i: nat)
    requires CodePoints(s).Ok? && i < |CodePoints(s).value|
    requires LtrimInvariant(s, start, i) && start == |Concat(CodePoints(s).value[..i])|
    ensures var cps := CodePoints(s).value;
      && StrChar(s, i) == Ok(cps[i])
      && start + |cps[i]| == |Concat(cps[..i + 1])|
      && LtrimInvariant(s, start + |cps[i]|, i + 1)
  {
    var cps := CodePoints(s).value;
    StrCharIsCodePoint(s, i);
    SkipToCodePoint(s, 0, i);
    ConcatSnoc(cps, i);
    CodePointAt(s, i);
    StrCharSpan(s, i);
    SkipLast(s, 0, i);
  }

  /** One unfolding of the sltrim loop, once code point `i` is known. */
  lemma LtrimUnfold(s: string, trim: string, start: nat, i: nat, cur: string)
    requires LtrimInvariant(s, start, i) && start < |s| && StrChar(s, i) == Ok(cur)
    requires Occurs(cur, trim) ==> LtrimInvariant(s, start + |cur|, i + 1)
    ensures LtrimFrom(s, trim, start, i) ==
      if Occurs(cur, trim) then LtrimFrom(s, trim, start + |cur|, i + 1) else Ok(s[start..])
  {
  }

  /** Where the sltrim loop stands: `start` is the byte length of the
      code points it has stepped over. */
  predicate LtrimAt(s: string, cps: seq<string>, start: nat, i: nat) {
    CodePoints(s) == Ok(cps) && i <= |cps| && LtrimInvariant(s, start, i) && start == |Concat(cps[..i])|
  }

  /** What sltrim gives once code points `i..` are all that is left to
      examine: those after the leading run found in `trim`. */
  function LtrimKept(cps: seq<string>, trim: string, i: nat): string
    requires i <= |cps|
  {
    Concat(cps[KeepFrom(cps, trim, i)..])
  }

  lemma LtrimDone(s: string, trim: string, cps: seq<string>, start: nat, i: nat)
    requires LtrimAt(s, cps, start, i) && i == |cps|
    ensures LtrimFrom(s, trim, start, i) == Ok(LtrimKept(cps, trim, i))
  {
    SplitAt(s, i);
    ConcatLength(cps[i..]);
  }

  /** The sltrim loop reads code point `i` and stands, after it, where the
      loop invariant holds one index up. */
  lemma LtrimMoves(s: string, cps: seq<string>, start: nat, i: nat)
    requires LtrimAt(s, cps, start, i) && i < |cps|
    ensures StrChar(s, i) == Ok(cps[i]) && start < |s|
    ensures LtrimAt(s, cps, start + |cps[i]|, i + 1)
  {
    SplitAt(s, i);
    ConcatLength(cps[i..]);
    LtrimStep(s, [], start, i);
  }

  lemma LtrimStops(s: string, trim: string, cps: seq<string>, start: nat, i: nat)
    requires LtrimAt(s, cps, start, i) && i < |cps| && !Occurs(cps[i], trim)
    ensures LtrimFrom(s, trim, start, i) == Ok(LtrimKept(cps, trim, i))
  {
    LtrimMoves(s, cps, start, i);
    LtrimUnfold(s, trim, start, i, cps[i]);
    SplitAt(s, i);
  }

  /** The sltrim loop steps over code point `i`, which occurs in `trim`. */
  lemma LtrimLink(s: string, trim: string, cps: seq<string>, start: nat, i: nat)
    requires LtrimAt(s, cps, start, i) && i < |cps| && Occurs(cps[i], trim)
    requires LtrimInvariant(s, start + |cps[i]|, i + 1)
    requires LtrimFrom(s, trim, start + |cps[i]|, i + 1) == Ok(LtrimKept(cps, trim, i + 1))
    ensures LtrimFrom(s, trim, start, i) == Ok(LtrimKept(cps, trim, i))
  {
    LtrimMoves(s, cps, start, i);
    LtrimUnfold(s, trim, start, i, cps[i]);
  }

  lemma {:induction false} LtrimFromCodePoints(s: string, trim: string, cps: seq<string>, start: nat, i: nat)
    requires LtrimAt(s, cps, start, i)
    ensures LtrimFrom(s, trim, start, i) == Ok(LtrimKept(cps, trim, i))
    decreases |cps| - i
  {
    if i == |cps| {
      LtrimDone(s, trim, cps, start, i);
    } else if Occurs(cps[i], trim) {
      LtrimMoves(s, cps, start, i);
      LtrimFromCodePoints(s, trim, cps, start + |cps[i]|, i + 1);
      LtrimLink(s, trim, cps, start, i);
    } else {
      LtrimStops(s, trim, cps, start, i);
    }
  }

  /** sltrim drops the longest run of leading code points that each occur
      in `trim`, and keeps the rest of the string. */
  lemma LtrimDropsLeading(s: string, trim: string)
    requires CodePoints(s).Ok?
    ensures var cps := CodePoints(s).value;
      Ltrim(s, trim) == Ok(Concat(cps[KeepFrom(cps, trim, 0)..]))
  {
    var cps := CodePoints(s).value;
    assert cps[..0] == [];
    LtrimFromCodePoints(s, trim, cps, 0, 0);
  }

  /** What getStrChar reads at code-point index `i` of a well-encoded
      string: the code point, or nothing once `i` is past the last one. */
  function ReadAt(cps: seq<string>, i: nat): string {
    if i < |cps| then cps[i] else []
  }

  /** In a well-encoded string, the bytes getStrChar reads for code point
      `j` end where code point `j` ends. */
  lemma ReadEndOfCodePoint(s: string, j: nat)
    requires WellEncoded(s) && j <= |CodePoints(s).value|
    ensures var cps := CodePoints(s).value;
      ReadEnd(s, |Concat(cps[..j])|) == |Concat(cps[..Min(j + 1, |cps|)])|
  {
    var cps := CodePoints(s).value;
    if j < |cps| {
      CodePointAt(s, j);
      ConcatSnoc(cps, j);
    } else {
      SplitAt(s, j);
      assert cps[j..] == [];
    }
  }

  /** One turn of the srtrim loop reads code point `i` (or nothing past the
      last one) and moves the end before it. */
  lemma RtrimStep(s: string, trim: string, end: nat, i: nat)
    requires WellEncoded(s) && RtrimInvariant(s, end, i)
    requires end == |Concat(CodePoints(s).value[..Min(i + 1, |CodePoints(s).value|)])|
    ensures var cps := CodePoints(s).value;
      && StrChar(s, i) == Ok(ReadAt(cps, i))
      && end - |ReadAt(cps, i)| == |Concat(cps[..Min(i, |cps|)])|
      && RtrimInvariant(s, end - |ReadAt(cps, i)|, i - 1)
  {
    var cps := CodePoints(s).value;
    WellEncodedSkip(s, i);
    StrCharSpan(s, i);
    if i < |cps| {
      StrCharIsCodePoint(s, i);
      ConcatSnoc(cps, i);
    } else {
      SplitAt(s, |cps|);
      assert cps[..|cps|] == cps;
      assert cps[|cps|..] == [];
    }
    if i > 0 {
      WellEncodedSkip(s, i - 1);
      SkipAdvances(s, 0, i - 1);
      ReadEndOfCodePoint(s, Min(i - 1, |cps|));
    }
  }

  /** One unfolding of the srtrim loop, once code point `i` is known. */
  lemma RtrimUnfold(s: string, trim: string, end: nat, i: nat, cur: string)
    requires RtrimInvariant(s, end, i) && end > 0 && StrChar(s, i) == Ok(cur)
    requires |cur| <= end && RtrimInvariant(s, end - |cur|, i - 1)
    ensures RtrimFrom(s, trim, end, i) ==
      if Occurs(cur, trim) then RtrimFrom(s, trim, end - |cur|, i - 1) else Ok(s[..end])
  {
  }

  lemma KeepUpToStep(cps: seq<string>, trim: string, i: nat)
    ensures KeepUpTo(cps, trim, Min(i + 1, |cps|)) ==
      if Occurs(ReadAt(cps, i), trim) then KeepUpTo(cps, trim, Min(i, |cps|)) else Min(i + 1, |cps|)
  {
    if i >= |cps| {
      EmptyOccurs(trim);
    }
  }

  /** What srtrim gives once code points `0..i` are all that is left to
      examine: those up to the trailing run found in `trim`. */
  function RtrimKept(cps: seq<string>, trim: string, i: int): string
    requires i >= -1
  {
    Concat(cps[..KeepUpTo(cps, trim, Min(i + 1, |cps|))])
  }

  /** Where the srtrim loop stands: `end` is the byte length of the code
      points it has not yet examined. */
  predicate RtrimAt(s: string, cps: seq<string>, end: nat, i: int) {
    && WellEncoded(s) && CodePoints(s) == Ok(cps) && RtrimInvariant(s, end, i)
    && end == |Concat(cps[..Min(i + 1, |cps|)])|
  }

  /** The srtrim loop reads code point `i` (or nothing past the last one)
      and stands, after it, where the loop invariant holds one index down. */
  lemma RtrimMoves(s: string, cps: seq<string>, end: nat, i: nat)
    requires RtrimAt(s, cps, end, i) && Min(i + 1, |cps|) > 0
    ensures StrChar(s, i) == Ok(ReadAt(cps, i)) && end > 0
    ensures |ReadAt(cps, i)| <= end && RtrimAt(s, cps, end - |ReadAt(cps, i)|, i - 1)
  {
    ConcatLength(cps[..Min(i + 1, |cps|)]);
    RtrimStep(s, [], end, i);
  }

  lemma RtrimKeptStep(cps: seq<string>, trim: string, i: nat)
    requires Occurs(ReadAt(cps, i), trim)
    ensures RtrimKept(cps, trim, i) == RtrimKept(cps, trim, i - 1)
  {
    KeepUpToStep(cps, trim, i);
  }

  lemma RtrimContinues(s: string, trim: string, cps: seq<string>, end: nat, i: nat)
    requires RtrimAt(s, cps, end, i) && Min(i + 1, |cps|) > 0 && Occurs(ReadAt(cps, i), trim)
    ensures |ReadAt(cps, i)| <= end && RtrimAt(s, cps, end - |ReadAt(cps, i)|, i - 1)
    ensures RtrimFrom(s, trim, end, i) == RtrimFrom(s, trim, end - |ReadAt(cps, i)|, i - 1)
  {
    RtrimMoves(s, cps, end, i);
    RtrimUnfold(s, trim, end, i, ReadAt(cps, i));
  }

  lemma RtrimStops(s: string, trim: string, cps: seq<string>, end: nat, i: nat)
    requires RtrimAt(s, cps, end, i) && Min(i + 1, |cps|) > 0 && !Occurs(ReadAt(cps, i), trim)
    ensures RtrimFrom(s, trim, end, i) == Ok(RtrimKept(cps, trim, i))
  {
    RtrimMoves(s, cps, end, i);
    RtrimUnfold(s, trim, end, i, ReadAt(cps, i));
    KeepUpToStep(cps, trim, i);
    SplitAt(s, Min(i + 1, |cps|));
  }

  lemma RtrimDone(s: string, trim: string, cps: seq<string>, end: nat, i: int)
    requires RtrimAt(s, cps, end, i) && Min(i + 1, |cps|) == 0
    ensures RtrimFrom(s, trim, end, i) == Ok(RtrimKept(cps, trim, i))
  {
    assert cps[..0] == [];
    assert RtrimFrom(s, trim, end, i) == Ok(s[..0]);
  }

  lemma {:induction false} RtrimFromCodePoints(s: string, trim: string, cps: seq<string>, end: nat, i: int)
    requires RtrimAt(s, cps, end, i)
    ensures RtrimFrom(s, trim, end, i) == Ok(RtrimKept(cps, trim, i))
    decreases end + i + 1
  {
    if Min(i + 1, |cps|) > 0 && Occurs(ReadAt(cps, i), trim) {
      RtrimContinues(s, trim, cps, end, i);
      RtrimFromCodePoints(s, trim, cps, end - |ReadAt(cps, i)|, i - 1);
      RtrimLink(s, trim, cps, end, i);
    } else {
      RtrimEnds(s, trim, cps, end, i);
    }
  }

  /** The srtrim loop ends once no code point is left or the one it reads
      does not occur in `trim`. */
  lemma RtrimEnds(s: string, trim: string, cps: seq<string>, end: nat, i: int)
    requires RtrimAt(s, cps, end, i)
    requires Min(i + 1, |cps|) == 0 || !Occurs(ReadAt(cps, i), trim)
    ensures RtrimFrom(s, trim, end, i) == Ok(RtrimKept(cps, trim, i))
  {
    if Min(i + 1, |cps|) == 0 {
      RtrimDone(s, trim, cps, end, i);
    } else {
      RtrimStops(s, trim, cps, end, i);
    }
  }

  /** The srtrim loop steps over code point `i`, which occurs in `trim`. */
  lemma RtrimLink(s: string, trim: string, cps: seq<string>, end: nat, i: nat)
    requires RtrimAt(s, cps, end, i) && Min(i + 1, |cps|) > 0 && Occurs(ReadAt(cps, i), trim)
    requires |ReadAt(cps, i)| <= end && RtrimInvariant(s, end - |ReadAt(cps, i)|, i - 1)
    requires RtrimFrom(s, trim, end - |ReadAt(cps, i)|, i - 1) == Ok(RtrimKept(cps, trim, i - 1))
    ensures RtrimFrom(s, trim, end, i) == Ok(RtrimKept(cps, trim, i))
  {
    RtrimContinues(s, trim, cps, end, i);
    RtrimKeptStep(cps, trim, i);
  }

  /** On a well-encoded string srtrim drops the longest run of trailing code
      points that each occur in `trim`: counting the index down from the byte
      length instead of the code-point count costs only reads that see
      nothing. */
  lemma RtrimDropsTrailing(s: string, trim: string)
    requires WellEncoded(s)
    ensures var cps := CodePoints(s).value;
      Rtrim(s, trim) == Ok(Concat(cps[..KeepUpTo(cps, trim, |cps|)]))
  {
    var cps := CodePoints(s).value;
    SplitAt(s, |cps|);
    ConcatLength(cps);
    assert cps[..|cps|] == cps;
    assert cps[|cps|..] == [];
    RtrimStarts(s);
    RtrimFromCodePoints(s, trim, cps, |s|, |s| - 1);
    assert Min(|s|, |cps|) == |cps|;
  }

  // ---- method dispatch ------------------------------------------------

  /** What a method call produces: a value returned at once (len, size,
      exists), or the updated receiver, which the caller writes back. */
  datatype Effect = Answer(v: Value) | Update(receiver: Value)

  predicate IsStr(v: Value) {
    v.Base? && v.base.Str?
  }

  /** The methods of MethodCallNode::evaluate and the number of arguments
      each takes: an unknown name is a NameError, and a receiver other than a
      list, a dict or a string has no methods. */
  function Arity(receiver: Value, name: string): (r: Result<nat>)
    ensures r == Err(TypeError) <==> !(receiver.List? || receiver.Dict? || IsStr(receiver))
    ensures r.Ok? ==> r.value <= 2
    // the methods each kind of receiver knows; any other name is a NameError
    ensures receiver.List? ==> (r.Ok? <==> name in {"len", "append", "remove", "put"})
    ensures receiver.Dict? ==> (r.Ok? <==> name in {"size", "remove", "exists"})
    ensures IsStr(receiver) ==> (r.Ok? <==> name in {"len", "ltrim", "rtrim"})
    ensures r.Err? && (receiver.List? || receiver.Dict? || IsStr(receiver)) ==> r.error == NameError
    // len and size take no argument, put two, every other method exactly one
    ensures r.Ok? ==> r.value == (if name == "len" || name == "size" then 0 else if name == "put" then 2 else 1)
  {
    if receiver.List? then
      if name == "len" then Ok(0)
      else if name == "append" || name == "remove" then Ok(1)
      else if name == "put" then Ok(2)
      else Err(NameError)
    else if receiver.Dict? then
      if name == "size" then Ok(0)
      else if name == "remove" || name == "exists" then Ok(1)
      else Err(NameError)
    else if IsStr(receiver) then
      if name == "len" then Ok(0)
      else if name == "ltrim" || name == "rtrim" then Ok(1)
      else Err(NameError)
    else Err(TypeError)
  }

  /** A method on its evaluated arguments, once the argument count is right. */
  function Apply(receiver: Value, name: string, args: seq<Value>): (r: Result<Effect>)
    requires Arity(receiver, name) == Ok(|args|)
    // len, size and exists answer without changing anything
    ensures receiver.List? && name == "len" ==> r == Ok(Answer(Base(Int(|receiver.items|))))
    ensures receiver.Dict? && name == "size" ==> r == Ok(Answer(Base(Int(|receiver.entries|))))
    ensures receiver.Dict? && name == "exists" ==>
      (r.Ok? <==> args[0].Base?) &&
      (r.Ok? ==> r.value == Answer(Base(Bool(exists j :: 0 <= j < |receiver.entries| && receiver.entries[j].0 == args[0].base))))
    ensures IsStr(receiver) && name == "len" ==>
      (r.Ok? <==> StrLen(receiver.base.s).Ok?) &&
      (r.Ok? ==> r.value == Answer(Base(Int(StrLen(receiver.base.s).value))))
    // the other methods return the updated receiver
    ensures r.Ok? && !(name == "len" || name == "size" || name == "exists") ==> r.value.Update?
    ensures receiver.List? && name == "append" ==>
      r.Ok? && r.value.receiver.List? && r.value.receiver.items == receiver.items + [args[0]]
    ensures receiver.List? && name == "remove" ==>
      (r.Ok? <==> Ops.IsIntValue(args[0]) && 0 <= args[0].base.i < |receiver.items|) &&
      (r.Ok? ==> Put(r.value.receiver, args[0].base.i, receiver.items[args[0].base.i]) == Ok(receiver))
    ensures receiver.List? && name == "put" ==>
      (r.Ok? <==> Ops.IsIntValue(args[0]) && 0 <= args[0].base.i <= |receiver.items|) &&
      (r.Ok? ==> Remove(r.value.receiver, args[0].base.i) == Ok(receiver) && r.value.receiver.items[args[0].base.i] == args[1])
    ensures receiver.Dict? && name == "remove" ==>
      (r.Ok? <==> args[0].Base? && Lookup(receiver.entries, args[0].base).Some?) &&
      (r.Ok? ==> r.value.receiver.Dict? && |r.value.receiver.entries| == |receiver.entries| - 1) &&
      (r.Ok? ==> forall k :: k != args[0].base ==> Lookup(r.value.receiver.entries, k) == Lookup(receiver.entries, k))
    ensures IsStr(receiver) && (name == "ltrim" || name == "rtrim") ==>
      (IsStr(args[0]) || r == Err(TypeError)) &&
      (r.Ok? ==> IsStr(r.value.receiver))
  {
    if receiver.List? then
      if name == "len" then Ok(Answer(Base(Int(|receiver.items|))))
      else if name == "append" then
        Ok(Update(Append(receiver, args[0]).value))
      else if name == "remove" then
        var k :- IntArgument(args[0]);
        var l :- Remove(receiver, k);
        PutUndoesRemove(receiver, k);
        Ok(Update(l))
      else
        var k :- IntArgument(args[0]);
        var l :- Put(receiver, k, args[1]);
        RemoveUndoesPut(receiver, k, args[1]);
        Ok(Update(l))
    else if receiver.Dict? then
      if name == "size" then Ok(Answer(Base(Int(|receiver.entries|))))
      else if name == "remove" then
        var k :- KeyArgument(args[0]);
        var d :- RemoveKey(receiver, k);
        Ok(Update(d))
      else
        var k :- KeyArgument(args[0]);
        Ok(Answer(Base(Bool(KeyExists(receiver, k).value))))
    else
      if name == "len" then
        var n :- StrLen(receiver.base.s);
        Ok(Answer(Base(Int(n))))
      else
        var t :- StrArgument(args[0]);
        var s :- if name == "ltrim" then Ltrim(receiver.base.s, t) else Rtrim(receiver.base.s, t);
        Ok(Update(Base(Str(s))))
  }
}

=== FILE: node_rules.dfy ===
/** The rule each node of core/main/ast.cpp follows, stated for every
    operand: what is evaluated first, which error an ill-typed operand
    raises, and what the node makes of the outcomes of its parts. A part
    that stops (an error, or a break, continue or return unwinding) stops
    the node with the same exit, before anything after it is evaluated. */
module NodeRules {
  import opened Errors
  import opened Values
  import opened Scopes
  import opened Ast
  import opened Interp
  import Lexer
  import Ops
  import Methods
  import InterpFacts

  // ---- operators and bindings ------------------------------------------

  /** BinaryOpNode: the left operand, then the right one in the scope the
      left one leaves, then the operator on both values. The right operand
      is evaluated whatever the left one is, so `and` and `or` never skip
      it. */
  lemma BinaryRule(op: Lexer.TokenKind, l: Node, r: Node, env: Env, fuel: nat)
    requires fuel >= 1
    ensures var a := Eval(l, env, fuel - 1);
      var o := EvalBinary(op, l, r, env, fuel);
      && (a.Stop? ==> o == a)
      && (a.Done? ==>
            var b := Eval(r, a.env, fuel - 1);
            && (b.Stop? ==> o == b)
            && (b.Done? ==> o == Lift(Ops.BinaryOp(op, a.value, b.value), b.env)))
  {
    var a := Eval(l, env, fuel - 1);
    if a.Done? {
      var b := Eval(r, a.env, fuel - 1);
      assert EvalBinary(op, l, r, env, fuel) == if b.Stop? then b else Lift(Ops.BinaryOp(op, a.value, b.value), b.env);
    }
  }

  /** AssignmentNode: the value first; a declaration binds it in the current
      scope, a reassignment where the name is found, and a reassignment of a
      name bound nowhere is a NameError. Either way the variable then reads
      back as the value, and the value is the assignment's result. */
  lemma AssignRule(name: string, reassign: bool, value: Node, env: Env, fuel: nat)
    requires fuel >= 1
    ensures var a := Eval(value, env, fuel - 1);
      var o := EvalAssignment(name, reassign, value, env, fuel);
      && (a.Stop? ==> o == a)
      && (a.Done? && !reassign ==> o == Done(a.value, SetVariable(a.env, name, a.value)))
      && (a.Done? && reassign ==> (o.Stop? <==> !HasVariableInChain(a.env, name)))
      && (a.Done? && reassign && !HasVariableInChain(a.env, name) ==> o == Stop(Fail(NameError)))
      && (a.Done? && reassign && HasVariableInChain(a.env, name) ==>
            o.Done? && o.value == a.value && Whole(a.env, o.env))
      && (a.Done? && o.Done? ==> GetVariable(o.env, name) == Ok(a.value))
  {
    var a := Eval(value, env, fuel - 1);
    if a.Done? {
      HasIffGets(a.env, name);
      if reassign && HasVariableInChain(a.env, name) {
        AssignKeepsBindings(a.env, name, a.value, name);
        ShapeAssign(a.env, name, a.value);
      }
    }
  }

  /** IfElseNode: a condition that is not a bool is a TypeError; true runs
      the then block, false the else block, or gives null without one. */
  lemma IfRule(cond: Node, thenBlock: seq<Node>, hasElse: bool, elseBlock: seq<Node>, env: Env, fuel: nat)
    requires fuel >= 1
    ensures var c := Eval(cond, env, fuel - 1);
      var o := EvalIf(cond, thenBlock, hasElse, elseBlock, env, fuel);
      && (c.Stop? ==> o == c)
      && (c.Done? && !(c.value.Base? && c.value.base.Bool?) ==> o == Stop(Fail(TypeError)))
      && (c.Done? && c.value == Base(Bool(true)) ==> o == EvalBlock(thenBlock, c.env, fuel - 1))
      && (c.Done? && c.value == Base(Bool(false)) && hasElse ==> o == EvalBlock(elseBlock, c.env, fuel - 1))
      && (c.Done? && c.value == Base(Bool(false)) && !hasElse ==> o == Done(Null, c.env))
  {
  }

  // ---- range loops -----------------------------------------------------

  /** ForLoopNode over a range: bounds that are not both ints are a
      TypeError, raised before the step is looked at. */
  lemma RangeNeedsInts(x: string, start: Node, end: Node, step: Option<Node>, body: seq<Node>, env: Env, fuel: nat,
                       a: Value, e1: Env, b: Value, e2: Env)
    requires fuel >= 1
    requires Eval(start, env, fuel - 1) == Done(a, e1) && Eval(end, e1, fuel - 1) == Done(b, e2)
    requires !Ops.IsIntValue(a) || !Ops.IsIntValue(b)
    ensures EvalRange(x, start, end, step, body, env, fuel) == Stop(Fail(TypeError))
  {
  }

  /** ForLoopNode over int bounds without a step: the loop counts by one
      towards the end, in a loop scope opened in the enclosing scope and
      closed again afterwards. */
  lemma RangeWithoutStep(x: string, start: Node, end: Node, body: seq<Node>, env: Env, fuel: nat,
                         i: int, e1: Env, j: int, e2: Env)
    requires fuel >= 1
    requires Eval(start, env, fuel - 1) == Done(Base(Int(i)), e1) && Eval(end, e1, fuel - 1) == Done(Base(Int(j)), e2)
    ensures EvalRange(x, start, end, None, body, env, fuel)
      == CloseLoop(RangeLoop(x, i, j, if i <= j then 1 else -1, body, Null, CreateChild(e2), fuel - 1), e2)
  {
  }

  /** ForLoopNode over int bounds with a step: the step is evaluated after
      both bounds; RangeStep decides whether it is usable (an error stops
      the loop before it starts), and a usable step drives the loop. */
  lemma RangeWithStep(x: string, start: Node, end: Node, step: Node, body: seq<Node>, env: Env, fuel: nat,
                      i: int, e1: Env, j: int, e2: Env)
    requires fuel >= 1
    requires Eval(start, env, fuel - 1) == Done(Base(Int(i)), e1) && Eval(end, e1, fuel - 1) == Done(Base(Int(j)), e2)
    ensures var s := Eval(step, e2, fuel - 1);
      var o := EvalRange(x, start, end, Some(step), body, env, fuel);
      && (s.Stop? ==> o == s)
      && (s.Done? && RangeStep(i, j, Some(s.value)).Err? ==> o == Stop(Fail(RangeStep(i, j, Some(s.value)).error)))
      && (s.Done? && RangeStep(i, j, Some(s.value)).Ok? ==>
            o == CloseLoop(RangeLoop(x, i, j, RangeStep(i, j, Some(s.value)).value, body, Null, CreateChild(s.env), fuel - 1), s.env))
  {
    var s := Eval(step, e2, fuel - 1);
    if s.Stop? {
      StepStops(x, start, end, step, body, env, fuel, i, e1, j, e2);
    } else if RangeStep(i, j, Some(s.value)).Err? {
      StepRejected(x, start, end, step, body, env, fuel, i, e1, j, e2, s.value, s.env);
    } else {
      StepAccepted(x, start, end, step, body, env, fuel, i, e1, j, e2, s.value, s.env);
    }
  }

  lemma StepStops(x: string, start: Node, end: Node, step: Node, body: seq<Node>, env: Env, fuel: nat,
                  i: int, e1: Env, j: int, e2: Env)
    requires fuel >= 1
    requires Eval(start, env, fuel - 1) == Done(Base(Int(i)), e1) && Eval(end, e1, fuel - 1) == Done(Base(Int(j)), e2)
    requires Eval(step, e2, fuel - 1).Stop?
    ensures EvalRange(x, start, end, Some(step), body, env, fuel) == Eval(step, e2, fuel - 1)
  {
  }

  lemma StepRejected(x: string, start: Node, end: Node, step: Node, body: seq<Node>, env: Env, fuel: nat,
                     i: int, e1: Env, j: int, e2: Env, v: Value, e3: Env)
    requires fuel >= 1
    requires Eval(start, env, fuel - 1) == Done(Base(Int(i)), e1) && Eval(end, e1, fuel - 1) == Done(Base(Int(j)), e2)
    requires Eval(step, e2, fuel - 1) == Done(v, e3) && RangeStep(i, j, Some(v)).Err?
    ensures EvalRange(x, start, end, Some(step), body, env, fuel) == Stop(Fail(RangeStep(i, j, Some(v)).error))
  {
  }

  lemma StepAccepted(x: string, start: Node, end: Node, step: Node, body: seq<Node>, env: Env, fuel: nat,
                     i: int, e1: Env, j: int, e2: Env, v: Value, e3: Env)
    requires fuel >= 1
    requires Eval(start, env, fuel - 1) == Done(Base(Int(i)), e1) && Eval(end, e1, fuel - 1) == Done(Base(Int(j)), e2)
    requires Eval(step, e2, fuel - 1) == Done(v, e3) && RangeStep(i, j, Some(v)).Ok?
    ensures EvalRange(x, start, end, Some(step), body, env, fuel)
      == CloseLoop(RangeLoop(x, i, j, RangeStep(i, j, Some(v)).value, body, Null, CreateChild(e3), fuel - 1), e3)
  {
  }

  /** One turn of a range loop, for any body. Past the end the loop gives
      the last body value. Otherwise the variable is set in the loop scope
      and the body runs: a break ends the loop with the value so far, an
      error or a return leaves it, and a normal end or a continue moves the
      variable on by the step (a continue keeps the previous value). An
      increment that overflows a long is undefined. */
  lemma RangeTurn(x: string, i: int, end: int, step: int, body: seq<Node>, last: Value, env: Env, fuel: nat)
    requires fuel >= 1
    ensures var r := RangeLoop(x, i, end, step, body, last, env, fuel);
      var o := EvalBlock(body, SetVariable(env, x, Base(Int(i))), fuel - 1);
      var more := if step > 0 then i <= end else i >= end;
      && (!more ==> r == Done(last, env))
      && (more && o.Done? ==>
            r == if Ops.IsLong(i + step) then RangeLoop(x, i + step, end, step, body, o.value, o.env, fuel - 1)
                 else Stop(Fail(Undefined)))
      && (more && o.Stop? && o.exit.Continued? ==>
            r == if Ops.IsLong(i + step) then RangeLoop(x, i + step, end, step, body, last, o.exit.env, fuel - 1)
                 else Stop(Fail(Undefined)))
      && (more && o.Stop? && o.exit.Broke? ==> r == Done(last, o.exit.env))
      && (more && o.Stop? && (o.exit.Fail? || o.exit.Returned?) ==> r == o)
  {
  }

  /** The arithmetic of one visit of a range loop with a positive step. */
  lemma VisitArithmetic(i: int, end: int, step: int, n: nat)
    requires 0 < step && i + n * step <= end < i + (n + 1) * step
    ensures i <= end
    ensures n == 0 ==> end < i + step
    ensures n > 0 ==> (i + step) + (n - 1) * step == i + n * step
    ensures n > 0 ==> (i + step) + ((n - 1) + 1) * step == i + (n + 1) * step
  {
    assert n * step >= 0;
  }

  /** A range loop with a positive step whose body reads the loop variable
      visits `i, i + step, ..., i + n * step`, the last of which is the
      last one not past `end`: the loop ends with that value, which is also
      where it leaves the variable. */
  lemma {:induction false} RangeVisitsByStep(x: string, i: int, end: int, step: int, n: nat, last: Value, env: Env, fuel: nat)
    requires 0 < step && Ops.IsLong(i) && Ops.IsLong(end + step)
    requires i + n * step <= end < i + (n + 1) * step
    requires fuel >= n + 5
    ensures RangeLoop(x, i, end, step, [Variable(x)], last, env, fuel)
      == Done(Base(Int(i + n * step)), SetVariable(env, x, Base(Int(i + n * step))))
    decreases n
  {
    var bound := SetVariable(env, x, Base(Int(i)));
    VisitArithmetic(i, end, step, n);
    InterpFacts.ReadBound(x, Base(Int(i)), env, fuel - 1);
    RangeBodyDone(x, i, end, step, [Variable(x)], last, env, fuel, Base(Int(i)), bound);
    assert RangeLoop(x, i, end, step, [Variable(x)], last, env, fuel)
      == RangeLoop(x, i + step, end, step, [Variable(x)], Base(Int(i)), bound, fuel - 1);
    if n > 0 {
      RangeVisitsByStep(x, i + step, end, step, n - 1, Base(Int(i)), bound, fuel - 1);
      InterpFacts.SetTwice(env, x, Base(Int(i)), Base(Int(i + n * step)));
    } else {
      RangePast(x, i + step, end, step, [Variable(x)], Base(Int(i)), bound, fuel - 1);
    }
  }

  /** A range loop with a positive step that is past its end gives the last
      body value. */
  lemma RangePast(x: string, i: int, end: int, step: int, body: seq<Node>, last: Value, env: Env, fuel: nat)
    requires fuel >= 1 && 0 < step && end < i
    ensures RangeLoop(x, i, end, step, body, last, env, fuel) == Done(last, env)
  {
  }

  /** A turn of a range loop whose body ends normally, with an increment
      that fits a long. */
  lemma RangeBodyDone(x: string, i: int, end: int, step: int, body: seq<Node>, last: Value, env: Env, fuel: nat,
                      v: Value, d: Env)
    requires fuel >= 1 && 0 < step && i <= end && Ops.IsLong(i + step)
    requires EvalBlock(body, SetVariable(env, x, Base(Int(i))), fuel - 1) == Done(v, d)
    ensures RangeLoop(x, i, end, step, body, last, env, fuel) == RangeLoop(x, i + step, end, step, body, v, d, fuel - 1)
  {
    assert AfterBody(Done(v, d), last) == Next(v, d);
  }

  // ---- loops over dicts ------------------------------------------------

  /** ForLoopNode over a dict: anything else is a TypeError; a dict's keys
      are taken once, in entry order, and the loop runs over them in a loop
      scope opened in the enclosing scope. */
  lemma EachRule(x: string, iterable: Node, body: seq<Node>, env: Env, fuel: nat)
    requires fuel >= 1
    ensures var d := Eval(iterable, env, fuel - 1);
      var o := EvalEach(x, iterable, body, env, fuel);
      && (d.Stop? ==> o == d)
      && (d.Done? && !d.value.Dict? ==> o == Stop(Fail(TypeError)))
      && (d.Done? && d.value.Dict? ==>
            o == CloseLoop(EachLoop(x, GetDictKeys(d.value).value, body, Null, CreateChild(d.env), fuel - 1), d.env))
  {
  }

  /** One turn of a loop over keys, for any body: with no keys left the loop
      gives the last body value; otherwise the variable takes the next key
      in the loop scope, and the body's outcome is treated as in a range
      loop (a continue keeps the previous value). */
  lemma EachTurn(x: string, keys: seq<Scalar>, body: seq<Node>, last: Value, env: Env, fuel: nat)
    requires fuel >= 1
    ensures var r := EachLoop(x, keys, body, last, env, fuel);
      && (|keys| == 0 ==> r == Done(last, env))
      && (|keys| > 0 ==>
            var o := EvalBlock(body, SetVariable(env, x, Base(keys[0])), fuel - 1);
            && (o.Done? ==> r == EachLoop(x, keys[1..], body, o.value, o.env, fuel - 1))
            && (o.Stop? && o.exit.Continued? ==> r == EachLoop(x, keys[1..], body, last, o.exit.env, fuel - 1))
            && (o.Stop? && o.exit.Broke? ==> r == Done(last, o.exit.env))
            && (o.Stop? && (o.exit.Fail? || o.exit.Returned?) ==> r == o))
  {
  }

  // ---- while loops -----------------------------------------------------

  /** WhileLoopNode: the condition is evaluated in the current scope and must
      be a bool; the loop then starts with the full iteration budget. No
      scope of its own is opened: the body is a block, so each run of it
      gets a fresh child of the current scope. */
  lemma WhileRule(cond: Node, body: seq<Node>, env: Env, fuel: nat)
    requires fuel >= 1
    ensures var c := Eval(cond, env, fuel - 1);
      var o := EvalWhile(cond, body, env, fuel);
      && (c.Stop? ==> o == c)
      && (c.Done? && !(c.value.Base? && c.value.base.Bool?) ==> o == Stop(Fail(TypeError)))
      && (c.Done? && c.value.Base? && c.value.base.Bool? ==>
            o == WhileLoop(cond, body, c.value, MaxIterations, Null, c.env, fuel - 1))
  {
  }

  /** One turn of a while loop, for any condition and body: a false
      condition or a spent budget ends the loop with the last body value; a
      break ends it too, and an error or a return leaves it. A continue
      goes back to the test without evaluating the condition again or
      spending an iteration. After a normal run the condition is evaluated
      again in the scope the body left, and one iteration is spent. */
  lemma WhileTurn(cond: Node, body: seq<Node>, c: Value, left: int, last: Value, env: Env, fuel: nat)
    requires fuel >= 1
    ensures var r := WhileLoop(cond, body, c, left, last, env, fuel);
      var o := EvalBlock(body, env, fuel - 1);
      var runs := c == Base(Bool(true)) && left > 0;
      && (!(c.Base? && c.base.Bool?) ==> r == Stop(Fail(BadVariantAccess)))
      && (c.Base? && c.base.Bool? && !runs ==> r == Done(last, env))
      && (runs && o.Stop? && o.exit.Continued? ==> r == WhileLoop(cond, body, c, left, last, o.exit.env, fuel - 1))
      && (runs && o.Stop? && o.exit.Broke? ==> r == Done(last, o.exit.env))
      && (runs && o.Stop? && (o.exit.Fail? || o.exit.Returned?) ==> r == o)
      && (runs && o.Done? ==>
            var c' := Eval(cond, o.env, fuel - 1);
            && (c'.Stop? ==> r == c')
            && (c'.Done? ==> r == WhileLoop(cond, body, c'.value, left - 1, o.value, c'.env, fuel - 1)))
  {
    var o := EvalBlock(body, env, fuel - 1);
    if c == Base(Bool(true)) && left > 0 {
      if o.Stop? {
        WhileBodyStops(cond, body, left, last, env, fuel, o.exit);
      } else {
        WhileBodyDone(cond, body, left, last, env, fuel, o.value, o.env);
      }
    }
  }

  lemma WhileBodyStops(cond: Node, body: seq<Node>, left: int, last: Value, env: Env, fuel: nat, exit: Exit)
    requires fuel >= 1 && left > 0 && EvalBlock(body, env, fuel - 1) == Stop(exit)
    ensures var r := WhileLoop(cond, body, Base(Bool(true)), left, last, env, fuel);
      && (exit.Continued? ==> r == WhileLoop(cond, body, Base(Bool(true)), left, last, exit.env, fuel - 1))
      && (exit.Broke? ==> r == Done(last, exit.env))
      && (exit.Fail? || exit.Returned? ==> r == Stop(exit))
  {
  }

  lemma WhileBodyDone(cond: Node, body: seq<Node>, left: int, last: Value, env: Env, fuel: nat, v: Value, d: Env)
    requires fuel >= 1 && left > 0 && EvalBlock(body, env, fuel - 1) == Done(v, d)
    ensures var r := WhileLoop(cond, body, Base(Bool(true)), left, last, env, fuel);
      var c' := Eval(cond, d, fuel - 1);
      && (c'.Stop? ==> r == c')
      && (c'.Done? ==> r == WhileLoop(cond, body, c'.value, left - 1, v, c'.env, fuel - 1))
  {
    assert AfterBody(Done(v, d), last) == Next(v, d);
  }

  // ---- calls -----------------------------------------------------------

  /** The scope a called function's body runs in: a frame holding its
      parameters, directly inside the caller's scope. */
  function CalleeScope(f: FuncDef, vs: seq<Value>, caller: Env): (r: Env)
    requires ArityFits(f, |vs|)
    ensures |r| == |caller| + 1 && r[1..] == caller && Shape(r)[1..] == Shape(caller)
    ensures r[0].vars.Keys == set p | p in f.params && r[0].funcs == map[]
  {
    var r := [Frame(BindParams(f, vs), map[])] + caller;
    assert r[1..] == caller;
    ShapeTail(r);
    r
  }

  /** FunctionCallNode for a user function with a fitting argument count,
      for any arguments and body: the arguments are evaluated in the
      caller's scope, the body runs in a scope of the parameters inside it,
      and the call ends in the caller's scope. A return, like the end of the
      body, gives the call its value; a break or continue passes through. */
  lemma CallRule(name: string, f: FuncDef, args: seq<Node>, env: Env, fuel: nat)
    requires name !in Builtins && GetFunction(env, name) == Some(f) && ArityFits(f, |args|) && fuel >= 1
    ensures var vs := EvalList(args, env, fuel - 1);
      var r := EvalCall(name, args, env, fuel);
      && (vs.Stop? ==> r == Stop(vs.exit))
      && (vs.Done? ==>
            var o := EvalBlock(f.body, CalleeScope(f, vs.value, vs.env), fuel - 1);
            && r == ReturnFrom(o, vs.env)
            && (o.Stop? && o.exit.Returned? ==> r.Done? && r.value == o.exit.result)
            && (o.Done? ==> r.Done? && r.value == o.value)
            && (o.Stop? && o.exit.Fail? ==> r == o))
  {
  }

  /** round, floor and ceil (util/functions.cpp): exactly one argument, else
      a ValueError before anything is evaluated; the argument's stop is the
      call's; a value that is not a float is a TypeError; rounding a float is
      floating point. */
  lemma RoundingRule(name: string, args: seq<Node>, env: Env, fuel: nat)
    requires fuel >= 1 && (name == "round" || name == "floor" || name == "ceil")
    ensures var r := EvalCall(name, args, env, fuel);
      && (|args| != 1 ==> r == Stop(Fail(ValueError)))
      && (|args| == 1 ==>
            var v := Eval(args[0], env, fuel - 1);
            && (v.Stop? ==> r == Stop(v.exit))
            && (v.Done? && !(v.value.Base? && v.value.base.Float?) ==> r == Stop(Fail(TypeError)))
            && (v.Done? && v.value.Base? && v.value.base.Float? ==> r == Stop(Fail(Unsupported))))
  {
  }

  /** roundf: exactly two arguments, else a ValueError before anything is
      evaluated. The precision is evaluated before the value. As written its
      guard never raises its TypeError: a precision that is no scalar fails
      inside the guard as a bad variant access, and a scalar that is not an
      int passes it and fails the same way when it is read, after the value
      has been checked to be a float. A negative precision is a ValueError. */
  lemma RoundfRule(args: seq<Node>, env: Env, fuel: nat)
    requires fuel >= 1
    ensures var r := EvalCall("roundf", args, env, fuel);
      && (|args| != 2 ==> r == Stop(Fail(ValueError)))
      && (|args| == 2 ==>
            var p := Eval(args[1], env, fuel - 1);
            && (p.Stop? ==> r == Stop(p.exit))
            && (p.Done? && !p.value.Base? ==> r == Stop(Fail(BadVariantAccess)))
            && (p.Done? && p.value.Base? ==>
                  var v := Eval(args[0], p.env, fuel - 1);
                  && (v.Stop? ==> r == Stop(v.exit))
                  && (v.Done? && !(v.value.Base? && v.value.base.Float?) ==> r == Stop(Fail(TypeError)))
                  && (v.Done? && v.value.Base? && v.value.base.Float? ==>
                        && (!p.value.base.Int? ==> r == Stop(Fail(BadVariantAccess)))
                        && (p.value.base.Int? && p.value.base.i < 0 ==> r == Stop(Fail(ValueError)))
                        && (p.value.base.Int? && p.value.base.i >= 0 ==> r == Stop(Fail(Unsupported))))))
  {
  }

  /** FunctionCallNode on a name that is neither a built-in nor a declared
      function. */
  lemma CallUnknown(name: string, args: seq<Node>, env: Env, fuel: nat)
    requires name !in Builtins && GetFunction(env, name).None? && fuel >= 1
    ensures EvalCall(name, args, env, fuel) == Stop(Fail(NameError))
  {
  }

  // ---- methods ---------------------------------------------------------

  /** MethodCallNode: the receiver first. A receiver that is not a list, a
      dict or a string is a TypeError, an unknown method a NameError, and a
      wrong argument count a ValueError; all three are raised before any
      argument is evaluated. */
  lemma MethodRule(r: Node, name: string, args: seq<Node>, env: Env, fuel: nat)
    requires fuel >= 1
    ensures var c := Eval(r, env, fuel - 1);
      var o := EvalMethod(Some(r), name, args, env, fuel);
      && (c.Stop? ==> o == c)
      && (c.Done? && Methods.Arity(c.value, name).Err? ==> o == Stop(Fail(Methods.Arity(c.value, name).error)))
      && (c.Done? && Methods.Arity(c.value, name).Ok? && Methods.Arity(c.value, name).value != |args| ==>
            o == Stop(Fail(ValueError)))
      && (c.Done? && Methods.Arity(c.value, name) == Ok(|args|) ==> o == CallMethod(r, c.value, name, args, c.env, fuel))
  {
  }

  /** listput's order: the index is evaluated and must be an int before the
      value to insert is evaluated; the range of the index is checked only
      afterwards, on both values (Methods.Apply). */
  lemma PutArguments(items: seq<Value>, index: Node, value: Node, env: Env, fuel: nat)
    requires fuel >= 1
    ensures var k := Eval(index, env, fuel - 1);
      var o := EvalMethodArgs(List(items), "put", [index, value], env, fuel);
      && (k.Stop? ==> o == Stop(k.exit))
      && (k.Done? && !Ops.IsIntValue(k.value) ==> o == Stop(Fail(TypeError)))
      && (k.Done? && Ops.IsIntValue(k.value) ==>
            var x := Eval(value, k.env, fuel - 1);
            && (x.Stop? ==> o == Stop(x.exit))
            && (x.Done? ==> o == Done([k.value, x.value], x.env)))
  {
  }

  // ---- blocks and list literals ---------------------------------------

  /** The first `k` of the nodes `ns` run one after another from `envs[0]`,
      each completing: the i-th gives `vals[i]` and leaves `envs[i + 1]`.
      With a budget of `fuel` for the whole run, the i-th is evaluated with
      `fuel - 1 - i`. */
  predicate Completes(ns: seq<Node>, k: nat, envs: seq<Env>, vals: seq<Value>, fuel: nat) {
    && k <= |ns| && |envs| == k + 1 && |vals| == k && k < fuel
    && forall i :: 0 <= i < k ==> Eval(ns[i], envs[i], fuel - 1 - i) == Done(vals[i], envs[i + 1])
  }

  /** A run that completes still completes after its first node. */
  lemma CompletesTail(ns: seq<Node>, k: nat, envs: seq<Env>, vals: seq<Value>, fuel: nat)
    requires Completes(ns, k, envs, vals, fuel) && k > 0
    ensures Eval(ns[0], envs[0], fuel - 1) == Done(vals[0], envs[1])
    ensures Completes(ns[1..], k - 1, envs[1..], vals[1..], fuel - 1)
  {
    assert Eval(ns[0], envs[0], fuel - 1 - 0) == Done(vals[0], envs[0 + 1]);
    forall i | 0 <= i < k - 1
      ensures Eval(ns[1..][i], envs[1..][i], fuel - 1 - 1 - i) == Done(vals[1..][i], envs[1..][i + 1])
    {
      assert Eval(ns[i + 1], envs[i + 1], fuel - 1 - (i + 1)) == Done(vals[i + 1], envs[i + 2]);
    }
  }

  /** BlockNode: the statements run in a child of the current scope, and
      the block's outcome is theirs with that child closed again: the value
      of a normal end, and the scope of a break, continue or return, are
      read in the parent; an error passes through unchanged. */
  lemma BlockRule(stmts: seq<Node>, env: Env, fuel: nat)
    requires fuel >= 1
    ensures var o := EvalStatements(stmts, Null, CreateChild(env), fuel - 1);
      var r := EvalBlock(stmts, env, fuel);
      && (o.Done? ==> r == Done(o.value, Parent(o.env)))
      && (o.Stop? && o.exit.Fail? ==> r == o)
      && (o.Stop? && o.exit.Broke? ==> r == Stop(Broke(Parent(o.exit.env))))
      && (o.Stop? && o.exit.Continued? ==> r == Stop(Continued(Parent(o.exit.env))))
      && (o.Stop? && o.exit.Returned? ==> r == Stop(Returned(o.exit.result, Parent(o.exit.env))))
  {
  }

  /** The statements of a block one at a time: none left gives the value of
      the last one run (null before the first); otherwise the first runs,
      a stop of it is the outcome, and a normal end carries its value and
      scope to the rest. */
  lemma StatementsRule(stmts: seq<Node>, last: Value, env: Env, fuel: nat)
    requires fuel >= 1
    ensures var r := EvalStatements(stmts, last, env, fuel);
      && (stmts == [] ==> r == Done(last, env))
      && (stmts != [] ==>
            var v := Eval(stmts[0], env, fuel - 1);
            && (v.Stop? ==> r == Stop(v.exit))
            && (v.Done? ==> r == EvalStatements(stmts[1..], v.value, v.env, fuel - 1)))
  {
  }

  /** Statements that all complete give the value of the last one, or the
      value carried in when there are none, in the scope the last one
      leaves. */
  lemma {:induction false} StatementsComplete(stmts: seq<Node>, last: Value, envs: seq<Env>, vals: seq<Value>, fuel: nat)
    requires Completes(stmts, |stmts|, envs, vals, fuel)
    ensures EvalStatements(stmts, last, envs[0], fuel) ==
      Done(if stmts == [] then last else vals[|stmts| - 1], envs[|stmts|])
    decreases |stmts|
  {
    if stmts != [] {
      CompletesTail(stmts, |stmts|, envs, vals, fuel);
      StatementsComplete(stmts[1..], vals[0], envs[1..], vals[1..], fuel - 1);
    }
  }

  /** The first statement that stops ends the statements with its exit;
      the ones after it are not run. */
  lemma {:induction false} StatementsStop(stmts: seq<Node>, last: Value, envs: seq<Env>, vals: seq<Value>, fuel: nat, k: nat, x: Exit)
    requires k < |stmts| && Completes(stmts, k, envs, vals, fuel)
    requires Eval(stmts[k], envs[k], fuel - 1 - k) == Stop(x)
    ensures EvalStatements(stmts, last, envs[0], fuel) == Stop(x)
    decreases k
  {
    if k > 0 {
      CompletesTail(stmts, k, envs, vals, fuel);
      StatementsStop(stmts[1..], vals[0], envs[1..], vals[1..], fuel - 1, k - 1, x);
    }
  }

  /** A block whose statements all complete gives the last statement's
      value, or null when it is empty, and leaves the scope its statements
      left with the block's own scope closed. */
  lemma BlockValue(stmts: seq<Node>, env: Env, envs: seq<Env>, vals: seq<Value>, fuel: nat)
    requires fuel >= 1 && Completes(stmts, |stmts|, envs, vals, fuel - 1) && envs[0] == CreateChild(env)
    ensures |envs[|stmts|]| > 1 && EvalBlock(stmts, env, fuel) ==
      Done(if stmts == [] then Null else vals[|stmts| - 1], Parent(envs[|stmts|]))
  {
    StatementsComplete(stmts, Null, envs, vals, fuel - 1);
  }

  /** ListNode (and the arguments of a call): the elements left to right,
      each in the scope the previous one leaves; the first stop is the
      outcome. */
  lemma ListRule(ns: seq<Node>, env: Env, fuel: nat)
    requires fuel >= 1
    ensures var r := EvalList(ns, env, fuel);
      && (ns == [] ==> r == Done([], env))
      && (ns != [] ==>
            var v := Eval(ns[0], env, fuel - 1);
            && (v.Stop? ==> r == Stop(v.exit))
            && (v.Done? ==>
                  var rest := EvalList(ns[1..], v.env, fuel - 1);
                  && (rest.Stop? ==> r == Stop(rest.exit))
                  && (rest.Done? ==> r == Done([v.value] + rest.value, rest.env))))
  {
  }

  /** Elements that all complete give the list of their values in order:
      element i of the result is the value of `ns[i]`. */
  lemma {:induction false} ListValues(ns: seq<Node>, envs: seq<Env>, vals: seq<Value>, fuel: nat)
    requires Completes(ns, |ns|, envs, vals, fuel)
    ensures EvalList(ns, envs[0], fuel) == Done(vals, envs[|ns|])
    decreases |ns|
  {
    if ns != [] {
      CompletesTail(ns, |ns|, envs, vals, fuel);
      ListValues(ns[1..], envs[1..], vals[1..], fuel - 1);
      assert [vals[0]] + vals[1..] == vals;
    }
  }

  /** The first element that stops ends the list with its exit; the
      elements after it are not evaluated. */
  lemma {:induction false} ListStops(ns: seq<Node>, envs: seq<Env>, vals: seq<Value>, fuel: nat, k: nat, x: Exit)
    requires k < |ns| && Completes(ns, k, envs, vals, fuel)
    requires Eval(ns[k], envs[k], fuel - 1 - k) == Stop(x)
    ensures EvalList(ns, envs[0], fuel) == Stop(x)
    decreases k
  {
    if k > 0 {
      CompletesTail(ns, k, envs, vals, fuel);
      ListStops(ns[1..], envs[1..], vals[1..], fuel - 1, k - 1, x);
    }
  }
}

=== FILE: ops.dfy ===
/** The scalar conversions, the unary operators, the int, string and bool
    overloads of BinaryOpVisitor and read indexing of core/main/ast.cpp.

    Integers are C++ `long`: 64 bits, with signed overflow undefined, and `/`
    and `%` truncate toward zero. A float is only a tag here: every
    floating-point computation ends in `Unsupported`. */
module Ops {
  import opened Errors
  import opened Values
  import opened Lexer
  import Utf8

  const LongMin: int := -LongMax - 1

  predicate IsLong(n: int) {
    LongMin <= n <= LongMax
  }

  /** A `long` result; a value outside the range means the C++ arithmetic
      overflowed, which is undefined behaviour. */
  function Long(n: int): Result<Value> {
    if IsLong(n) then Ok(Base(Int(n))) else Err(Undefined)
  }

  function Abs(n: int): nat {
    if n < 0 then -n else n
  }

  /** C++ integer `/`: the quotient rounded toward zero. */
  function Quot(a: int, b: int): int
    requires b != 0
  {
    if (a < 0) == (b < 0) then Abs(a) / Abs(b) else -(Abs(a) / Abs(b))
  }

  /** C++ integer `%`: the remainder has the sign of the dividend. */
  function Rem(a: int, b: int): int
    requires b != 0
  {
    if a < 0 then -(Abs(a) % Abs(b)) else Abs(a) % Abs(b)
  }

  /** Quotient and remainder satisfy the identity the C++ standard demands of
      `/` and `%`, the remainder is smaller than the divisor and takes the
      sign of the dividend; on non-negative operands they agree with
      Dafny's Euclidean division. */
  lemma QuotRem(a: int, b: int)
    requires b != 0
    ensures Quot(a, b) * b + Rem(a, b) == a
    ensures Abs(Rem(a, b)) < Abs(b)
    ensures Rem(a, b) == 0 || (Rem(a, b) < 0 <==> a < 0)
    ensures a >= 0 && b > 0 ==> Quot(a, b) == a / b && Rem(a, b) == a % b
  {
    var q, m := Abs(a) / Abs(b), Abs(a) % Abs(b);
    assert Abs(a) == q * Abs(b) + m;
    QuotRemSigned(a, b, q, m);
  }

  /** The truncating quotient and remainder from the magnitudes' division. */
  lemma QuotRemSigned(a: int, b: int, q: int, m: int)
    requires b != 0 && q == Abs(a) / Abs(b) && m == Abs(a) % Abs(b)
    requires Abs(a) == q * Abs(b) + m
    ensures Quot(a, b) * b + Rem(a, b) == a
    ensures Abs(Rem(a, b)) < Abs(b) && (Rem(a, b) == 0 || (Rem(a, b) < 0 <==> a < 0))
  {
    SignedProduct(q, b);
    if a < 0 && b < 0 {
      assert Quot(a, b) == q && Rem(a, b) == -m;
    } else if a < 0 {
      assert Quot(a, b) == -q && Rem(a, b) == -m;
    } else if b < 0 {
      assert Quot(a, b) == -q && Rem(a, b) == m;
    } else {
      assert Quot(a, b) == q && Rem(a, b) == m;
    }
  }

  /** The product of a quotient magnitude with a signed divisor. */
  lemma SignedProduct(q: int, b: int)
    ensures b < 0 ==> q * b == -(q * Abs(b)) && -q * b == q * Abs(b)
    ensures b >= 0 ==> q * b == q * Abs(b) && -q * b == -(q * Abs(b))
  {
  }


  lemma MulAtLeast(q: nat, b: nat)
    requires b >= 1
    ensures q <= q * b
    ensures b >= 2 ==> 2 * q <= q * b
  {
    assert q * b == q + q * (b - 1);
  }

  /** A quotient of two longs is a long, except LongMin / -1. */
  lemma QuotRange(a: int, b: int)
    requires IsLong(a) && IsLong(b) && b != 0
    ensures IsLong(Quot(a, b)) <==> !(a == LongMin && b == -1)
  {
    var A, B := Abs(a), Abs(b);
    var q := A / B;
    assert q * B <= A;
    MulAtLeast(q, B);
    assert q <= A;
    assert A <= LongMax + 1;
  }

  predicate IsComparison(op: TokenKind) {
    op.Equal? || op.NotEq? || op.Gt? || op.GtEq? || op.Lt? || op.LtEq?
  }

  /** The operators the int and float overloads compute with. */
  predicate IsArithmetic(op: TokenKind) {
    op.Plus? || op.Minus? || op.Mod? || op.Aster? || op.DblAster? || op.Slash? || op.DblSlash?
  }

  /** A comparison applied to two ordered quantities. */
  function Compare(op: TokenKind, a: int, b: int): bool
    requires IsComparison(op)
  {
    if op.Equal? then a == b
    else if op.NotEq? then a != b
    else if op.Gt? then a > b
    else if op.GtEq? then a >= b
    else if op.Lt? then a < b
    else a <= b
  }

  /** The int × int overload of BinaryOpVisitor. `**` goes through
      floating-point `std::pow` and is not modelled. */
  function IntOp(op: TokenKind, a: int, b: int): (r: Result<Value>)
    ensures r.Ok? ==> r.value.Base? && (r.value.base.Int? || r.value.base.Bool?)
    ensures r.Ok? && r.value.base.Int? ==> IsLong(r.value.base.i)
    ensures IsComparison(op) ==> r.Ok? && r.value.base.Bool?
    ensures r.Ok? && r.value.base.Bool? ==> IsComparison(op)
    ensures r.Err? && !IsComparison(op) && !IsArithmetic(op) ==> r.error == InterpreterError
    // `+`, `-` and `*` give the exact result when it fits in a long; the
    // overflow the C++ leaves undefined is Undefined here
    ensures op.Plus? ==> (r.Ok? <==> IsLong(a + b)) && (r.Ok? ==> r.value == Base(Int(a + b))) && (r.Err? ==> r.error == Undefined)
    ensures op.Minus? ==> (r.Ok? <==> IsLong(a - b)) && (r.Ok? ==> r.value == Base(Int(a - b))) && (r.Err? ==> r.error == Undefined)
    ensures op.Aster? ==> (r.Ok? <==> IsLong(a * b)) && (r.Ok? ==> r.value == Base(Int(a * b))) && (r.Err? ==> r.error == Undefined)
    // the comparisons compare the two numbers
    ensures op.Equal? ==> r == Ok(Base(Bool(a == b)))
    ensures op.NotEq? ==> r == Ok(Base(Bool(a != b)))
    ensures op.Gt? ==> r == Ok(Base(Bool(a > b)))
    ensures op.GtEq? ==> r == Ok(Base(Bool(a >= b)))
    ensures op.Lt? ==> r == Ok(Base(Bool(a < b)))
    ensures op.LtEq? ==> r == Ok(Base(Bool(a <= b)))
  {
    if IsComparison(op) then Ok(Base(Bool(Compare(op, a, b))))
    else if op.Plus? then Long(a + b)
    else if op.Minus? then Long(a - b)
    else if op.Aster? then Long(a * b)
    else if op.Slash? || op.DblSlash? then
      if b == 0 then Err(Undefined) else Long(Quot(a, b))
    else if op.Mod? then
      if b == 0 || !IsLong(Quot(a, b)) then Err(Undefined) else Long(Rem(a, b))
    else if op.DblAster? then Err(Unsupported)
    else Err(InterpreterError)
  }

  /** The float × float overload: each operator it knows needs floating-point
      arithmetic; any other is an InterpreterError. */
  function FloatOp(op: TokenKind): (r: Result<Value>)
    ensures r.Err?
    ensures r.error == Unsupported <==> IsComparison(op) || IsArithmetic(op)
  {
    if IsComparison(op) || IsArithmetic(op) then Err(Unsupported) else Err(InterpreterError)
  }

  /** The string × string overload: `+` concatenates, `==`/`!=` compare
      contents, and the order comparisons compare byte lengths. */
  function StrOp(op: TokenKind, a: string, b: string): (r: Result<Value>)
    ensures r.Ok? <==> op.Plus? || IsComparison(op)
    ensures r.Err? ==> r.error == InterpreterError
    ensures op.Plus? ==> r == Ok(Base(Str(a + b)))
    // equality compares the contents
    ensures op.Equal? ==> r == Ok(Base(Bool(a == b)))
    ensures op.NotEq? ==> r == Ok(Base(Bool(a != b)))
    // the orderings compare byte lengths
    ensures op.Gt? ==> r == Ok(Base(Bool(|a| > |b|)))
    ensures op.GtEq? ==> r == Ok(Base(Bool(|a| >= |b|)))
    ensures op.Lt? ==> r == Ok(Base(Bool(|a| < |b|)))
    ensures op.LtEq? ==> r == Ok(Base(Bool(|a| <= |b|)))
  {
    if op.Plus? then Ok(Base(Str(a + b)))
    else if op.Equal? then Ok(Base(Bool(a == b)))
    else if op.NotEq? then Ok(Base(Bool(a != b)))
    else if IsComparison(op) then Ok(Base(Bool(Compare(op, |a|, |b|))))
    else Err(InterpreterError)
  }

  /** The bool × bool overload: only `==`, `!=`, `and` and `or`. */
  function BoolOp(op: TokenKind, a: bool, b: bool): (r: Result<Value>)
    ensures r.Ok? <==> op.Equal? || op.NotEq? || op.And? || op.Or?
    ensures r.Err? ==> r.error == InterpreterError
  {
    if op.Equal? then Ok(Base(Bool(a == b)))
    else if op.NotEq? then Ok(Base(Bool(a != b)))
    else if op.And? then Ok(Base(Bool(a && b)))
    else if op.Or? then Ok(Base(Bool(a || b)))
    else Err(InterpreterError)
  }

  predicate SameTag(x: Scalar, y: Scalar) {
    (x.Int? && y.Int?) || (x.Float? && y.Float?) || (x.Str? && y.Str?) || (x.Bool? && y.Bool?)
  }

  /** BinaryOpNode on two evaluated operands: both must be scalars of the
      same alternative. There is no promotion between int and float, and no
      operator applies to a container or to null. */
  function BinaryOp(op: TokenKind, l: Value, r: Value): (res: Result<Value>)
    ensures res.Ok? ==> l.Base? && r.Base? && SameTag(l.base, r.base)
    ensures !(l.Base? && r.Base? && SameTag(l.base, r.base)) ==> res == Err(InterpreterError)
    ensures res.Ok? && IsComparison(op) ==> res.value.Base? && res.value.base.Bool?
  {
    if !l.Base? || !r.Base? then Err(InterpreterError)
    else
      var x, y := l.base, r.base;
      if x.Int? && y.Int? then IntOp(op, x.i, y.i)
      else if x.Float? && y.Float? then FloatOp(op)
      else if x.Str? && y.Str? then StrOp(op, x.s, y.s)
      else if x.Bool? && y.Bool? then BoolOp(op, x.b, y.b)
      else Err(InterpreterError)
  }

  /** `/` and `//` are the same truncating quotient on ints; together with
      `%` they satisfy q * b + m == a, and both fail for the same operands:
      a zero divisor, or LongMin / -1. */
  lemma DivisionIdentity(a: int, b: int)
    requires IsLong(a) && IsLong(b)
    ensures IntOp(DblSlash, a, b) == IntOp(Slash, a, b)
    ensures IntOp(Slash, a, b).Ok? <==> IntOp(Mod, a, b).Ok?
    ensures IntOp(Slash, a, b).Err? <==> b == 0 || (a == LongMin && b == -1)
    ensures IntOp(Slash, a, b).Ok? ==>
      var q, m := IntOp(Slash, a, b).value.base.i, IntOp(Mod, a, b).value.base.i;
      q * b + m == a && Abs(m) < Abs(b) && (m == 0 || (m < 0 <==> a < 0))
  {
    if b != 0 {
      QuotRem(a, b);
      QuotRange(a, b);
    }
  }

  /** The order comparisons on strings are the comparisons of their byte
      lengths, not a lexicographic order: "b" < "aa". */
  lemma StringOrderIsLengthOrder(op: TokenKind, a: string, b: string)
    requires op.Gt? || op.GtEq? || op.Lt? || op.LtEq?
    ensures StrOp(op, a, b) == IntOp(op, |a|, |b|)
    ensures StrOp(Lt, "b", "aa") == Ok(Base(Bool(true)))
  {
  }

  /** The six comparisons are consistent: `a > b` is `b < a`, `<=` negates
      `>`, `!=` negates `==`, for ints and for strings alike. */
  lemma ComparisonDuals(a: Scalar, b: Scalar)
    requires SameTag(a, b) && (a.Int? || a.Str?)
    ensures BinaryOp(Gt, Base(a), Base(b)) == BinaryOp(Lt, Base(b), Base(a))
    ensures BinaryOp(GtEq, Base(a), Base(b)) == BinaryOp(LtEq, Base(b), Base(a))
    ensures BinaryOp(LtEq, Base(a), Base(b)).value.base.b == !BinaryOp(Gt, Base(a), Base(b)).value.base.b
    ensures BinaryOp(NotEq, Base(a), Base(b)).value.base.b == !BinaryOp(Equal, Base(a), Base(b)).value.base.b
  {
  }

  // ---- conversions ----------------------------------------------------

  function DigitChar(d: nat): char
    requires d < 10
  {
    ('0' as int + d) as char
  }

  /** The decimal digits of `n`, most significant first, without leading zeros. */
  function Decimal(n: nat): (r: string)
    ensures |r| > 0 && forall k :: 0 <= k < |r| ==> IsDigit(r[k])
    ensures |r| > 1 ==> r[0] != '0'
    decreases n
  {
    if n < 10 then [DigitChar(n)] else Decimal(n / 10) + [DigitChar(n % 10)]
  }

  /** `std::to_string` of a long. */
  function LongToString(n: int): string {
    if n < 0 then "-" + Decimal(-n) else Decimal(n)
  }

  function SpaceEnd(s: string, p: nat): (e: nat)
    requires p <= |s|
    ensures p <= e <= |s| && (e == |s| || !IsSpace(s[e]))
    decreases |s| - p
  {
    if p < |s| && IsSpace(s[p]) then SpaceEnd(s, p + 1) else p
  }

  function DigitEnd(s: string, p: nat): (e: nat)
    requires p <= |s|
    ensures p <= e <= |s| && (e == |s| || !IsDigit(s[e]))
    ensures forall k :: p <= k < e ==> IsDigit(s[k])
    decreases |s| - p
  {
    if p < |s| && IsDigit(s[p]) then DigitEnd(s, p + 1) else p
  }

  /** `std::stol` in base 10: leading white space, an optional sign, then the
      longest run of digits; what follows the digits is ignored. No digit at
      all is invalid_argument and a value outside `long` is out_of_range;
      toInt turns both into a ConversionError. */
  function Stol(s: string): (r: Result<int>)
    ensures r.Ok? ==> IsLong(r.value)
    ensures r.Err? ==> r.error == ConversionError
  {
    var p := SpaceEnd(s, 0);
    var signed := p < |s| && (s[p] == '-' || s[p] == '+');
    var d := if signed then p + 1 else p;
    var e := DigitEnd(s, d);
    if e == d then Err(ConversionError)
    else
      var n: int := DigitsValue(s[d..e]);
      var v: int := if signed && s[p] == '-' then -n else n;
      if IsLong(v) then Ok(v) else Err(ConversionError)
  }

  lemma {:induction false} DecimalValue(n: nat)
    ensures DigitsValue(Decimal(n)) == n
    decreases n
  {
    if n >= 10 {
      DecimalValue(n / 10);
      var d := Decimal(n);
      assert d[..|d| - 1] == Decimal(n / 10);
    }
  }

  lemma {:induction false} DigitEndAtEnd(s: string, p: nat)
    requires p <= |s| && forall k :: p <= k < |s| ==> IsDigit(s[k])
    ensures DigitEnd(s, p) == |s|
    decreases |s| - p
  {
    if p < |s| {
      DigitEndAtEnd(s, p + 1);
    }
  }

  /** stol reads back what to_string writes: int(str(n)) == n for every long. */
  lemma StolReadsLongToString(n: int)
    requires IsLong(n)
    ensures Stol(LongToString(n)) == Ok(n)
  {
    var s := LongToString(n);
    var m := if n < 0 then -n else n;
    var d := if n < 0 then 1 else 0;
    assert SpaceEnd(s, 0) == 0;
    DigitEndAtEnd(s, d);
    assert s[d..|s|] == Decimal(m);
    DecimalValue(m);
  }

  /** toInt. A float would be truncated by `static_cast<long>`, which is not modelled. */
  function ToInt(v: Value): (r: Result<int>)
    ensures !v.Base? <==> r == Err(TypeError)
    ensures r.Ok? && v.base.Str? ==> IsLong(r.value)
  {
    if !v.Base? then Err(TypeError)
    else match v.base
      case Float(_) => Err(Unsupported)
      case Int(i) => Ok(i)
      case Bool(b) => Ok(if b then 1 else 0)
      case Str(s) => Stol(s)
  }

  /** toString. A float would go through `std::to_string(double)`, which is not modelled. */
  function ToString(v: Value): (r: Result<string>)
    ensures !v.Base? <==> r == Err(TypeError)
    ensures r.Ok? && v.base.Str? ==> r.value == v.base.s
  {
    if !v.Base? then Err(TypeError)
    else match v.base
      case Float(_) => Err(Unsupported)
      case Int(i) => Ok(LongToString(i))
      case Bool(b) => Ok(if b then "true" else "false")
      case Str(s) => Ok(s)
  }

  /** toBool: a scalar is true when it is non-zero or non-empty; a container
      is accepted only for the `?` operator, as its non-emptiness. */
  function ToBool(v: Value, qmark: bool): (r: Result<bool>)
    ensures r == Err(TypeError) <==> v.Null? || (!v.Base? && !qmark)
    ensures r.Ok? && v.List? ==> (r.value <==> |v.items| > 0)
    ensures r.Ok? && v.Dict? ==> (r.value <==> |v.entries| > 0)
  {
    if v.Base? then
      match v.base
      case Float(_) => Err(Unsupported)
      case Int(i) => Ok(i != 0)
      case Bool(b) => Ok(b)
      case Str(s) => Ok(|s| > 0)
    else if qmark && v.List? then Ok(|v.items| > 0)
    else if qmark && v.Dict? then Ok(|v.entries| > 0)
    else Err(TypeError)
  }

  /** TypeCastNode: the target is a type keyword; toFloat is the identity on
      a float and needs floating-point conversion otherwise. */
  function Cast(target: TokenKind, v: Value): (r: Result<Value>)
    ensures !(target.IntType? || target.FloatType? || target.BoolType? || target.StrType?) ==> r == Err(ConversionError)
    ensures r.Ok? ==> r.value.Base?
    ensures r.Ok? && target.IntType? ==> r.value.base.Int?
    ensures r.Ok? && target.FloatType? ==> r.value.base.Float?
    ensures r.Ok? && target.BoolType? ==> r.value.base.Bool?
    ensures r.Ok? && target.StrType? ==> r.value.base.Str?
  {
    if target.IntType? then
      var i :- ToInt(v); Ok(Base(Int(i)))
    else if target.FloatType? then
      if !v.Base? then Err(TypeError)
      else if v.base.Float? then Ok(v)
      else Err(Unsupported)
    else if target.BoolType? then
      var b :- ToBool(v, false); Ok(Base(Bool(b)))
    else if target.StrType? then
      var s :- ToString(v); Ok(Base(Str(s)))
    else Err(ConversionError)
  }

  /** UnaryOpNode: `!` needs a bool, `-` and `_` a number (the result keeps
      its tag), and `?` is toBool with containers allowed. */
  function Unary(op: TokenKind, v: Value): (r: Result<Value>)
    ensures op.Not? ==> (r.Ok? <==> v.Base? && v.base.Bool?)
    ensures (op.Minus? || op.Underscore?) && !(v.Base? && (v.base.Int? || v.base.Float?)) ==> r == Err(TypeError)
    ensures (op.Minus? || op.Underscore?) && r.Ok? ==> v.Base? && v.base.Int? && r.value.Base? && r.value.base.Int?
    ensures op.Underscore? && r.Ok? ==> r.value.base.i >= 0
    ensures !(op.Not? || op.Minus? || op.Underscore? || op.QMark?) ==> r == Err(InterpreterError)
  {
    if op.Not? then
      if v.Base? && v.base.Bool? then Ok(Base(Bool(!v.base.b))) else Err(TypeError)
    else if op.Minus? || op.Underscore? then
      if !v.Base? then Err(TypeError)
      else match v.base
        case Float(_) => Err(Unsupported)
        case Int(i) => if op.Minus? then Long(-i) else Long(Abs(i))
        case _ => Err(TypeError)
    else if op.QMark? then
      var b :- ToBool(v, true); Ok(Base(Bool(b)))
    else Err(InterpreterError)
  }

  /** Casting to str and back to int gives the long back; casting a bool to
      int and back to bool gives the bool back; but the string of `false` is
      non-empty, so casting it to bool gives true. */
  lemma CastRoundTrips(n: int, b: bool)
    requires IsLong(n)
    ensures Cast(StrType, Base(Int(n))).Ok?
    ensures Cast(IntType, Cast(StrType, Base(Int(n))).value) == Ok(Base(Int(n)))
    ensures Cast(BoolType, Cast(IntType, Base(Bool(b))).value) == Ok(Base(Bool(b)))
    ensures Cast(BoolType, Cast(StrType, Base(Bool(false))).value) == Ok(Base(Bool(true)))
  {
    StolReadsLongToString(n);
  }

  /** `?` agrees with the bool cast on every scalar and extends it to
      containers, where the cast is a TypeError. */
  lemma QMarkExtendsBoolCast(v: Value)
    ensures v.Base? ==> Unary(QMark, v) == Cast(BoolType, v)
    ensures v.List? ==> Cast(BoolType, v) == Err(TypeError) && Unary(QMark, v) == Ok(Base(Bool(|v.items| > 0)))
    ensures v.Dict? ==> Cast(BoolType, v) == Err(TypeError) && Unary(QMark, v) == Ok(Base(Bool(|v.entries| > 0)))
  {
  }

  /** Negation undoes itself, absolute value and `!` are idempotent and an
      involution respectively; negating LongMin overflows. */
  lemma UnaryAlgebra(v: Value)
    ensures Unary(Minus, v).Ok? && IsLong(v.base.i) ==> Unary(Minus, Unary(Minus, v).value) == Ok(v)
    ensures Unary(Underscore, v).Ok? ==> Unary(Underscore, Unary(Underscore, v).value) == Unary(Underscore, v)
    ensures Unary(Not, v).Ok? ==> Unary(Not, Unary(Not, v).value) == Ok(v)
    ensures Unary(Minus, Base(Int(LongMin))) == Err(Undefined)
    ensures Unary(Underscore, Base(Int(LongMin))) == Err(Undefined)
  {
  }

  // ---- indexing -------------------------------------------------------

  predicate IsIntValue(v: Value) {
    v.Base? && v.base.Int?
  }

  /** IndexAccessNode on evaluated operands: a list or string index must be
      an int in [0, length), a string being counted in code points; a dict
      key must be a scalar that is present. A null container has no scalar
      to look at, which the source meets with a bad variant access. */
  function Index(c: Value, i: Value): (r: Result<Value>)
    ensures c.List? ==> (r.Ok? <==> IsIntValue(i) && 0 <= i.base.i < |c.items|)
    ensures c.List? && r.Ok? ==> r.value == c.items[i.base.i]
    ensures c.Dict? ==> (r.Ok? <==> i.Base? && Lookup(c.entries, i.base).Some?)
    ensures c.Dict? && r.Ok? ==> Lookup(c.entries, i.base) == Some(r.value)
    ensures (c.List? || c.Dict? || (c.Base? && c.base.Str?)) && !IsIntValue(i) && !(c.Dict? && i.Base?) ==> r == Err(TypeError)
    ensures c.Base? && !c.base.Str? ==> r == Err(TypeError)
    ensures c.Null? ==> r == Err(BadVariantAccess)
  {
    if c.List? then
      if !IsIntValue(i) then Err(TypeError)
      else if !(0 <= i.base.i < |c.items|) then Err(IndexError)
      else Ok(c.items[i.base.i])
    else if c.Dict? then
      if !i.Base? then Err(TypeError)
      else match Lookup(c.entries, i.base)
        case None => Err(NameError)
        case Some(x) => Ok(x)
    else if c.Null? then Err(BadVariantAccess)
    else if !c.base.Str? then Err(TypeError)
    else if !IsIntValue(i) then Err(TypeError)
    else
      var n :- Utf8.StrLen(c.base.s);
      var k := i.base.i;
      if !(0 <= k < n) then Err(IndexError)
      else
        var ch :- Utf8.StrChar(c.base.s, k);
        Ok(Base(Str(ch)))
  }

  /** Reading a list cell after updateListElement gives the new value. */
  lemma IndexAfterUpdate(c: Value, k: int, x: Value)
    requires UpdateListElement(c, k, x).Ok?
    ensures Index(UpdateListElement(c, k, x).value, Base(Int(k))) == Ok(x)
  {
  }

  /** Reading a dict key after setDictElement gives the new value. */
  lemma IndexAfterSet(c: Value, k: Scalar, x: Value)
    requires SetDictElement(c, k, x).Ok?
    ensures Index(SetDictElement(c, k, x).value, Base(k)) == Ok(x)
  {
  }

  /** A string index gives the code point at that position of a well-encoded
      string, and the single byte on an all-ASCII string. */
  lemma IndexIsCodePoint(s: string, k: int)
    requires Utf8.CodePoints(s).Ok? && 0 <= k < |Utf8.CodePoints(s).value|
    ensures Index(Base(Str(s)), Base(Int(k))) == Ok(Base(Str(Utf8.CodePoints(s).value[k])))
    ensures Utf8.IsAscii(s) && k < |s| ==> Index(Base(Str(s)), Base(Int(k))) == Ok(Base(Str([s[k]])))
  {
    Utf8.StrCharIsCodePoint(s, k);
    if Utf8.IsAscii(s) {
      Utf8.AsciiStrLen(s);
      Utf8.AsciiStrChar(s, k);
    }
  }
}

=== FILE: parser.dfy ===
/** The recursive-descent parser of core/main/parser.cpp.

    The parser reads the tokens the lexer hands out one by one. The lexer is
    deterministic and the parser never moves backwards (peekNextTokenType and
    isStatementComplete restore the cursor they move), so the model parses the
    token `Stream` of the whole input instead: the current token is
    `st.toks[pos]`, and advancing to a token whose lexing failed raises that
    lexer's error, as getNextToken would at that moment.

    Every parsing function carries `strict`. With `strict` false it is the
    parser as written; with `strict` true a '.' that follows no primary is
    rejected instead of producing a method call on a null node (see
    `NullReceiverAsWritten`). */
module Parser {
  import opened Errors
  import opened Values
  import opened Lexer
  import opened Ast

  /** What the parser needs of TokenizeFrom: a stream without a lexer error
      ends with END. */
  predicate ValidStream(st: Stream) {
    st.fault.None? ==> |st.toks| > 0 && st.toks[|st.toks| - 1].kind.End?
  }

  lemma TokenizeValid(input: string)
    ensures ValidStream(Tokenize(input))
  {
  }

  /** advanceToken: the next token becomes current; past END the lexer keeps
      answering END. */
  function Advance(st: Stream, pos: nat): (r: Result<nat>)
    requires ValidStream(st) && pos < |st.toks|
    ensures r.Ok? ==> r.value < |st.toks|
    ensures r.Ok? && !st.toks[pos].kind.End? ==> r.value == pos + 1
    ensures r.Err? ==> pos + 1 == |st.toks| && st.fault == Some(r.error)
  {
    if pos + 1 < |st.toks| then Ok(pos + 1)
    else if st.fault.Some? then Err(st.fault.value)
    else Ok(pos)
  }

  /** peekNextTokenType: the kind of the token after the current one. */
  function PeekNext(st: Stream, pos: nat): (r: Result<TokenKind>)
    requires ValidStream(st) && pos < |st.toks|
    ensures pos + 1 < |st.toks| ==> r == Ok(st.toks[pos + 1].kind)
  {
    if pos + 1 < |st.toks| then Ok(st.toks[pos + 1].kind)
    else if st.fault.Some? then Err(st.fault.value)
    else Ok(End)
  }

  /** `std::get<std::string>(currentToken.value.asBase())`. */
  function IdentName(t: Token): (r: Result<string>)
    ensures r.Ok? <==> t.payload.Base? && t.payload.base.Str?
    ensures r.Err? ==> r.error == BadVariantAccess
  {
    if t.payload.Base? && t.payload.base.Str? then Ok(t.payload.base.s) else Err(BadVariantAccess)
  }

  predicate IsPrimary(k: TokenKind) {
    k.IntNum? || k.FloatNum? || k.StringLit? || k.True? || k.False? || k.Identifier?
  }

  /** The literal or variable node of a primary token; a payload of the wrong
      alternative is std::get's bad_variant_access. */
  function Leaf(t: Token): (r: Result<Node>)
    requires IsPrimary(t.kind)
    ensures r.Err? ==> r.error == BadVariantAccess
    ensures r.Ok? ==> NullCalls(r.value) == 0
  {
    var v := t.payload;
    if t.kind.IntNum? then
      if v.Base? && v.base.Int? then Ok(IntLit(v.base.i)) else Err(BadVariantAccess)
    else if t.kind.FloatNum? then
      if v.Base? && v.base.Float? then Ok(FloatLit(v.base.text)) else Err(BadVariantAccess)
    else if t.kind.StringLit? then
      if v.Base? && v.base.Str? then Ok(StrLit(v.base.s)) else Err(BadVariantAccess)
    else if t.kind.Identifier? then
      if v.Base? && v.base.Str? then Ok(Variable(v.base.s)) else Err(BadVariantAccess)
    else if v.Base? && v.base.Bool? then Ok(BoolLit(v.base.b)) else Err(BadVariantAccess)
  }

  /** The number of method calls on a null node in a tree. */
  function NullCalls(n: Node): nat
    decreases n
  {
    match n
    case TypeCast(_, e) => NullCalls(e)
    case Unary(_, e) => NullCalls(e)
    case Binary(_, l, r) => NullCalls(l) + NullCalls(r)
    case Assignment(_, _, e) => NullCalls(e)
    case ListLit(es) => NullCallsIn(es)
    case DictLit(es) => NullCallsInEntries(es)
    case IndexAccess(c, i) => NullCalls(c) + NullCalls(i)
    case IndexAssignment(a, e) => NullCalls(a) + NullCalls(e)
    case MethodCall(rcv, _, args) => (if rcv.None? then 1 else NullCalls(rcv.value)) + NullCallsIn(args)
    case Block(ss) => NullCallsIn(ss)
    case IfElse(c, tb, _, eb) => NullCalls(c) + NullCallsIn(tb) + NullCallsIn(eb)
    case ForRange(_, a, b, step, body) =>
      NullCalls(a) + NullCalls(b) + (if step.Some? then NullCalls(step.value) else 0) + NullCallsIn(body)
    case ForEach(_, a, body) => NullCalls(a) + NullCallsIn(body)
    case While(c, body) => NullCalls(c) + NullCallsIn(body)
    case Return(e) => if e.Some? then NullCalls(e.value) else 0
    case FuncDecl(_, _, _, body) => NullCallsIn(body)
    case Call(_, args) => NullCallsIn(args)
    case _ => 0
  }

  function NullCallsIn(ns: seq<Node>): nat
    decreases ns
  {
    if |ns| == 0 then 0 else NullCalls(ns[0]) + NullCallsIn(ns[1..])
  }

  function NullCallsInEntries(es: seq<Entry>): nat
    decreases es
  {
    if |es| == 0 then 0 else NullCallsInEntry(es[0]) + NullCallsInEntries(es[1..])
  }

  function NullCallsInEntry(e: Entry): nat
    decreases e
  {
    NullCalls(e.key) + NullCalls(e.value)
  }

  lemma {:induction false} NullCallsSnoc(ns: seq<Node>, n: Node)
    ensures NullCallsIn(ns + [n]) == NullCallsIn(ns) + NullCalls(n)
    decreases |ns|
  {
    if |ns| > 0 {
      assert (ns + [n])[1..] == ns[1..] + [n];
      NullCallsSnoc(ns[1..], n);
    }
  }

  predicate NullFree(n: Node) {
    NullCalls(n) == 0
  }

  predicate AllNullFree(ns: seq<Node>) {
    NullCallsIn(ns) == 0
  }

  /** The binary operators of each rung of the ladder, loosest first:
      parseExpression_1 (and, or), parseExpression_2 (comparisons),
      parseExpression_3 (+, -) and parseTerm (*, /, **, //, %). */
  function OpLevel(k: TokenKind): nat {
    if k.And? || k.Or? then 1
    else if k.Equal? || k.NotEq? || k.Gt? || k.GtEq? || k.Lt? || k.LtEq? then 2
    else if k.Plus? || k.Minus? then 3
    else if k.Aster? || k.Slash? || k.DblAster? || k.DblSlash? || k.Mod? then 4
    else 0
  }

  predicate IsLevelOp(level: nat, k: TokenKind) {
    level > 0 && OpLevel(k) == level
  }

  // ---- the parsing functions ---------------------------------------------
  // Each consumes at least one token when it succeeds (blocks may be empty),
  // which is what makes the mutual recursion terminate.

  /** parse: statements separated by ';' or new lines, up to END. */
  function ParseProgram(st: Stream, strict: bool, pos: nat, acc: seq<Node>): (r: Result<seq<Node>>)
    requires ValidStream(st) && pos < |st.toks|
    requires strict ==> AllNullFree(acc)
    ensures strict && r.Ok? ==> AllNullFree(r.value)
    decreases |st.toks| - pos, 11
  {
    var k := st.toks[pos].kind;
    if k.End? then Ok(acc)
    else if k.Eol? || k.Semicolon? then
      var p :- Advance(st, pos);
      ParseProgram(st, strict, p, acc)
    else
      var (s, p) :- ParseStatement(st, strict, pos);
      NullCallsSnoc(acc, s);
      if !st.toks[p].kind.Semicolon? && !st.toks[p].kind.Eol? then Err(SyntaxError(SeparatorAfterStatement))
      else ParseProgram(st, strict, p, acc + [s])
  }

  /** The parser's constructor reads the first token; then `parse`. */
  function Parse(st: Stream, strict: bool): (r: Result<seq<Node>>)
    requires ValidStream(st)
    ensures strict && r.Ok? ==> AllNullFree(r.value)
  {
    if |st.toks| == 0 then Err(st.fault.value) else ParseProgram(st, strict, 0, [])
  }

  /** Lexing and parsing a whole input. */
  function ParseInput(input: string): (r: Result<seq<Node>>)
    ensures r.Ok? ==> AllNullFree(r.value)
  {
    TokenizeValid(input);
    Parse(Tokenize(input), true)
  }

  /** parseStatement: an if statement, an assignment `name = expr` (seen by
      peeking one token ahead), or an expression. */
  function ParseStatement(st: Stream, strict: bool, pos: nat): (r: Result<(Node, nat)>)
    requires ValidStream(st) && pos < |st.toks|
    ensures r.Ok? ==> pos < r.value.1 < |st.toks|
    ensures strict && r.Ok? ==> NullFree(r.value.0)
    decreases |st.toks| - pos, 9
  {
    var t := st.toks[pos];
    if t.kind.If? then ParseIf(st, strict, pos)
    else if t.kind.Identifier? then
      var name :- IdentName(t);
      var next :- PeekNext(st, pos);
      if next.Assign? then
        var p :- Advance(st, pos);
        ParseAssignment(st, strict, name, p)
      else ParseBinary(st, strict, 1, pos)
    else ParseBinary(st, strict, 1, pos)
  }

  /** parseAssignment: the current token is the '='; the value follows it. */
  function ParseAssignment(st: Stream, strict: bool, name: string, pos: nat): (r: Result<(Node, nat)>)
    requires ValidStream(st) && pos < |st.toks|
    ensures r.Ok? ==> pos < r.value.1 < |st.toks| && r.value.0.Assignment? && r.value.0.name == name
    ensures strict && r.Ok? ==> NullFree(r.value.0)
    decreases |st.toks| - pos, 8
  {
    var p :- Advance(st, pos);
    if p == pos then Err(ParserError(UnexpectedToken))   // only at END, which is never a '='
    else
      var (e, q) :- ParseBinary(st, strict, 1, p);
      Ok((Assignment(name, true, e), q))
  }

  /** parseIfStatement: `if cond then block [else block] stop`. */
  function ParseIf(st: Stream, strict: bool, pos: nat): (r: Result<(Node, nat)>)
    requires ValidStream(st) && pos < |st.toks|
    ensures r.Ok? ==> pos < r.value.1 < |st.toks|
    ensures strict && r.Ok? ==> NullFree(r.value.0)
    decreases |st.toks| - pos, 8
  {
    var p1 :- Advance(st, pos);
    if st.toks[p1].kind.Eol? then Err(SyntaxError(ConditionAfterIf))
    else
      var (cond, p2) :- ParseBinary(st, strict, 1, p1);
      if !st.toks[p2].kind.Then? then Err(SyntaxError(ThenAfterCondition))
      else
        var p3 :- Advance(st, p2);
        IfBlocks(st, strict, cond, p3)
  }

  /** The blocks of an if statement, after its `then`, and the closing `stop`. */
  function IfBlocks(st: Stream, strict: bool, cond: Node, pos: nat): (r: Result<(Node, nat)>)
    requires ValidStream(st) && pos < |st.toks|
    requires strict ==> NullFree(cond)
    ensures r.Ok? ==> pos < r.value.1 < |st.toks|
    ensures r.Ok? ==> r.value.0.IfElse? && r.value.0.cond == cond
    ensures strict && r.Ok? ==> NullFree(r.value.0)
    decreases |st.toks| - pos, 11
  {
    var (body, p) :- ParseBlock(st, strict, pos, []);
    if st.toks[p].kind.Else? then
      var p' :- Advance(st, p);
      var (other, q) :- ParseBlock(st, strict, p', []);
      CloseIf(st, IfElse(cond, body, true, other), q)
    else CloseIf(st, IfElse(cond, body, false, []), p)
  }

  /** The closing `stop` of an if statement. */
  function CloseIf(st: Stream, node: Node, pos: nat): (r: Result<(Node, nat)>)
    requires ValidStream(st) && pos < |st.toks|
    ensures r.Ok? ==> r == Ok((node, pos + 1)) && pos + 1 < |st.toks|
    ensures !st.toks[pos].kind.Stop? ==> r == Err(SyntaxError(StopAfterIf))
  {
    if !st.toks[pos].kind.Stop? then Err(SyntaxError(StopAfterIf))
    else
      var p :- Advance(st, pos);
      Ok((node, p))
  }

  /** parseBlock: statements up to a `stop`, `else` or END, skipping
      separators. (The source's nesting counter is always zero where it is
      tested.) */
  function ParseBlock(st: Stream, strict: bool, pos: nat, acc: seq<Node>): (r: Result<(seq<Node>, nat)>)
    requires ValidStream(st) && pos < |st.toks|
    requires strict ==> AllNullFree(acc)
    ensures r.Ok? ==> pos <= r.value.1 < |st.toks|
    ensures r.Ok? ==> var k := st.toks[r.value.1].kind; k.Stop? || k.End? || k.Else?
    ensures r.Ok? ==> acc <= r.value.0
    ensures strict && r.Ok? ==> AllNullFree(r.value.0)
    decreases |st.toks| - pos, 10
  {
    var k := st.toks[pos].kind;
    if k.Eol? || k.Semicolon? then
      var p :- Advance(st, pos);
      ParseBlock(st, strict, p, acc)
    else if k.If? then
      var (s, p) :- ParseIf(st, strict, pos);
      NullCallsSnoc(acc, s);
      ParseBlock(st, strict, p, acc + [s])
    else if k.Stop? || k.End? || k.Else? then Ok((acc, pos))
    else
      var (s, p) :- ParseStatement(st, strict, pos);
      NullCallsSnoc(acc, s);
      ParseBlock(st, strict, p, acc + [s])
  }

  /** One rung of the precedence ladder (parseExpression_1, _2, _3 and
      parseTerm for levels 1 to 4): an operand of the next rung, then any
      number of `op operand` pairs, combined from the left. */
  function ParseBinary(st: Stream, strict: bool, level: nat, pos: nat): (r: Result<(Node, nat)>)
    requires ValidStream(st) && pos < |st.toks| && 1 <= level <= 4
    ensures r.Ok? ==> pos < r.value.1 < |st.toks|
    ensures strict && r.Ok? ==> NullFree(r.value.0)
    decreases |st.toks| - pos, 8 - level, 1
  {
    var (left, p) :- ParseOperand(st, strict, level, pos);
    BinaryRest(st, strict, level, left, p)
  }

  /** The operand of rung `level`: the next rung, or a factor below parseTerm. */
  function ParseOperand(st: Stream, strict: bool, level: nat, pos: nat): (r: Result<(Node, nat)>)
    requires ValidStream(st) && pos < |st.toks| && 1 <= level <= 4
    ensures r.Ok? ==> pos < r.value.1 < |st.toks|
    ensures strict && r.Ok? ==> NullFree(r.value.0)
    decreases |st.toks| - pos, 8 - level, 0
  {
    if level == 4 then ParseFactor(st, strict, pos) else ParseBinary(st, strict, level + 1, pos)
  }

  function BinaryRest(st: Stream, strict: bool, level: nat, left: Node, pos: nat): (r: Result<(Node, nat)>)
    requires ValidStream(st) && pos < |st.toks| && 1 <= level <= 4
    requires strict ==> NullFree(left)
    ensures r.Ok? ==> pos <= r.value.1 < |st.toks|
    ensures strict && r.Ok? ==> NullFree(r.value.0)
    decreases |st.toks| - pos, 8 - level, 2
  {
    var k := st.toks[pos].kind;
    if IsLevelOp(level, k) then
      var p1 :- Advance(st, pos);
      var (right, p2) :- ParseOperand(st, strict, level, p1);
      BinaryRest(st, strict, level, Binary(k, left, right), p2)
    else Ok((left, pos))
  }

  /** parseFactor: a list literal, a prefix `!` or `_` applied to a factor,
      a primary or a parenthesised statement, then postfix index and method
      suffixes. Without any of these the factor is a ParserError. */
  function ParseFactor(st: Stream, strict: bool, pos: nat): (r: Result<(Node, nat)>)
    requires ValidStream(st) && pos < |st.toks|
    ensures r.Ok? ==> pos < r.value.1 < |st.toks|
    ensures strict && r.Ok? ==> NullFree(r.value.0)
    decreases |st.toks| - pos, 3
  {
    var t := st.toks[pos];
    if t.kind.LBracket? then ParseList(st, strict, pos)
    else if t.kind.Not? || t.kind.Underscore? then
      var p :- Advance(st, pos);
      var (e, q) :- ParseFactor(st, strict, p);
      Ok((Unary(t.kind, e), q))
    else
      var (node, q) :-
        if IsPrimary(t.kind) then
          var leaf :- Leaf(t);
          var p :- Advance(st, pos);
          Postfix(st, strict, Some(leaf), p)
        else if t.kind.LParen? then ParenFactor(st, strict, pos)
        else Postfix(st, strict, None, pos);
      if node.None? then Err(ParserError(UnexpectedToken)) else Ok((node.value, q))
  }

  /** A parenthesised statement and its postfix suffixes; the current token
      is the '('. */
  function ParenFactor(st: Stream, strict: bool, pos: nat): (r: Result<(Option<Node>, nat)>)
    requires ValidStream(st) && pos < |st.toks| && st.toks[pos].kind.LParen?
    ensures r.Ok? ==> pos < r.value.1 < |st.toks| && r.value.0.Some?
    ensures strict && r.Ok? ==> NullFree(r.value.0.value)
    decreases |st.toks| - pos, 2
  {
    var p :- Advance(st, pos);
    var (e, q) :- ParseStatement(st, strict, p);
    if !st.toks[q].kind.RParen? then Err(ParserError(ClosingParenMissing))
    else
      var q' :- Advance(st, q);
      Postfix(st, strict, Some(e), q')
  }

  /** The postfix loop of parseFactor: `[index]`, optionally followed by
      `= value` (an index assignment), and `.name(args)`, left to right. */
  function Postfix(st: Stream, strict: bool, node: Option<Node>, pos: nat): (r: Result<(Option<Node>, nat)>)
    requires ValidStream(st) && pos < |st.toks|
    requires node.None? ==> !st.toks[pos].kind.LBracket?
    requires strict && node.Some? ==> NullFree(node.value)
    ensures r.Ok? ==> pos <= r.value.1 < |st.toks|
    ensures r.Ok? && node.Some? ==> r.value.0.Some?
    ensures r.Ok? && r.value.0.Some? && node.None? ==> pos < r.value.1
    ensures r.Ok? && node.None? && r.value.0.None? ==> r.value.1 == pos
    ensures strict && r.Ok? && r.value.0.Some? ==> NullFree(r.value.0.value)
    decreases |st.toks| - pos, 2
  {
    var k := st.toks[pos].kind;
    if k.LBracket? then
      var (n, p) :- IndexSuffix(st, strict, node.value, pos);
      Postfix(st, strict, Some(n), p)
    else if k.Dot? then
      if strict && node.None? then Err(ParserError(UnexpectedToken))
      else
        var (n, p) :- MethodSuffix(st, strict, node, pos);
        Postfix(st, strict, Some(n), p)
    else Ok((node, pos))
  }

  /** parseIndexAccess, and the index assignment parseFactor builds when an
      '=' follows the closing bracket. The current token is the '['. */
  function IndexSuffix(st: Stream, strict: bool, container: Node, pos: nat): (r: Result<(Node, nat)>)
    requires ValidStream(st) && pos < |st.toks| && st.toks[pos].kind.LBracket?
    requires strict ==> NullFree(container)
    ensures r.Ok? ==> pos < r.value.1 < |st.toks|
    ensures r.Ok? ==> r.value.0.IndexAccess? || (r.value.0.IndexAssignment? && r.value.0.access.IndexAccess?)
    ensures strict && r.Ok? ==> NullFree(r.value.0)
    decreases |st.toks| - pos, 1
  {
    var p1 :- Advance(st, pos);
    var (index, p2) :- ParseBinary(st, strict, 1, p1);
    if !st.toks[p2].kind.RBracket? then Err(SyntaxError(BracketAfterIndex))
    else
      var p3 :- Advance(st, p2);
      AssignSuffix(st, strict, IndexAccess(container, index), p3)
  }

  /** After `container[index]`: an '=' turns the access into an index
      assignment of the expression that follows. */
  function AssignSuffix(st: Stream, strict: bool, access: Node, pos: nat): (r: Result<(Node, nat)>)
    requires ValidStream(st) && pos < |st.toks| && access.IndexAccess?
    requires strict ==> NullFree(access)
    ensures r.Ok? ==> pos <= r.value.1 < |st.toks|
    ensures r.Ok? ==> r.value.0 == access || (r.value.0.IndexAssignment? && r.value.0.access == access)
    ensures strict && r.Ok? ==> NullFree(r.value.0)
    decreases |st.toks| - pos, 1
  {
    if st.toks[pos].kind.Assign? then
      var p :- Advance(st, pos);
      var (e, q) :- ParseBinary(st, strict, 1, p);
      Ok((IndexAssignment(access, e), q))
    else Ok((access, pos))
  }

  /** parseListMethodCall: `.name(args)`; the current token is the '.'. */
  function MethodSuffix(st: Stream, strict: bool, receiver: Option<Node>, pos: nat): (r: Result<(Node, nat)>)
    requires ValidStream(st) && pos < |st.toks| && st.toks[pos].kind.Dot?
    requires strict ==> receiver.Some? && NullFree(receiver.value)
    ensures r.Ok? ==> pos < r.value.1 < |st.toks|
    ensures r.Ok? ==> r.value.0.MethodCall? && r.value.0.receiver == receiver
    ensures strict && r.Ok? ==> NullFree(r.value.0)
    decreases |st.toks| - pos, 1
  {
    var p1 :- Advance(st, pos);
    if !st.toks[p1].kind.Identifier? then Err(SyntaxError(MethodNameAfterDot))
    else
      var name :- IdentName(st.toks[p1]);
      var p2 :- Advance(st, p1);
      MethodArguments(st, strict, receiver, name, p2)
  }

  /** `(args)` after the method name; the current token should be the '('. */
  function MethodArguments(st: Stream, strict: bool, receiver: Option<Node>, name: string, pos: nat): (r: Result<(Node, nat)>)
    requires ValidStream(st) && pos < |st.toks|
    requires strict ==> receiver.Some? && NullFree(receiver.value)
    ensures r.Ok? ==> pos < r.value.1 < |st.toks|
    ensures r.Ok? ==> r.value.0.MethodCall? && r.value.0.receiver == receiver && r.value.0.mname == name
    ensures strict && r.Ok? ==> NullFree(r.value.0)
    decreases |st.toks| - pos, 10
  {
    if !st.toks[pos].kind.LParen? then Err(SyntaxError(ParenAfterMethodName))
    else
      var p :- Advance(st, pos);
      var (args, q) :- CallArguments(st, strict, p);
      var q' :- Advance(st, q);
      Ok((MethodCall(receiver, name, args), q'))
  }

  /** The arguments of a method call up to its ')', which is current on success. */
  function CallArguments(st: Stream, strict: bool, pos: nat): (r: Result<(seq<Node>, nat)>)
    requires ValidStream(st) && pos < |st.toks|
    ensures r.Ok? ==> pos <= r.value.1 < |st.toks| && st.toks[r.value.1].kind.RParen?
    ensures strict && r.Ok? ==> AllNullFree(r.value.0)
    decreases |st.toks| - pos, 9
  {
    var (args, p) :- if st.toks[pos].kind.RParen? then Ok(([], pos)) else ParseArgs(st, strict, pos, []);
    if !st.toks[p].kind.RParen? then Err(SyntaxError(ParenAfterArguments)) else Ok((args, p))
  }

  /** The `do ... while (expectToken(COMMA))` argument loop of
      parseListMethodCall. */
  function ParseArgs(st: Stream, strict: bool, pos: nat, acc: seq<Node>): (r: Result<(seq<Node>, nat)>)
    requires ValidStream(st) && pos < |st.toks|
    requires strict ==> AllNullFree(acc)
    ensures r.Ok? ==> pos < r.value.1 < |st.toks|
    ensures strict && r.Ok? ==> AllNullFree(r.value.0)
    decreases |st.toks| - pos, 8
  {
    var (e, p) :- ParseBinary(st, strict, 1, pos);
    NullCallsSnoc(acc, e);
    if st.toks[p].kind.Comma? then
      var p' :- Advance(st, p);
      ParseArgs(st, strict, p', acc + [e])
    else Ok((acc + [e], p))
  }

  /** parseList: `[` then comma-separated expressions up to `]`; a trailing
      comma is accepted. */
  function ParseList(st: Stream, strict: bool, pos: nat): (r: Result<(Node, nat)>)
    requires ValidStream(st) && pos < |st.toks|
    ensures r.Ok? ==> pos < r.value.1 < |st.toks|
    ensures strict && r.Ok? ==> NullFree(r.value.0)
    decreases |st.toks| - pos, 1
  {
    var p :- Advance(st, pos);
    if p == pos then Err(SyntaxError(CommaOrBracketInList))   // only at END, which is never a '['
    else ListElements(st, strict, p, [])
  }

  function ListElements(st: Stream, strict: bool, pos: nat, acc: seq<Node>): (r: Result<(Node, nat)>)
    requires ValidStream(st) && pos < |st.toks|
    requires strict ==> AllNullFree(acc)
    ensures r.Ok? ==> pos < r.value.1 < |st.toks|
    ensures strict && r.Ok? ==> NullFree(r.value.0)
    decreases |st.toks| - pos, 8
  {
    if st.toks[pos].kind.RBracket? then
      var p :- Advance(st, pos);
      Ok((ListLit(acc), p))
    else
      var (e, p) :- ParseBinary(st, strict, 1, pos);
      NullCallsSnoc(acc, e);
      if st.toks[p].kind.Comma? then
        var p' :- Advance(st, p);
        ListElements(st, strict, p', acc + [e])
      else if !st.toks[p].kind.RBracket? then Err(SyntaxError(CommaOrBracketInList))
      else ListElements(st, strict, p, acc + [e])
  }

  /** isStatementComplete: whether the input read so far closes every `if`
      it opens. It scans from the current token without consuming anything:
      an `if` opens a level and waits for its `then`, a `stop` closes a level,
      and at level zero any other token ends the scan. An `if` still waiting
      for its `then` counts as complete, so that the parser can report it. */
  function StatementComplete(st: Stream, pos: nat): (r: Result<bool>)
    requires ValidStream(st) && pos < |st.toks|
  {
    ScanComplete(st, pos, 0, false)
  }

  function ScanComplete(st: Stream, i: nat, level: nat, checkThen: bool): (r: Result<bool>)
    requires ValidStream(st) && i < |st.toks|
    ensures r.Err? ==> st.fault == Some(r.error)
    ensures level == 0 && !checkThen && !st.toks[i].kind.If? ==> r == Ok(true)
    decreases |st.toks| - i
  {
    var k := st.toks[i].kind;
    if k.End? then Ok(level == 0 || checkThen)
    else if k.If? then ScanNext(st, i, level + 1, true)
    else if checkThen && k.Then? then ScanNext(st, i, level, false)
    else if k.Stop? then
      if level == 0 then Ok(true) else ScanNext(st, i, level - 1, checkThen)
    else if level == 0 then Ok(true)
    else ScanNext(st, i, level, checkThen)
  }

  /** Reads the token after `i` (failing as getNextToken does) and scans on. */
  function ScanNext(st: Stream, i: nat, level: nat, checkThen: bool): (r: Result<bool>)
    requires ValidStream(st) && i < |st.toks| && !st.toks[i].kind.End?
    ensures r.Err? ==> st.fault == Some(r.error)
    decreases |st.toks| - i, 0
  {
    var j :- Advance(st, i);
    ScanComplete(st, j, level, checkThen)
  }
}

=== FILE: parser_facts.dfy ===
/** Properties of the parser (core/main/parser.cpp): how operators group,
    what list literals, if statements, assignments and postfix suffixes parse
    to, and which syntax error each malformed form raises. */
module ParserFacts {
  import opened Errors
  import opened Values
  import opened Lexer
  import opened Ast
  import opened Parser

  /** A primary token whose payload is of the alternative its kind needs. */
  predicate AtomAt(st: Stream, q: nat) {
    q < |st.toks| && IsPrimary(st.toks[q].kind) && Leaf(st.toks[q]).Ok?
  }

  function LeafAt(st: Stream, q: nat): Node
    requires AtomAt(st, q)
  {
    Leaf(st.toks[q]).value
  }

  /** A token of kind `k` ends an operand of rung `level`: it is no operator
      of that rung or a tighter one, and starts no postfix suffix. With
      `level` 5 only the postfix suffixes are excluded. */
  predicate Closes(level: nat, k: TokenKind) {
    !k.LBracket? && !k.Dot? && EndsRung(level, k)
  }

  /** A token of kind `k` is no operator of rung `level` or a tighter one. */
  predicate EndsRung(level: nat, k: TokenKind) {
    OpLevel(k) < level
  }

  /** The rungs have no operator in common. */
  lemma LevelOpsDisjoint(level: nat, k: TokenKind)
    requires 1 <= level <= 4 && IsLevelOp(level, k)
    ensures Closes(level + 1, k)
  {
  }

  // ---- operands -------------------------------------------------------------

  /** A primary token followed by no postfix suffix is a factor of one token. */
  lemma AtomFactor(st: Stream, strict: bool, q: nat)
    requires ValidStream(st) && AtomAt(st, q) && q + 1 < |st.toks| && Closes(5, st.toks[q + 1].kind)
    ensures ParseFactor(st, strict, q) == Ok((LeafAt(st, q), q + 1))
  {
    assert Advance(st, q) == Ok(q + 1);
    assert Postfix(st, strict, Some(LeafAt(st, q)), q + 1) == Ok((Some(LeafAt(st, q)), q + 1));
  }

  /** A rung's loop stops at a token that is not one of its operators. */
  lemma RestStop(st: Stream, strict: bool, level: nat, left: Node, q: nat)
    requires ValidStream(st) && q < |st.toks| && 1 <= level <= 4 && (strict ==> NullFree(left))
    requires !IsLevelOp(level, st.toks[q].kind)
    ensures BinaryRest(st, strict, level, left, q) == Ok((left, q))
  {
  }

  /** An operand of rung `level + 1` that no operator of that rung follows
      is the whole operand of rung `level`. */
  lemma OperandClimb(st: Stream, strict: bool, level: nat, q: nat, f: Node, p: nat)
    requires ValidStream(st) && q < |st.toks| && 1 <= level <= 3
    requires ParseOperand(st, strict, level + 1, q) == Ok((f, p)) && !IsLevelOp(level + 1, st.toks[p].kind)
    ensures ParseOperand(st, strict, level, q) == Ok((f, p))
  {
    assert ParseOperand(st, strict, level, q) == ParseBinary(st, strict, level + 1, q);
    assert ParseBinary(st, strict, level + 1, q) == BinaryRest(st, strict, level + 1, f, p);
    RestStop(st, strict, level + 1, f, p);
  }

  /** A factor followed by a token that ends the operand is the whole operand
      of rung `level`: no rung from `level` down adds anything to it. */
  lemma FactorIsOperand(st: Stream, strict: bool, level: nat, q: nat)
    requires ValidStream(st) && q < |st.toks| && 1 <= level <= 4
    requires ParseFactor(st, strict, q).Ok?
    requires EndsRung(level + 1, st.toks[ParseFactor(st, strict, q).value.1].kind)
    ensures ParseOperand(st, strict, level, q) == ParseFactor(st, strict, q)
  {
    var (f, p) := ParseFactor(st, strict, q).value;
    assert ParseOperand(st, strict, 4, q) == Ok((f, p));
    if level <= 3 {
      OperandClimb(st, strict, 3, q, f, p);
    }
    if level <= 2 {
      OperandClimb(st, strict, 2, q, f, p);
    }
    if level <= 1 {
      OperandClimb(st, strict, 1, q, f, p);
    }
  }

  /** ... and the whole expression of rung `level` when the token after it
      is no operator of that rung either. */
  lemma FactorIsExpression(st: Stream, strict: bool, level: nat, q: nat)
    requires ValidStream(st) && q < |st.toks| && 1 <= level <= 4
    requires ParseFactor(st, strict, q).Ok?
    requires EndsRung(level, st.toks[ParseFactor(st, strict, q).value.1].kind)
    ensures ParseBinary(st, strict, level, q) == ParseFactor(st, strict, q)
  {
    FactorIsOperand(st, strict, level, q);
    var (n, p) := ParseFactor(st, strict, q).value;
    assert BinaryRest(st, strict, level, n, p) == Ok((n, p));
  }

  lemma AtomExpression(st: Stream, strict: bool, level: nat, q: nat)
    requires ValidStream(st) && AtomAt(st, q) && q + 1 < |st.toks| && 1 <= level <= 4
    requires Closes(level, st.toks[q + 1].kind)
    ensures ParseBinary(st, strict, level, q) == Ok((LeafAt(st, q), q + 1))
  {
    AtomFactor(st, strict, q);
    FactorIsExpression(st, strict, level, q);
  }

  // ---- chains of operators of one rung ---------------------------------------

  /** Operand i of a chain starting at `pos`, and the token after it. */
  function Slot(pos: nat, i: nat): nat { pos + 2 * i }
  function After(pos: nat, i: nat): nat { pos + 2 * i + 1 }

  /** `a0 op1 a1 ... opn an t`: primaries separated by operators of rung
      `level`, ended by a token that closes the rung. */
  predicate ChainAt(st: Stream, pos: nat, level: nat, n: nat) {
    && After(pos, n) < |st.toks|
    && (forall i :: 0 <= i <= n ==> AtomAt(st, Slot(pos, i)))
    && (forall i :: 0 <= i < n ==> IsLevelOp(level, st.toks[After(pos, i)].kind))
    && Closes(level, st.toks[After(pos, n)].kind)
  }

  /** The left fold of the first k + 1 operands of a chain:
      (((a0 op1 a1) op2 a2) ... opk ak). */
  function Fold(st: Stream, pos: nat, k: nat): (r: Node)
    requires After(pos, k) < |st.toks| && forall i :: 0 <= i <= k ==> AtomAt(st, Slot(pos, i))
    ensures NullFree(r)
  {
    if k == 0 then LeafAt(st, Slot(pos, 0))
    else Binary(st.toks[After(pos, k - 1)].kind, Fold(st, pos, k - 1), LeafAt(st, Slot(pos, k)))
  }

  lemma FoldStep(st: Stream, pos: nat, k: nat)
    requires After(pos, k + 1) < |st.toks| && forall i :: 0 <= i <= k + 1 ==> AtomAt(st, Slot(pos, i))
    ensures Fold(st, pos, k + 1) == Binary(st.toks[After(pos, k)].kind, Fold(st, pos, k), LeafAt(st, Slot(pos, k + 1)))
  {
  }

  /** One `op operand` step of a rung's loop. */
  lemma RestStep(st: Stream, strict: bool, level: nat, left: Node, q: nat, right: Node, p: nat)
    requires ValidStream(st) && q + 1 < |st.toks| && 1 <= level <= 4 && (strict ==> NullFree(left))
    requires IsLevelOp(level, st.toks[q].kind) && ParseOperand(st, strict, level, q + 1) == Ok((right, p))
    ensures BinaryRest(st, strict, level, left, q) == BinaryRest(st, strict, level, Binary(st.toks[q].kind, left, right), p)
  {
    assert Advance(st, q) == Ok(q + 1);
  }

  /** One operator of a chain: the loop moves from the fold of k + 1
      operands to the fold of k + 2. */
  lemma ChainStep(st: Stream, strict: bool, level: nat, pos: nat, n: nat, k: nat)
    requires ValidStream(st) && 1 <= level <= 4 && ChainAt(st, pos, level, n) && k < n
    ensures BinaryRest(st, strict, level, Fold(st, pos, k), After(pos, k)) ==
      BinaryRest(st, strict, level, Fold(st, pos, k + 1), After(pos, k + 1))
  {
    var q := After(pos, k);
    var a := Slot(pos, k + 1);
    assert a == q + 1 && After(pos, k + 1) == a + 1;
    assert AtomAt(st, a);
    if k + 1 < n {
      LevelOpsDisjoint(level, st.toks[After(pos, k + 1)].kind);
    }
    AtomFactor(st, strict, a);
    FactorIsOperand(st, strict, level, a);
    RestStep(st, strict, level, Fold(st, pos, k), q, LeafAt(st, a), a + 1);
    FoldStep(st, pos, k);
  }

  /** The loop of a rung folds the rest of a chain from the left. */
  lemma {:induction false} RestFolds(st: Stream, strict: bool, level: nat, pos: nat, n: nat, k: nat)
    requires ValidStream(st) && 1 <= level <= 4 && ChainAt(st, pos, level, n) && k <= n
    ensures BinaryRest(st, strict, level, Fold(st, pos, k), After(pos, k)) == Ok((Fold(st, pos, n), After(pos, n)))
    decreases n - k
  {
    if k < n {
      RestFolds(st, strict, level, pos, n, k + 1);
      FoldsBack(st, strict, level, pos, n, k);
    } else {
      ChainEnds(st, strict, level, pos, n);
    }
  }

  /** If the loop folds the chain from operand k + 1, it folds it from k. */
  lemma FoldsBack(st: Stream, strict: bool, level: nat, pos: nat, n: nat, k: nat)
    requires ValidStream(st) && 1 <= level <= 4 && ChainAt(st, pos, level, n) && k < n
    requires BinaryRest(st, strict, level, Fold(st, pos, k + 1), After(pos, k + 1)) == Ok((Fold(st, pos, n), After(pos, n)))
    ensures BinaryRest(st, strict, level, Fold(st, pos, k), After(pos, k)) == Ok((Fold(st, pos, n), After(pos, n)))
  {
    ChainStep(st, strict, level, pos, n, k);
  }

  /** The loop of a rung stops at the token that closes a chain. */
  lemma ChainEnds(st: Stream, strict: bool, level: nat, pos: nat, n: nat)
    requires ValidStream(st) && 1 <= level <= 4 && ChainAt(st, pos, level, n)
    ensures BinaryRest(st, strict, level, Fold(st, pos, n), After(pos, n)) == Ok((Fold(st, pos, n), After(pos, n)))
  {
    RestStop(st, strict, level, Fold(st, pos, n), After(pos, n));
  }

  /** Every rung groups its operators from the left: `a - b - c` is
      `(a - b) - c`, for any number of operators. */
  lemma LeftAssociative(st: Stream, strict: bool, level: nat, pos: nat, n: nat)
    requires ValidStream(st) && 1 <= level <= 4 && ChainAt(st, pos, level, n)
    ensures ParseBinary(st, strict, level, pos) == Ok((Fold(st, pos, n), After(pos, n)))
  {
    assert AtomAt(st, Slot(pos, 0));
    if 0 < n {
      LevelOpsDisjoint(level, st.toks[After(pos, 0)].kind);
    }
    AtomFactor(st, strict, pos);
    FactorIsOperand(st, strict, level, pos);
    RestFolds(st, strict, level, pos, n, 0);
  }

  /** A rung is its first operand followed by its loop. */
  lemma BinaryUnfold(st: Stream, strict: bool, level: nat, q: nat, left: Node, p: nat)
    requires ValidStream(st) && q < |st.toks| && 1 <= level <= 4
    requires ParseOperand(st, strict, level, q) == Ok((left, p))
    ensures ParseBinary(st, strict, level, q) == BinaryRest(st, strict, level, left, p)
  {
  }

  /** A chain of the next rung is one whole operand of rung `level`. */
  lemma ChainOperand(st: Stream, strict: bool, level: nat, pos: nat, n: nat)
    requires ValidStream(st) && 1 <= level <= 3 && ChainAt(st, pos, level + 1, n)
    ensures ParseOperand(st, strict, level, pos) == Ok((Fold(st, pos, n), After(pos, n)))
  {
    LeftAssociative(st, strict, level + 1, pos, n);
  }

  /** A tighter rung groups first: `x op y`, with `op` of rung `level` and `x`
      and `y` chains of the next rung, parses to `op` applied to the two
      chains, whatever their length. */
  lemma TighterGroupsFirst(st: Stream, strict: bool, level: nat, pos: nat, n: nat, m: nat)
    requires ValidStream(st) && 1 <= level <= 3
    requires ChainAt(st, pos, level + 1, n) && IsLevelOp(level, st.toks[After(pos, n)].kind)
    requires ChainAt(st, After(pos, n) + 1, level + 1, m)
    requires Closes(level, st.toks[After(After(pos, n) + 1, m)].kind)
    ensures ParseBinary(st, strict, level, pos) ==
      Ok((Binary(st.toks[After(pos, n)].kind, Fold(st, pos, n), Fold(st, After(pos, n) + 1, m)),
          After(After(pos, n) + 1, m)))
  {
    var q := After(pos, n);
    var e := After(q + 1, m);
    var x, y := Fold(st, pos, n), Fold(st, q + 1, m);
    var node := Binary(st.toks[q].kind, x, y);
    ChainOperand(st, strict, level, pos, n);
    BinaryUnfold(st, strict, level, pos, x, q);
    ChainOperand(st, strict, level, q + 1, m);
    RestStep(st, strict, level, x, q, y, e);
    RestStop(st, strict, level, node, e);
  }

  // ---- prefix operators and parentheses ---------------------------------------

  /** `!` and `_` apply to one factor only, so `!a and b` is `(!a) and b`. */
  lemma PrefixTakesFactor(st: Stream, strict: bool, pos: nat)
    requires ValidStream(st) && pos + 2 < |st.toks|
    requires st.toks[pos].kind.Not? || st.toks[pos].kind.Underscore?
    requires AtomAt(st, pos + 1) && Closes(5, st.toks[pos + 2].kind)
    ensures ParseFactor(st, strict, pos) == Ok((Unary(st.toks[pos].kind, LeafAt(st, pos + 1)), pos + 2))
  {
    assert Advance(st, pos) == Ok(pos + 1);
    AtomFactor(st, strict, pos + 1);
  }

  /** A statement made of one primary followed by a token that no rung
      continues with. */
  lemma AtomStatement(st: Stream, strict: bool, q: nat)
    requires ValidStream(st) && AtomAt(st, q) && q + 1 < |st.toks|
    requires !st.toks[q + 1].kind.Assign? && Closes(1, st.toks[q + 1].kind)
    ensures ParseStatement(st, strict, q) == Ok((LeafAt(st, q), q + 1))
  {
    AtomExpression(st, strict, 1, q);
    if st.toks[q].kind.Identifier? {
      assert PeekNext(st, q) == Ok(st.toks[q + 1].kind);
    }
  }

  lemma Parenthesised(st: Stream, strict: bool, pos: nat)
    requires ValidStream(st) && pos + 3 < |st.toks| && st.toks[pos].kind.LParen?
    requires AtomAt(st, pos + 1) && st.toks[pos + 2].kind.RParen? && Closes(5, st.toks[pos + 3].kind)
    ensures ParseFactor(st, strict, pos) == Ok((LeafAt(st, pos + 1), pos + 3))
  {
    var leaf := LeafAt(st, pos + 1);
    assert Advance(st, pos) == Ok(pos + 1);
    AtomStatement(st, strict, pos + 1);
    assert Advance(st, pos + 2) == Ok(pos + 3);
    assert Postfix(st, strict, Some(leaf), pos + 3) == Ok((Some(leaf), pos + 3));
    assert ParenFactor(st, strict, pos) == Ok((Some(leaf), pos + 3));
    assert ParseFactor(st, strict, pos) == Ok((leaf, pos + 3));
  }

  lemma ParenMissing(st: Stream, strict: bool, pos: nat)
    requires ValidStream(st) && pos + 2 < |st.toks| && st.toks[pos].kind.LParen?
    requires AtomAt(st, pos + 1)
    requires !st.toks[pos + 2].kind.RParen? && !st.toks[pos + 2].kind.Assign? && Closes(1, st.toks[pos + 2].kind)
    ensures ParseFactor(st, strict, pos) == Err(ParserError(ClosingParenMissing))
  {
    assert Advance(st, pos) == Ok(pos + 1);
    AtomStatement(st, strict, pos + 1);
    assert ParenFactor(st, strict, pos) == Err(ParserError(ClosingParenMissing));
  }

  /** A token that can start no factor is a ParserError. In the strict parser
      this includes a '.' with nothing before it. */
  lemma NoOperand(st: Stream, strict: bool, pos: nat)
    requires ValidStream(st) && pos < |st.toks|
    requires var k := st.toks[pos].kind;
      && !IsPrimary(k) && !k.LBracket? && !k.Not? && !k.Underscore? && !k.LParen?
      && (k.Dot? ==> strict)
    ensures ParseFactor(st, strict, pos) == Err(ParserError(UnexpectedToken))
  {
  }

  // ---- list literals ------------------------------------------------------------

  /** The leaves of operands 0 .. n-1 of a chain starting at `b`. */
  function Leaves(st: Stream, b: nat, n: nat): (r: seq<Node>)
    requires forall i :: 0 <= i < n ==> AtomAt(st, Slot(b, i))
    ensures |r| == n && forall i :: 0 <= i < n ==> r[i] == LeafAt(st, Slot(b, i))
    ensures AllNullFree(r)
  {
    if n == 0 then [] else
      NullCallsSnoc(Leaves(st, b, n - 1), LeafAt(st, Slot(b, n - 1)));
      Leaves(st, b, n - 1) + [LeafAt(st, Slot(b, n - 1))]
  }

  /** `a0, a1, ..., ` up to the closing ']': every element followed by a comma. */
  predicate CommaItems(st: Stream, b: nat, n: nat) {
    && Slot(b, n) < |st.toks|
    && (forall i :: 0 <= i < n ==> AtomAt(st, Slot(b, i)))
    && (forall i :: 0 <= i < n ==> st.toks[After(b, i)].kind.Comma?)
  }

  /** The loop of parseList at its ']'. */
  lemma ListClose(st: Stream, strict: bool, q: nat, acc: seq<Node>)
    requires ValidStream(st) && q + 1 < |st.toks| && st.toks[q].kind.RBracket? && (strict ==> AllNullFree(acc))
    ensures ListElements(st, strict, q, acc) == Ok((ListLit(acc), q + 1))
  {
    assert Advance(st, q) == Ok(q + 1);
  }

  /** The loop of parseList at an element followed by a comma. */
  lemma ListItemComma(st: Stream, strict: bool, q: nat, acc: seq<Node>, e: Node, p: nat)
    requires ValidStream(st) && q < |st.toks| && !st.toks[q].kind.RBracket? && (strict ==> AllNullFree(acc))
    requires ParseBinary(st, strict, 1, q) == Ok((e, p)) && p + 1 < |st.toks| && st.toks[p].kind.Comma?
    ensures strict ==> AllNullFree(acc + [e])
    ensures ListElements(st, strict, q, acc) == ListElements(st, strict, p + 1, acc + [e])
  {
    NullCallsSnoc(acc, e);
    assert Advance(st, p) == Ok(p + 1);
  }

  /** The loop of parseList at an element followed by the ']'. */
  lemma ListItemClose(st: Stream, strict: bool, q: nat, acc: seq<Node>, e: Node, p: nat)
    requires ValidStream(st) && q < |st.toks| && !st.toks[q].kind.RBracket? && (strict ==> AllNullFree(acc))
    requires ParseBinary(st, strict, 1, q) == Ok((e, p)) && p + 1 < |st.toks| && st.toks[p].kind.RBracket?
    ensures ListElements(st, strict, q, acc) == Ok((ListLit(acc + [e]), p + 1))
  {
    NullCallsSnoc(acc, e);
    ListClose(st, strict, p, acc + [e]);
    assert ListElements(st, strict, q, acc) == ListElements(st, strict, p, acc + [e]);
  }

  /** The loop of parseList at an element followed by anything else. */
  lemma ListItemBad(st: Stream, strict: bool, q: nat, acc: seq<Node>, e: Node, p: nat)
    requires ValidStream(st) && q < |st.toks| && !st.toks[q].kind.RBracket? && (strict ==> AllNullFree(acc))
    requires ParseBinary(st, strict, 1, q) == Ok((e, p))
    requires !st.toks[p].kind.Comma? && !st.toks[p].kind.RBracket?
    ensures ListElements(st, strict, q, acc) == Err(SyntaxError(CommaOrBracketInList))
  {
    NullCallsSnoc(acc, e);
  }

  /** One `element ,` of a list literal. */
  lemma CommaStep(st: Stream, strict: bool, b: nat, n: nat, k: nat)
    requires ValidStream(st) && CommaItems(st, b, n) && k < n
    ensures ListElements(st, strict, Slot(b, k), Leaves(st, b, k)) ==
      ListElements(st, strict, Slot(b, k + 1), Leaves(st, b, k + 1))
  {
    assert AtomAt(st, Slot(b, k)) && st.toks[After(b, k)].kind.Comma?;
    assert Slot(b, k + 1) <= Slot(b, n);
    CommaAt(st, strict, Slot(b, k), Leaves(st, b, k));
    assert Leaves(st, b, k) + [LeafAt(st, Slot(b, k))] == Leaves(st, b, k + 1);
  }

  /** An atom followed by a comma, read by the list loop. */
  lemma CommaAt(st: Stream, strict: bool, q: nat, acc: seq<Node>)
    requires ValidStream(st) && AtomAt(st, q) && q + 2 < |st.toks| && st.toks[q + 1].kind.Comma?
    requires strict ==> AllNullFree(acc)
    ensures strict ==> AllNullFree(acc + [LeafAt(st, q)])
    ensures ListElements(st, strict, q, acc) == ListElements(st, strict, q + 2, acc + [LeafAt(st, q)])
  {
    AtomExpression(st, strict, 1, q);
    ListItemComma(st, strict, q, acc, LeafAt(st, q), q + 1);
  }

  /** The list loop reads `a0, ..., an-1,` one element at a time. */
  lemma {:induction false} CommaItemsParse(st: Stream, strict: bool, b: nat, n: nat, k: nat)
    requires ValidStream(st) && CommaItems(st, b, n) && k <= n
    ensures ListElements(st, strict, Slot(b, k), Leaves(st, b, k)) ==
      ListElements(st, strict, Slot(b, n), Leaves(st, b, n))
    decreases n - k
  {
    if k < n {
      CommaStep(st, strict, b, n, k);
      CommaItemsParse(st, strict, b, n, k + 1);
    }
  }

  /** The list loop, from its first element, reads all of `a0, ..., an-1,`. */
  lemma CommaItemsFromStart(st: Stream, strict: bool, b: nat, n: nat)
    requires ValidStream(st) && CommaItems(st, b, n)
    ensures ListElements(st, strict, b, []) == ListElements(st, strict, Slot(b, n), Leaves(st, b, n))
  {
    CommaItemsParse(st, strict, b, n, 0);
    assert Slot(b, 0) == b && Leaves(st, b, 0) == [];
  }

  /** The opening '[' of a list literal. */
  lemma ListOpen(st: Stream, strict: bool, pos: nat)
    requires ValidStream(st) && pos + 1 < |st.toks| && st.toks[pos].kind.LBracket?
    ensures ParseFactor(st, strict, pos) == ListElements(st, strict, pos + 1, [])
  {
    assert Advance(st, pos) == Ok(pos + 1);
    assert ParseList(st, strict, pos) == ListElements(st, strict, pos + 1, []);
  }

  /** `[a0, a1, ..., an-1,]`: a trailing comma is accepted. */
  lemma ListTrailingComma(st: Stream, strict: bool, pos: nat, n: nat)
    requires ValidStream(st) && CommaItems(st, pos + 1, n) && st.toks[pos].kind.LBracket?
    requires st.toks[Slot(pos + 1, n)].kind.RBracket? && Slot(pos + 1, n) + 1 < |st.toks|
    ensures ParseFactor(st, strict, pos) == Ok((ListLit(Leaves(st, pos + 1, n)), Slot(pos + 1, n) + 1))
  {
    ListOpen(st, strict, pos);
    ListClose(st, strict, Slot(pos + 1, n), Leaves(st, pos + 1, n));
    CommaItemsFromStart(st, strict, pos + 1, n);
  }


  /** `[a0, a1, ..., an]`: the last element may go without a comma. */
  lemma ListWithoutTrailingComma(st: Stream, strict: bool, pos: nat, n: nat)
    requires ValidStream(st) && CommaItems(st, pos + 1, n) && st.toks[pos].kind.LBracket?
    requires AtomAt(st, Slot(pos + 1, n)) && After(pos + 1, n) + 1 < |st.toks|
    requires st.toks[After(pos + 1, n)].kind.RBracket?
    ensures ParseFactor(st, strict, pos) ==
      Ok((ListLit(Leaves(st, pos + 1, n) + [LeafAt(st, Slot(pos + 1, n))]), After(pos + 1, n) + 1))
  {
    ListOpen(st, strict, pos);
    ItemsThenClose(st, strict, pos + 1, n);
  }

  /** The list loop, from its first element, reads `a0, ..., an-1, an ]`. */
  lemma ItemsThenClose(st: Stream, strict: bool, b: nat, n: nat)
    requires ValidStream(st) && CommaItems(st, b, n)
    requires AtomAt(st, Slot(b, n)) && Slot(b, n) + 2 < |st.toks| && st.toks[Slot(b, n) + 1].kind.RBracket?
    ensures ListElements(st, strict, b, []) == Ok((ListLit(Leaves(st, b, n) + [LeafAt(st, Slot(b, n))]), Slot(b, n) + 2))
  {
    CommaItemsFromStart(st, strict, b, n);
    CloseAt(st, strict, Slot(b, n), Leaves(st, b, n));
  }

  /** An atom followed by the ']', read by the list loop. */
  lemma CloseAt(st: Stream, strict: bool, q: nat, acc: seq<Node>)
    requires ValidStream(st) && AtomAt(st, q) && q + 2 < |st.toks| && st.toks[q + 1].kind.RBracket?
    requires strict ==> AllNullFree(acc)
    ensures ListElements(st, strict, q, acc) == Ok((ListLit(acc + [LeafAt(st, q)]), q + 2))
  {
    AtomExpression(st, strict, 1, q);
    ListItemClose(st, strict, q, acc, LeafAt(st, q), q + 1);
  }


  /** An element followed by anything but ',' or ']' is a syntax error. */
  lemma ListBadSeparator(st: Stream, strict: bool, pos: nat)
    requires ValidStream(st) && pos + 2 < |st.toks| && st.toks[pos].kind.LBracket? && AtomAt(st, pos + 1)
    requires var k := st.toks[pos + 2].kind; !k.Comma? && !k.RBracket? && Closes(1, k)
    ensures ParseFactor(st, strict, pos) == Err(SyntaxError(CommaOrBracketInList))
  {
    ListOpen(st, strict, pos);
    AtomExpression(st, strict, 1, pos + 1);
    ListItemBad(st, strict, pos + 1, [], LeafAt(st, pos + 1), pos + 2);
  }

  /** A list literal takes no postfix suffix: the factor ends at its ']', so
      `[][0]` leaves a '[' where a separator must follow the statement. */
  lemma ListTakesNoIndex(st: Stream, strict: bool, pos: nat, acc: seq<Node>)
    requires ValidStream(st) && pos + 2 < |st.toks| && (strict ==> AllNullFree(acc))
    requires st.toks[pos].kind.LBracket? && st.toks[pos + 1].kind.RBracket? && st.toks[pos + 2].kind.LBracket?
    ensures ParseFactor(st, strict, pos) == Ok((ListLit([]), pos + 2))
    ensures ParseProgram(st, strict, pos, acc) == Err(SyntaxError(SeparatorAfterStatement))
  {
    ListOpen(st, strict, pos);
    assert AllNullFree([]);
    ListClose(st, strict, pos + 1, []);
    FactorIsExpression(st, strict, 1, pos);
    assert ParseStatement(st, strict, pos) == Ok((ListLit([]), pos + 2));
  }

  // ---- statements ---------------------------------------------------------------

  /** The loop of parse at a statement followed by its separator. */
  lemma ProgramStatement(st: Stream, strict: bool, pos: nat, acc: seq<Node>, s: Node, p: nat)
    requires ValidStream(st) && pos < |st.toks| && (strict ==> AllNullFree(acc))
    requires var k := st.toks[pos].kind; !k.End? && !k.Eol? && !k.Semicolon?
    requires ParseStatement(st, strict, pos) == Ok((s, p))
    requires st.toks[p].kind.Eol? || st.toks[p].kind.Semicolon?
    ensures strict ==> AllNullFree(acc + [s])
    ensures ParseProgram(st, strict, pos, acc) == ParseProgram(st, strict, p, acc + [s])
  {
    NullCallsSnoc(acc, s);
  }

  /** The loop of parse skips a separator. */
  lemma ProgramSeparator(st: Stream, strict: bool, pos: nat, acc: seq<Node>)
    requires ValidStream(st) && pos + 1 < |st.toks| && (strict ==> AllNullFree(acc))
    requires st.toks[pos].kind.Eol? || st.toks[pos].kind.Semicolon?
    ensures ParseProgram(st, strict, pos, acc) == ParseProgram(st, strict, pos + 1, acc)
  {
    assert Advance(st, pos) == Ok(pos + 1);
  }

  /** `name = value` is an assignment that rebinds `name`. */
  lemma AssignmentStatement(st: Stream, strict: bool, pos: nat)
    requires ValidStream(st) && pos + 3 < |st.toks|
    requires st.toks[pos].kind.Identifier? && IdentName(st.toks[pos]).Ok?
    requires st.toks[pos + 1].kind.Assign? && AtomAt(st, pos + 2) && Closes(1, st.toks[pos + 3].kind)
    ensures ParseStatement(st, strict, pos) ==
      Ok((Assignment(IdentName(st.toks[pos]).value, true, LeafAt(st, pos + 2)), pos + 3))
  {
    assert Advance(st, pos) == Ok(pos + 1);
    assert Advance(st, pos + 1) == Ok(pos + 2);
    AtomExpression(st, strict, 1, pos + 2);
  }

  /** Every statement must be followed by ';' or a new line, even the last
      one before the end of the input. */
  lemma MissingSeparator(st: Stream, strict: bool, pos: nat, acc: seq<Node>)
    requires ValidStream(st) && pos + 1 < |st.toks| && (strict ==> AllNullFree(acc)) && AtomAt(st, pos)
    requires var k := st.toks[pos + 1].kind; !k.Semicolon? && !k.Eol? && !k.Assign? && Closes(1, k)
    ensures ParseProgram(st, strict, pos, acc) == Err(SyntaxError(SeparatorAfterStatement))
  {
    AtomStatement(st, strict, pos);
  }

  /** `if` directly followed by a new line. */
  lemma IfWithoutCondition(st: Stream, strict: bool, pos: nat)
    requires ValidStream(st) && pos + 1 < |st.toks|
    requires st.toks[pos].kind.If? && st.toks[pos + 1].kind.Eol?
    ensures ParseStatement(st, strict, pos) == Err(SyntaxError(ConditionAfterIf))
  {
    assert Advance(st, pos) == Ok(pos + 1);
  }

  /** A condition not followed by `then`. */
  lemma IfWithoutThen(st: Stream, strict: bool, pos: nat)
    requires ValidStream(st) && pos + 2 < |st.toks| && st.toks[pos].kind.If? && AtomAt(st, pos + 1)
    requires var k := st.toks[pos + 2].kind; !k.Then? && Closes(1, k)
    ensures ParseStatement(st, strict, pos) == Err(SyntaxError(ThenAfterCondition))
  {
    assert Advance(st, pos) == Ok(pos + 1);
    AtomExpression(st, strict, 1, pos + 1);
  }

  /** `if c then`: what follows the `then` is the if statement's blocks. */
  lemma IfHead(st: Stream, strict: bool, pos: nat)
    requires ValidStream(st) && pos + 3 < |st.toks| && st.toks[pos].kind.If? && AtomAt(st, pos + 1)
    requires st.toks[pos + 2].kind.Then?
    ensures ParseStatement(st, strict, pos) == IfBlocks(st, strict, LeafAt(st, pos + 1), pos + 3)
  {
    assert Advance(st, pos) == Ok(pos + 1);
    AtomExpression(st, strict, 1, pos + 1);
    assert Advance(st, pos + 2) == Ok(pos + 3);
    assert ParseIf(st, strict, pos) == IfBlocks(st, strict, LeafAt(st, pos + 1), pos + 3);
  }

  /** A block ends, empty, at `stop`, `else` or the end of the input. */
  lemma EmptyBlock(st: Stream, strict: bool, q: nat)
    requires ValidStream(st) && q < |st.toks|
    requires st.toks[q].kind.Stop? || st.toks[q].kind.Else? || st.toks[q].kind.End?
    ensures ParseBlock(st, strict, q, []) == Ok(([], q))
  {
  }

  /** The input ends inside an if statement. */
  lemma IfWithoutStop(st: Stream, strict: bool, pos: nat)
    requires ValidStream(st) && pos + 3 < |st.toks| && st.toks[pos].kind.If? && AtomAt(st, pos + 1)
    requires st.toks[pos + 2].kind.Then? && st.toks[pos + 3].kind.End?
    ensures ParseStatement(st, strict, pos) == Err(SyntaxError(StopAfterIf))
  {
    IfHead(st, strict, pos);
    EmptyBlock(st, strict, pos + 3);
    assert IfBlocks(st, strict, LeafAt(st, pos + 1), pos + 3) == Err(SyntaxError(StopAfterIf));
  }

  /** `if c then stop` and `if c then else stop`: the else block is present
      exactly when `else` is written. */
  lemma EmptyIf(st: Stream, strict: bool, pos: nat)
    requires ValidStream(st) && pos + 4 < |st.toks| && st.toks[pos].kind.If? && AtomAt(st, pos + 1)
    requires st.toks[pos + 2].kind.Then? && st.toks[pos + 3].kind.Stop?
    ensures ParseStatement(st, strict, pos) == Ok((IfElse(LeafAt(st, pos + 1), [], false, []), pos + 4))
  {
    var node := IfElse(LeafAt(st, pos + 1), [], false, []);
    IfHead(st, strict, pos);
    EmptyBlock(st, strict, pos + 3);
    assert Advance(st, pos + 3) == Ok(pos + 4);
    assert CloseIf(st, node, pos + 3) == Ok((node, pos + 4));
    assert IfBlocks(st, strict, LeafAt(st, pos + 1), pos + 3) == Ok((node, pos + 4));
  }

  lemma EmptyIfElse(st: Stream, strict: bool, pos: nat)
    requires ValidStream(st) && pos + 5 < |st.toks| && st.toks[pos].kind.If? && AtomAt(st, pos + 1)
    requires st.toks[pos + 2].kind.Then? && st.toks[pos + 3].kind.Else? && st.toks[pos + 4].kind.Stop?
    ensures ParseStatement(st, strict, pos) == Ok((IfElse(LeafAt(st, pos + 1), [], true, []), pos + 5))
  {
    var node := IfElse(LeafAt(st, pos + 1), [], true, []);
    IfHead(st, strict, pos);
    EmptyBlock(st, strict, pos + 3);
    assert Advance(st, pos + 3) == Ok(pos + 4);
    EmptyBlock(st, strict, pos + 4);
    assert Advance(st, pos + 4) == Ok(pos + 5);
    assert CloseIf(st, node, pos + 4) == Ok((node, pos + 5));
    assert IfBlocks(st, strict, LeafAt(st, pos + 1), pos + 3) == Ok((node, pos + 5));
  }

  // ---- postfix suffixes -------------------------------------------------------

  /** The postfix loop stops at a token that starts no suffix. */
  lemma PostfixStop(st: Stream, strict: bool, node: Node, q: nat)
    requires ValidStream(st) && q < |st.toks| && Closes(5, st.toks[q].kind) && (strict ==> NullFree(node))
    ensures Postfix(st, strict, Some(node), q) == Ok((Some(node), q))
  {
  }

  /** `a[i] = v` is an index assignment whose target is the access `a[i]`. */
  lemma IndexAssignmentForm(st: Stream, strict: bool, pos: nat)
    requires ValidStream(st) && pos + 6 < |st.toks| && AtomAt(st, pos)
    requires st.toks[pos + 1].kind.LBracket? && AtomAt(st, pos + 2) && st.toks[pos + 3].kind.RBracket?
    requires st.toks[pos + 4].kind.Assign? && AtomAt(st, pos + 5) && Closes(1, st.toks[pos + 6].kind)
    ensures ParseFactor(st, strict, pos) ==
      Ok((IndexAssignment(IndexAccess(LeafAt(st, pos), LeafAt(st, pos + 2)), LeafAt(st, pos + 5)), pos + 6))
  {
    var node := IndexAssignment(IndexAccess(LeafAt(st, pos), LeafAt(st, pos + 2)), LeafAt(st, pos + 5));
    assert Advance(st, pos) == Ok(pos + 1);
    AssignedIndex(st, strict, LeafAt(st, pos), pos + 1);
    PostfixStop(st, strict, node, pos + 6);
    assert Postfix(st, strict, Some(LeafAt(st, pos)), pos + 1) == Ok((Some(node), pos + 6));
    assert ParseFactor(st, strict, pos) == Ok((node, pos + 6));
  }

  /** The suffix `[i] = v` after a container `a`. */
  lemma AssignedIndex(st: Stream, strict: bool, a: Node, q: nat)
    requires ValidStream(st) && q + 5 < |st.toks| && (strict ==> NullFree(a))
    requires st.toks[q].kind.LBracket? && AtomAt(st, q + 1) && st.toks[q + 2].kind.RBracket?
    requires st.toks[q + 3].kind.Assign? && AtomAt(st, q + 4) && Closes(1, st.toks[q + 5].kind)
    ensures IndexSuffix(st, strict, a, q) ==
      Ok((IndexAssignment(IndexAccess(a, LeafAt(st, q + 1)), LeafAt(st, q + 4)), q + 5))
  {
    assert Advance(st, q) == Ok(q + 1);
    AtomExpression(st, strict, 1, q + 1);
    assert Advance(st, q + 2) == Ok(q + 3);
    assert Advance(st, q + 3) == Ok(q + 4);
    AtomExpression(st, strict, 1, q + 4);
    assert AssignSuffix(st, strict, IndexAccess(a, LeafAt(st, q + 1)), q + 3) ==
      Ok((IndexAssignment(IndexAccess(a, LeafAt(st, q + 1)), LeafAt(st, q + 4)), q + 5));
  }

  /** `a.m(x)` is a method call on `a` with the argument `x`. */
  lemma MethodCallForm(st: Stream, strict: bool, pos: nat)
    requires ValidStream(st) && pos + 6 < |st.toks| && AtomAt(st, pos) && st.toks[pos + 1].kind.Dot?
    requires st.toks[pos + 2].kind.Identifier? && IdentName(st.toks[pos + 2]).Ok?
    requires st.toks[pos + 3].kind.LParen? && AtomAt(st, pos + 4) && st.toks[pos + 5].kind.RParen?
    requires Closes(5, st.toks[pos + 6].kind)
    ensures ParseFactor(st, strict, pos) ==
      Ok((MethodCall(Some(LeafAt(st, pos)), IdentName(st.toks[pos + 2]).value, [LeafAt(st, pos + 4)]), pos + 6))
  {
    var a := LeafAt(st, pos);
    var name := IdentName(st.toks[pos + 2]).value;
    var x := LeafAt(st, pos + 4);
    var call := MethodCall(Some(a), name, [x]);
    assert Advance(st, pos) == Ok(pos + 1);
    assert Advance(st, pos + 1) == Ok(pos + 2);
    assert Advance(st, pos + 2) == Ok(pos + 3);
    assert Advance(st, pos + 3) == Ok(pos + 4);
    AtomExpression(st, strict, 1, pos + 4);
    assert [] + [x] == [x];
    assert ParseArgs(st, strict, pos + 4, []) == Ok(([x], pos + 5));
    assert CallArguments(st, strict, pos + 4) == Ok(([x], pos + 5));
    assert Advance(st, pos + 5) == Ok(pos + 6);
    assert MethodArguments(st, strict, Some(a), name, pos + 3) == Ok((call, pos + 6));
    assert MethodSuffix(st, strict, Some(a), pos + 1) == Ok((call, pos + 6));
    PostfixStop(st, strict, call, pos + 6);
    assert Postfix(st, strict, Some(a), pos + 1) == Ok((Some(call), pos + 6));
    assert ParseFactor(st, strict, pos) == Ok((call, pos + 6));
  }

  // ---- the null receiver ----------------------------------------------------------

  /** `.len()` on a line of its own. */
  const LeadingDot: Stream := Stream(
    [Tok(Dot), Token(Identifier, Base(Str("len"))), Tok(LParen), Tok(RParen), Tok(Eol), Tok(End)], None)

  /** `.m()` with nothing before the '.': the parser as written builds the
      call on a null receiver. */
  lemma BareMethodCall(st: Stream, pos: nat)
    requires ValidStream(st) && pos + 4 < |st.toks| && st.toks[pos].kind.Dot?
    requires st.toks[pos + 1].kind.Identifier? && IdentName(st.toks[pos + 1]).Ok?
    requires st.toks[pos + 2].kind.LParen? && st.toks[pos + 3].kind.RParen?
    requires !st.toks[pos + 4].kind.Assign? && Closes(1, st.toks[pos + 4].kind)
    ensures ParseStatement(st, false, pos) == Ok((MethodCall(None, IdentName(st.toks[pos + 1]).value, []), pos + 4))
  {
    var call := MethodCall(None, IdentName(st.toks[pos + 1]).value, []);
    assert Advance(st, pos) == Ok(pos + 1);
    assert Advance(st, pos + 1) == Ok(pos + 2);
    assert Advance(st, pos + 2) == Ok(pos + 3);
    assert Advance(st, pos + 3) == Ok(pos + 4);
    assert CallArguments(st, false, pos + 3) == Ok(([], pos + 3));
    assert MethodSuffix(st, false, None, pos) == Ok((call, pos + 4));
    PostfixStop(st, false, call, pos + 4);
    assert Postfix(st, false, None, pos) == Ok((Some(call), pos + 4));
    assert ParseFactor(st, false, pos) == Ok((call, pos + 4));
    FactorIsExpression(st, false, 1, pos);
  }

  /** As written, the parser accepts a method call with nothing before the
      '.' and builds it on a null node. */
  lemma NullReceiverAsWritten()
    ensures ValidStream(LeadingDot)
    ensures Parse(LeadingDot, false) == Ok([MethodCall(None, "len", [])])
  {
    var st := LeadingDot;
    var call := MethodCall(None, "len", []);
    assert st.toks[1].kind.Identifier? && st.toks[1].payload == Base(Str("len"));
    assert IdentName(st.toks[1]) == Ok("len");
    BareMethodCall(st, 0);
    ProgramStatement(st, false, 0, [], call, 4);
    assert [] + [call] == [call];
    ProgramSeparator(st, false, 4, [call]);
    assert ParseProgram(st, false, 5, [call]) == Ok([call]);
  }

  /** The corrected parser reports the missing receiver as an unexpected token. */
  lemma NullReceiverRejected()
    ensures ValidStream(LeadingDot)
    ensures Parse(LeadingDot, true) == Err(ParserError(UnexpectedToken))
  {
    var st := LeadingDot;
    assert ValidStream(st);
    assert ParseFactor(st, true, 0) == Err(ParserError(UnexpectedToken));
  }

  // ---- statement completeness ----------------------------------------------------

  /** Tokens i .. e-1 neither open nor close an if, nor end the input. */
  predicate Flat(st: Stream, i: nat, e: nat) {
    i <= e <= |st.toks| && forall j :: i <= j < e ==> !st.toks[j].kind.If? && !st.toks[j].kind.Stop? && !st.toks[j].kind.End?
  }

  predicate NoThen(st: Stream, i: nat, e: nat)
    requires e <= |st.toks|
  {
    forall j :: i <= j < e ==> !st.toks[j].kind.Then?
  }

  /** Scanning across flat tokens inside an open if changes nothing but the
      wait for `then`, which the first `then` ends. */
  lemma {:induction false} ScanFlat(st: Stream, i: nat, e: nat, level: nat, checkThen: bool)
    requires ValidStream(st) && e < |st.toks| && Flat(st, i, e) && level > 0
    ensures ScanComplete(st, i, level, checkThen) == ScanComplete(st, e, level, checkThen && NoThen(st, i, e))
    decreases e - i
  {
    if i < e {
      assert Advance(st, i) == Ok(i + 1);
      var ct := checkThen && !st.toks[i].kind.Then?;
      assert ScanComplete(st, i, level, checkThen) == ScanComplete(st, i + 1, level, ct);
      ScanFlat(st, i + 1, e, level, ct);
      assert (ct && NoThen(st, i + 1, e)) == (checkThen && NoThen(st, i, e));
    }
  }

  /** An if whose `then` has been read but whose `stop` has not is
      incomplete; one still waiting for its `then` counts as complete. */
  lemma OpenIf(st: Stream, pos: nat, e: nat)
    requires ValidStream(st) && e < |st.toks| && pos < e && st.toks[pos].kind.If?
    requires Flat(st, pos + 1, e) && st.toks[e].kind.End?
    ensures StatementComplete(st, pos) == Ok(NoThen(st, pos + 1, e))
  {
    assert Advance(st, pos) == Ok(pos + 1);
    assert ScanComplete(st, pos, 0, false) == ScanNext(st, pos, 1, true);
    assert ScanNext(st, pos, 1, true) == ScanComplete(st, pos + 1, 1, true);
    ScanFlat(st, pos + 1, e, 1, true);
    assert ScanComplete(st, e, 1, NoThen(st, pos + 1, e)) == Ok(NoThen(st, pos + 1, e));
  }

  /** An if closed by its `stop`, after its `then`, is complete. */
  lemma ClosedIf(st: Stream, pos: nat, t: nat, e: nat)
    requires ValidStream(st) && e + 1 < |st.toks| && pos < t < e && st.toks[pos].kind.If?
    requires Flat(st, pos + 1, e) && st.toks[t].kind.Then? && st.toks[e].kind.Stop?
    requires !st.toks[e + 1].kind.If?
    ensures StatementComplete(st, pos) == Ok(true)
  {
    assert Advance(st, pos) == Ok(pos + 1);
    assert ScanComplete(st, pos, 0, false) == ScanNext(st, pos, 1, true);
    assert ScanNext(st, pos, 1, true) == ScanComplete(st, pos + 1, 1, true);
    ScanFlat(st, pos + 1, e, 1, true);
    assert !NoThen(st, pos + 1, e);
    assert Advance(st, e) == Ok(e + 1);
    assert ScanComplete(st, e, 1, false) == ScanComplete(st, e + 1, 0, false);
  }
  /** The nesting depth a run of tokens adds: one per `if`, minus one per
      `stop`. */
  function Depth(st: Stream, i: nat, e: nat): (r: int)
    requires i <= e <= |st.toks|
    ensures -(e - i) <= r <= e - i
    decreases e - i
  {
    if i == e then 0
    else (if st.toks[i].kind.If? then 1 else if st.toks[i].kind.Stop? then -1 else 0) + Depth(st, i + 1, e)
  }

  /** After a run of tokens an `if` waits for its `then` when the last `if`
      of the run has no `then` after it, or, when the run has no `then` at
      all, when one was waiting already. */
  predicate Awaiting(st: Stream, i: nat, e: nat, waiting: bool)
    requires i <= e <= |st.toks|
  {
    (waiting && NoThen(st, i, e)) || exists l :: i <= l < e && st.toks[l].kind.If? && NoThen(st, l + 1, e)
  }

  /** Tokens i .. e-1, entered at nesting level `level` with `waiting` as
      the wait for `then`, neither end the input nor stop the scan: each is
      an `if`, is read while an if is open, or is the awaited `then`. */
  predicate NoBreak(st: Stream, i: nat, e: nat, level: nat, waiting: bool)
    requires i <= e <= |st.toks|
  {
    forall j :: i <= j < e ==>
      && !st.toks[j].kind.End?
      && (st.toks[j].kind.If? || level + Depth(st, i, j) > 0 || (st.toks[j].kind.Then? && Awaiting(st, i, j, waiting)))
  }

  /** Across a run that does not stop it, the scan only moves the level by
      the run's depth and the wait for `then` as Awaiting says. */
  lemma {:induction false} ScanRun(st: Stream, i: nat, e: nat, level: nat, waiting: bool)
    requires ValidStream(st) && i <= e < |st.toks| && NoBreak(st, i, e, level, waiting)
    ensures level + Depth(st, i, e) >= 0
    ensures ScanComplete(st, i, level, waiting) == ScanComplete(st, e, level + Depth(st, i, e), Awaiting(st, i, e, waiting))
    decreases e - i
  {
    if i < e {
      var k := st.toks[i].kind;
      var d := if k.If? then 1 else if k.Stop? then -1 else 0;
      assert Depth(st, i, i) == 0;
      assert k.If? || level > 0 || (k.Then? && waiting);
      var level' := level + d;
      var waiting' := if k.If? then true else if k.Then? then false else waiting;
      assert Advance(st, i) == Ok(i + 1);
      assert ScanComplete(st, i, level, waiting) == ScanComplete(st, i + 1, level', waiting');
      forall j | i + 1 <= j < e
        ensures && !st.toks[j].kind.End?
                && (st.toks[j].kind.If? || level' + Depth(st, i + 1, j) > 0 || (st.toks[j].kind.Then? && Awaiting(st, i + 1, j, waiting')))
      {
        assert Depth(st, i, j) == d + Depth(st, i + 1, j);
        AwaitingStep(st, i, j, waiting);
      }
      ScanRun(st, i + 1, e, level', waiting');
      assert Depth(st, i, e) == d + Depth(st, i + 1, e);
      AwaitingStep(st, i, e, waiting);
    }
  }
  lemma AwaitingStep(st: Stream, i: nat, e: nat, waiting: bool)
    requires i < e <= |st.toks|
    ensures var k := st.toks[i].kind;
      Awaiting(st, i, e, waiting) == Awaiting(st, i + 1, e, if k.If? then true else if k.Then? then false else waiting)
  {
    var k := st.toks[i].kind;
    if k.If? {
      if NoThen(st, i + 1, e) {
        assert st.toks[i].kind.If? && NoThen(st, i + 1, e);
      }
    } else if Awaiting(st, i, e, waiting) && !(waiting && NoThen(st, i, e)) {
      var l :| i <= l < e && st.toks[l].kind.If? && NoThen(st, l + 1, e);
      assert l != i;
    }
  }

  /** isStatementComplete for every input: the scan from the current token
      runs until the end of the input or a token that stops it; at the end
      the statement is complete exactly when every if it opened is closed or
      an if still waits for its `then`, and a token that stops the scan (one
      other than `if` or the awaited `then`, with no if open) makes it
      complete. */
  lemma CompleteRule(st: Stream, pos: nat, e: nat)
    requires ValidStream(st) && pos <= e < |st.toks| && NoBreak(st, pos, e, 0, false)
    ensures Depth(st, pos, e) >= 0
    ensures st.toks[e].kind.End? ==> StatementComplete(st, pos) == Ok(Depth(st, pos, e) == 0 || Awaiting(st, pos, e, false))
    ensures Depth(st, pos, e) == 0 && !st.toks[e].kind.If? && !(st.toks[e].kind.Then? && Awaiting(st, pos, e, false)) ==>
      StatementComplete(st, pos) == Ok(true)
  {
    ScanRun(st, pos, e, 0, false);
  }
}

=== FILE: parser_rules.dfy ===
/** The rule each parsing function of core/main/parser.cpp follows, stated
    for every token stream: which function the current token hands over to,
    which node the parts make, and which error a missing token raises. An
    error from a part is the error of the whole. */
module ParserRules {
  import opened Errors
  import opened Values
  import opened Lexer
  import opened Ast
  import opened Parser

  /** parseStatement: an `if` starts an if statement; an identifier followed
      by '=' starts an assignment of the expression after the '=' (the
      identifier's payload is read before the peek); anything else is an
      expression. */
  lemma StatementRule(st: Stream, strict: bool, pos: nat)
    requires ValidStream(st) && pos < |st.toks|
    ensures var t := st.toks[pos];
      var r := ParseStatement(st, strict, pos);
      var assigns := t.kind.Identifier? && pos + 1 < |st.toks| && st.toks[pos + 1].kind.Assign?;
      && (t.kind.If? ==> r == ParseIf(st, strict, pos))
      && (t.kind.Identifier? && IdentName(t).Err? ==> r == Err(BadVariantAccess))
      && (assigns && IdentName(t).Ok? && pos + 2 < |st.toks| ==>
            var e := ParseBinary(st, strict, 1, pos + 2);
            && (e.Err? ==> r == Err(e.error))
            && (e.Ok? ==> r == Ok((Assignment(IdentName(t).value, true, e.value.0), e.value.1))))
      && (!t.kind.If? && !t.kind.Identifier? ==> r == ParseBinary(st, strict, 1, pos))
      && (t.kind.Identifier? && pos + 1 < |st.toks| && !st.toks[pos + 1].kind.Assign? && IdentName(t).Ok? ==>
            r == ParseBinary(st, strict, 1, pos))
  {
  }

  /** parseIfStatement: a new line right after `if` is a missing condition;
      otherwise the condition is an expression, which must be followed by
      `then`, and the blocks follow the `then`. */
  lemma IfRule(st: Stream, strict: bool, pos: nat)
    requires ValidStream(st) && pos + 1 < |st.toks|
    ensures var r := ParseIf(st, strict, pos);
      && (st.toks[pos + 1].kind.Eol? ==> r == Err(SyntaxError(ConditionAfterIf)))
      && (!st.toks[pos + 1].kind.Eol? ==>
            var c := ParseBinary(st, strict, 1, pos + 1);
            && (c.Err? ==> r == Err(c.error))
            && (c.Ok? && !st.toks[c.value.1].kind.Then? ==> r == Err(SyntaxError(ThenAfterCondition)))
            && (c.Ok? && st.toks[c.value.1].kind.Then? && c.value.1 + 1 < |st.toks| ==>
                  r == IfBlocks(st, strict, c.value.0, c.value.1 + 1)))
  {
  }

  /** The blocks of an if statement: the then block, and after an `else`
      the else block; the statement must then close with `stop`. The node
      holds the condition and both blocks as parsed. */
  lemma IfBlocksRule(st: Stream, strict: bool, cond: Node, pos: nat)
    requires ValidStream(st) && pos < |st.toks| && (strict ==> NullFree(cond))
    ensures var r := IfBlocks(st, strict, cond, pos);
      var b := ParseBlock(st, strict, pos, []);
      && (b.Err? ==> r == Err(b.error))
      && (b.Ok? && !st.toks[b.value.1].kind.Else? ==> r == CloseIf(st, IfElse(cond, b.value.0, false, []), b.value.1))
      && (b.Ok? && st.toks[b.value.1].kind.Else? && b.value.1 + 1 < |st.toks| ==>
            var e := ParseBlock(st, strict, b.value.1 + 1, []);
            && (e.Err? ==> r == Err(e.error))
            && (e.Ok? ==> r == CloseIf(st, IfElse(cond, b.value.0, true, e.value.0), e.value.1)))
  {
  }

  /** parseBlock: separators are skipped; a `stop`, `else` or END ends the
      block with the statements collected so far; anything else is parsed
      as a statement (an `if` as an if statement) and appended. */
  lemma BlockRule(st: Stream, strict: bool, pos: nat, acc: seq<Node>)
    requires ValidStream(st) && pos < |st.toks| && (strict ==> AllNullFree(acc))
    ensures var k := st.toks[pos].kind;
      var r := ParseBlock(st, strict, pos, acc);
      && ((k.Eol? || k.Semicolon?) && pos + 1 < |st.toks| ==> r == ParseBlock(st, strict, pos + 1, acc))
      && (k.Stop? || k.End? || k.Else? ==> r == Ok((acc, pos)))
      && (!k.Eol? && !k.Semicolon? && !k.Stop? && !k.End? && !k.Else? ==>
            var s := ParseStatement(st, strict, pos);
            && (s.Err? ==> r == Err(s.error))
            && (s.Ok? ==> (strict ==> AllNullFree(acc + [s.value.0])) && r == ParseBlock(st, strict, s.value.1, acc + [s.value.0])))
  {
    var k := st.toks[pos].kind;
    if k.If? {
      StatementRule(st, strict, pos);
    }
    if !k.Eol? && !k.Semicolon? && !k.Stop? && !k.End? && !k.Else? {
      var s := ParseStatement(st, strict, pos);
      if s.Ok? {
        NullCallsSnoc(acc, s.value.0);
      }
    }
  }

  /** parseFactor: `[` starts a list; `!` and `_` apply to the factor after
      them; a primary gives its literal or variable, and a parenthesised
      statement the statement, each followed by any postfix suffixes. A
      token that starts none of these is an unexpected token, unless it is
      a '.' the parser as written lets through. */
  lemma FactorRule(st: Stream, strict: bool, pos: nat)
    requires ValidStream(st) && pos < |st.toks|
    ensures var t := st.toks[pos];
      var r := ParseFactor(st, strict, pos);
      && (t.kind.LBracket? ==> r == ParseList(st, strict, pos))
      && ((t.kind.Not? || t.kind.Underscore?) && pos + 1 < |st.toks| ==>
            var e := ParseFactor(st, strict, pos + 1);
            && (e.Err? ==> r == Err(e.error))
            && (e.Ok? ==> r == Ok((Unary(t.kind, e.value.0), e.value.1))))
      && (IsPrimary(t.kind) && Leaf(t).Err? ==> r == Err(BadVariantAccess))
      && (IsPrimary(t.kind) && Leaf(t).Ok? && pos + 1 < |st.toks| ==>
            var n := Postfix(st, strict, Some(Leaf(t).value), pos + 1);
            && (n.Err? ==> r == Err(n.error))
            && (n.Ok? ==> n.value.0.Some? && r == Ok((n.value.0.value, n.value.1))))
      && (t.kind.LParen? ==>
            var n := ParenFactor(st, strict, pos);
            && (n.Err? ==> r == Err(n.error))
            && (n.Ok? ==> n.value.0.Some? && r == Ok((n.value.0.value, n.value.1))))
      && ((!t.kind.LBracket? && !t.kind.Not? && !t.kind.Underscore? && !IsPrimary(t.kind) && !t.kind.LParen?
           && (!t.kind.Dot? || strict)) ==> r == Err(ParserError(UnexpectedToken)))
  {
  }
}

=== FILE: scope.dfy ===
/** The scope chain of core/scope.cpp.

    A scope is a table of variables and a table of functions with an optional
    parent. Because the language has no closures, every scope that is alive
    forms one stack from the innermost scope outwards, so the chain is a
    non-empty sequence of frames, innermost first; the parent of `c[i]` is
    `c[i + 1]`. The function table is generic in what it stores. */
module Scopes {
  import opened Errors
  import opened Values

  datatype Frame<F> = Frame(vars: map<string, Value>, funcs: map<string, F>)

  type Chain<F> = c: seq<Frame<F>> | |c| > 0 witness [Frame(map[], map[])]

  /** Index of the innermost frame at or beyond `k` that binds variable
      `name`: the lookup has climbed to the `k`-th ancestor. */
  function FindVariableFrom<F>(c: seq<Frame<F>>, name: string, k: nat): (r: Option<nat>)
    requires k <= |c|
    ensures r.Some? ==> k <= r.value < |c| && name in c[r.value].vars
    ensures r.Some? ==> forall j :: k <= j < r.value ==> name !in c[j].vars
    ensures r.None? ==> forall j :: k <= j < |c| ==> name !in c[j].vars
    decreases |c| - k
  {
    if k == |c| then None
    else if name in c[k].vars then Some(k)
    else FindVariableFrom(c, name, k + 1)
  }

  /** Index of the innermost frame that binds variable `name`. */
  function FindVariable<F>(c: seq<Frame<F>>, name: string): (r: Option<nat>)
    ensures r.Some? ==> r.value < |c| && name in c[r.value].vars
    ensures r.Some? ==> forall j :: 0 <= j < r.value ==> name !in c[j].vars
    ensures r.None? ==> forall j :: 0 <= j < |c| ==> name !in c[j].vars
  {
    FindVariableFrom(c, name, 0)
  }

  /** Index of the innermost frame at or beyond `k` that binds function `name`. */
  function FindFunctionFrom<F>(c: seq<Frame<F>>, name: string, k: nat): (r: Option<nat>)
    requires k <= |c|
    ensures r.Some? ==> k <= r.value < |c| && name in c[r.value].funcs
    ensures r.Some? ==> forall j :: k <= j < r.value ==> name !in c[j].funcs
    ensures r.None? ==> forall j :: k <= j < |c| ==> name !in c[j].funcs
    decreases |c| - k
  {
    if k == |c| then None
    else if name in c[k].funcs then Some(k)
    else FindFunctionFrom(c, name, k + 1)
  }

  /** Index of the innermost frame that binds function `name`. */
  function FindFunction<F>(c: seq<Frame<F>>, name: string): (r: Option<nat>)
    ensures r.Some? ==> r.value < |c| && name in c[r.value].funcs
    ensures r.Some? ==> forall j :: 0 <= j < r.value ==> name !in c[j].funcs
    ensures r.None? ==> forall j :: 0 <= j < |c| ==> name !in c[j].funcs
  {
    FindFunctionFrom(c, name, 0)
  }

  /** setVariable: bind in the current scope only; the parents are untouched. */
  function SetVariable<F>(c: Chain<F>, name: string, v: Value): (r: Chain<F>)
    ensures r == c[0 := r[0]] && r[0].funcs == c[0].funcs
    ensures name in r[0].vars && r[0].vars[name] == v
    ensures forall n :: n != name ==> (n in r[0].vars <==> n in c[0].vars)
    ensures forall n :: n != name && n in c[0].vars ==> r[0].vars[n] == c[0].vars[n]
  {
    c[0 := c[0].(vars := c[0].vars[name := v])]
  }

  /** hasVariable: a binding in the current scope. */
  function HasVariable<F>(c: Chain<F>, name: string): bool {
    name in c[0].vars
  }

  /** hasVariableInCurrentOrParentScope, asked of the `k`-th ancestor. */
  function HasVariableFrom<F>(c: seq<Frame<F>>, name: string, k: nat): (r: bool)
    requires k < |c|
    ensures r <==> exists j :: k <= j < |c| && name in c[j].vars
    decreases |c| - k
  {
    if name in c[k].vars then true
    else if k + 1 < |c| then HasVariableFrom(c, name, k + 1)
    else false
  }

  /** hasVariableInCurrentOrParentScope: a binding anywhere along the chain. */
  function HasVariableInChain<F>(c: Chain<F>, name: string): (r: bool)
    ensures r <==> exists j :: 0 <= j < |c| && name in c[j].vars
  {
    HasVariableFrom(c, name, 0)
  }

  /** getVariable, asked of the `k`-th ancestor. */
  function GetVariableFrom<F>(c: seq<Frame<F>>, name: string, k: nat): (r: Result<Value>)
    requires k < |c|
    ensures r.Err? <==> FindVariableFrom(c, name, k).None?
    ensures r.Err? ==> r.error == NameError
    ensures r.Ok? ==> r.value == c[FindVariableFrom(c, name, k).value].vars[name]
    decreases |c| - k
  {
    if name in c[k].vars then Ok(c[k].vars[name])
    else if k + 1 < |c| then GetVariableFrom(c, name, k + 1)
    else Err(NameError)
  }

  /** getVariable: the innermost binding, or a NameError when there is none. */
  function GetVariable<F>(c: Chain<F>, name: string): (r: Result<Value>)
    ensures r.Err? <==> FindVariable(c, name).None?
    ensures r.Err? ==> r.error == NameError
    ensures r.Ok? ==> r.value == c[FindVariable(c, name).value].vars[name]
  {
    GetVariableFrom(c, name, 0)
  }

  /** assignVariable, asked of the `k`-th ancestor. */
  function AssignVariableFrom<F>(c: seq<Frame<F>>, name: string, v: Value, k: nat): (r: Result<seq<Frame<F>>>)
    requires k < |c|
    ensures r.Err? <==> FindVariableFrom(c, name, k).None?
    ensures r.Err? ==> r.error == NameError
    ensures r.Ok? ==>
      var i := FindVariableFrom(c, name, k).value;
      r.value == c[i := c[i].(vars := c[i].vars[name := v])]
    decreases |c| - k
  {
    if name in c[k].vars then Ok(c[k := c[k].(vars := c[k].vars[name := v])])
    else if k + 1 < |c| then AssignVariableFrom(c, name, v, k + 1)
    else Err(NameError)
  }

  /** assignVariable: rebind the name in the innermost scope that holds it;
      no binding is ever created, and a name bound nowhere is a NameError. */
  function AssignVariable<F>(c: Chain<F>, name: string, v: Value): (r: Result<Chain<F>>)
    ensures r.Err? <==> FindVariable(c, name).None?
    ensures r.Err? ==> r.error == NameError
    ensures r.Ok? ==>
      var i := FindVariable(c, name).value;
      r.value == c[i := c[i].(vars := c[i].vars[name := v])]
  {
    var r :- AssignVariableFrom(c, name, v, 0);
    Ok(r)
  }

  /** setFunction: bind a function in the current scope only. */
  function SetFunction<F>(c: Chain<F>, name: string, f: F): (r: Chain<F>)
    ensures r == c[0 := r[0]] && r[0].vars == c[0].vars
    ensures name in r[0].funcs && r[0].funcs[name] == f
    ensures forall n :: n != name ==> (n in r[0].funcs <==> n in c[0].funcs)
    ensures forall n :: n != name && n in c[0].funcs ==> r[0].funcs[n] == c[0].funcs[n]
  {
    c[0 := c[0].(funcs := c[0].funcs[name := f])]
  }

  /** getFunction, asked of the `k`-th ancestor. */
  function GetFunctionFrom<F>(c: seq<Frame<F>>, name: string, k: nat): (r: Option<F>)
    requires k < |c|
    ensures r.None? <==> FindFunctionFrom(c, name, k).None?
    ensures r.Some? ==> r.value == c[FindFunctionFrom(c, name, k).value].funcs[name]
    decreases |c| - k
  {
    if name in c[k].funcs then Some(c[k].funcs[name])
    else if k + 1 < |c| then GetFunctionFrom(c, name, k + 1)
    else None
  }

  /** getFunction: the innermost function binding, or nothing (a null pointer). */
  function GetFunction<F>(c: Chain<F>, name: string): (r: Option<F>)
    ensures r.None? <==> FindFunction(c, name).None?
    ensures r.Some? ==> r.value == c[FindFunction(c, name).value].funcs[name]
  {
    GetFunctionFrom(c, name, 0)
  }

  /** createChildScope: a new innermost scope with empty tables. */
  function CreateChild<F>(c: Chain<F>): (r: Chain<F>)
    ensures |r| == |c| + 1 && r[1..] == c
    ensures r[0].vars == map[] && r[0].funcs == map[]
  {
    [Frame(map[], map[])] + c
  }

  /** The chain without its innermost scope, where the source drops the child. */
  function Parent<F>(c: Chain<F>): (r: Chain<F>)
    requires |c| > 1
    ensures |r| == |c| - 1 && forall j :: 0 <= j < |r| ==> r[j] == c[j + 1]
  {
    c[1..]
  }

  /** hasVariableInCurrentOrParentScope(n) holds exactly when getVariable(n) succeeds. */
  lemma HasIffGets<F>(c: Chain<F>, name: string)
    ensures HasVariableInChain(c, name) <==> GetVariable(c, name).Ok?
  {
    if FindVariable(c, name).Some? {
      var i := FindVariable(c, name).value;
      assert name in c[i].vars;
    }
  }

  /** Every lookup in a fresh child falls through to its parent. */
  lemma ChildFallsThrough<F>(c: Chain<F>, name: string)
    ensures !HasVariable(CreateChild(c), name)
    ensures GetVariable(CreateChild(c), name) == GetVariable(c, name)
    ensures HasVariableInChain(CreateChild(c), name) == HasVariableInChain(c, name)
    ensures GetFunction(CreateChild(c), name) == GetFunction(c, name)
  {
  }

  /** A binding in the current scope shadows every outer one; dropping the
      scope again uncovers the outer binding unchanged. */
  lemma Shadowing<F>(c: Chain<F>, name: string, v: Value)
    ensures GetVariable(SetVariable(CreateChild(c), name, v), name) == Ok(v)
    ensures Parent(SetVariable(CreateChild(c), name, v)) == c
  {
  }

  /** Two chains that bind `n` in the same frames, to the same values, agree
      on every lookup of `n`. */
  lemma SameBindings<F>(c: Chain<F>, r: Chain<F>, n: string)
    requires |r| == |c|
    requires forall j :: 0 <= j < |c| ==> (n in r[j].vars <==> n in c[j].vars)
    requires forall j :: 0 <= j < |c| && n in c[j].vars ==> r[j].vars[n] == c[j].vars[n]
    ensures FindVariable(r, n) == FindVariable(c, n)
    ensures GetVariable(r, n) == GetVariable(c, n)
    ensures HasVariableInChain(r, n) == HasVariableInChain(c, n)
  {
    var a, b := FindVariable(r, n), FindVariable(c, n);
    if a.Some? && b.Some? {
      assert !(a.value < b.value) && !(b.value < a.value);
    }
  }

  /** assignVariable never changes which names are bound anywhere along the chain. */
  lemma AssignKeepsBindings<F>(c: Chain<F>, name: string, v: Value, n: string)
    requires AssignVariable(c, name, v).Ok?
    ensures HasVariableInChain(AssignVariable(c, name, v).value, n) == HasVariableInChain(c, n)
    ensures GetVariable(AssignVariable(c, name, v).value, name) == Ok(v)
  {
    var r := AssignVariable(c, name, v).value;
    var i := FindVariable(c, name).value;
    assert forall j :: 0 <= j < |c| ==> (n in r[j].vars <==> n in c[j].vars);
    assert forall j :: 0 <= j < |c| ==> (name in r[j].vars <==> name in c[j].vars);
    var k := FindVariable(r, name);
    assert k.Some? && !(k.value < i) && !(i < k.value);
  }

  /** After assignVariable, getVariable of any other name is unchanged. */
  lemma AssignLeavesOthers<F>(c: Chain<F>, name: string, v: Value, n: string)
    requires AssignVariable(c, name, v).Ok? && n != name
    ensures GetVariable(AssignVariable(c, name, v).value, n) == GetVariable(c, n)
  {
    var r := AssignVariable(c, name, v).value;
    assert forall j :: 0 <= j < |c| ==> (n in r[j].vars <==> n in c[j].vars);
    assert forall j :: 0 <= j < |c| && n in c[j].vars ==> r[j].vars[n] == c[j].vars[n];
    SameBindings(c, r, n);
  }
}

=== FILE: utf8.dfy ===
/** UTF-8 code-point counting and indexing over byte strings (util/utf8string.cpp).
    A Dafny `string` here stands for a C++ std::string: each char is one byte,
    with a code below 256. */
module Utf8 {
  import opened Errors

  /** Bytes taken by the code point whose lead byte is `c`: 1, 2, 3 or 4 for
      0xxxxxxx, 110xxxxx, 1110xxxx and 11110xxx; 0 when `c` matches none of
      them (a stray continuation byte 10xxxxxx, or 11111xxx). */
  function Width(c: char): nat
  {
    var b := c as int;
    if b < 0x80 then 1
    else if 0xC0 <= b < 0xE0 then 2
    else if 0xE0 <= b < 0xF0 then 3
    else if 0xF0 <= b < 0xF8 then 4
    else 0
  }

  /** `Width` is the mask test the source performs on the lead byte. */
  lemma WidthFollowsMasks(c: char)
    requires c as int < 256
    ensures var b := c as int as bv8;
      && (Width(c) == 1 <==> b & 0x80 == 0x00)
      && (Width(c) == 2 <==> b & 0x80 != 0x00 && b & 0xE0 == 0xC0)
      && (Width(c) == 3 <==> b & 0x80 != 0x00 && b & 0xE0 != 0xC0 && b & 0xF0 == 0xE0)
      && (Width(c) == 4 <==> b & 0x80 != 0x00 && b & 0xE0 != 0xC0 && b & 0xF0 != 0xE0 && b & 0xF8 == 0xF0)
      && (Width(c) == 0 <==> b & 0x80 != 0x00 && b & 0xE0 != 0xC0 && b & 0xF0 != 0xE0 && b & 0xF8 != 0xF0)
  {
  }

  predicate IsAscii(s: string) {
    forall k :: 0 <= k < |s| ==> s[k] as int < 0x80
  }

  function Concat(parts: seq<string>): string {
    if |parts| == 0 then [] else parts[0] + Concat(parts[1..])
  }

  /** The code points of `s` from byte `i` on, each given by the bytes that
      encode it, split the way getStrLen and getStrChar walk the string: a
      lead byte of width w starts a chunk of w bytes, cut short at the end of
      the string. */
  function CodePointsFrom(s: string, i: nat): (r: Result<seq<string>>)
    ensures r.Ok? ==> forall k :: 0 <= k < |r.value| ==> 0 < |r.value[k]| <= Width(r.value[k][0])
    ensures r.Err? ==> r.error == InvalidEncoding
    decreases |s| - i
  {
    if i >= |s| then Ok([])
    else
      var w := Width(s[i]);
      if w == 0 then Err(InvalidEncoding)
      else
        var rest :- CodePointsFrom(s, i + w);
        Ok([ChunkAt(s, i)] + rest)
  }

  /** The bytes of the code point whose lead byte is at `j`, cut short at the
      end of the string. */
  function ChunkAt(s: string, j: nat): (r: string)
    requires j < |s| && Width(s[j]) != 0
    ensures |r| > 0 && r[0] == s[j]
  {
    s[j..Min(j + Width(s[j]), |s|)]
  }

  function CodePoints(s: string): Result<seq<string>> {
    CodePointsFrom(s, 0)
  }

  /** Number of code points (getStrLen). */
  function StrLen(s: string): Result<nat> {
    var cps :- CodePoints(s);
    Ok(|cps|)
  }

  /** Splitting into code points loses no byte: the chunks concatenate back to `s`. */
  lemma {:induction false} CodePointsConcat(s: string, i: nat)
    requires i <= |s| && CodePointsFrom(s, i).Ok?
    ensures Concat(CodePointsFrom(s, i).value) == s[i..]
    decreases |s| - i
  {
    if i < |s| {
      var n := Min(i + Width(s[i]), |s|);
      CodePointsConcat(s, n);
      assert s[i..n] + s[n..] == s[i..];
    }
  }

  /** A string of bytes below 0x80 has one code point per byte. */
  lemma {:induction false} AsciiCodePoints(s: string, i: nat)
    requires IsAscii(s) && i <= |s|
    ensures CodePointsFrom(s, i).Ok?
    ensures |CodePointsFrom(s, i).value| == |s| - i
    ensures forall k :: 0 <= k < |s| - i ==> CodePointsFrom(s, i).value[k] == [s[i + k]]
    decreases |s| - i
  {
    if i < |s| {
      AsciiCodePoints(s, i + 1);
    }
  }

  lemma AsciiStrLen(s: string)
    requires IsAscii(s)
    ensures StrLen(s) == Ok(|s|)
  {
    AsciiCodePoints(s, 0);
  }

  /** Where the code-point skipping loop of getStrChar stops: it starts at byte
      `i` and skips `count` code points, stopping early at the end of the
      string (past it when the last code point is cut short). */
  function Skip(s: string, i: nat, count: nat): (r: Result<nat>)
    ensures r.Ok? ==> i <= r.value
    ensures r.Err? ==> r.error == InvalidEncoding
    decreases count
  {
    if i >= |s| || count == 0 then Ok(i)
    else
      var w := Width(s[i]);
      if w == 0 then Err(InvalidEncoding) else Skip(s, i + w, count - 1)
  }

  /** A byte that cannot start a code point, met where the skipping loop of
      getStrChar says one must start, makes the whole count fail. */
  lemma {:induction false} InvalidLeadFails(s: string, i: nat, m: nat)
    requires Skip(s, i, m).Ok? && Skip(s, i, m).value < |s| && Width(s[Skip(s, i, m).value]) == 0
    ensures CodePointsFrom(s, i) == Err(InvalidEncoding)
    decreases m
  {
    if m > 0 && Width(s[i]) != 0 {
      InvalidLeadFails(s, i + Width(s[i]), m - 1);
    }
  }

  lemma InvalidLeadFailsStrLen(s: string, m: nat)
    requires Skip(s, 0, m).Ok? && Skip(s, 0, m).value < |s| && Width(s[Skip(s, 0, m).value]) == 0
    ensures StrLen(s) == Err(InvalidEncoding)
  {
    InvalidLeadFails(s, 0, m);
  }

  /** The bytes of code point `index` (getStrChar). */
  function StrChar(s: string, index: nat): Result<string> {
    var i :- Skip(s, 0, index);
    if i > |s| then Err(Undefined)   // s[i] reads beyond the terminating null byte
    else if i == |s| then Ok([])     // s[size()] is '\0', and substr(size(), 1) is empty
    else
      var w := Width(s[i]);
      var n := if w == 0 then 1 else w;
      Ok(s[i..Min(i + n, |s|)])
  }

  /** Skipping k code points of a well-encoded string stops at the lead byte
      of code point k. */
  lemma {:induction false} SkipToCodePoint(s: string, i: nat, k: nat)
    requires CodePointsFrom(s, i).Ok? && k < |CodePointsFrom(s, i).value|
    ensures Skip(s, i, k).Ok? && Skip(s, i, k).value < |s|
    ensures Width(s[Skip(s, i, k).value]) != 0
    ensures ChunkAt(s, Skip(s, i, k).value) == CodePointsFrom(s, i).value[k]
    decreases k
  {
    if k > 0 {
      var n := i + Width(s[i]);
      assert CodePointsFrom(s, n).value == CodePointsFrom(s, i).value[1..];
      SkipToCodePoint(s, n, k - 1);
      assert Skip(s, i, k) == Skip(s, n, k - 1);
    }
  }

  /** getStrChar returns the index-th code point of a well-encoded string. */
  lemma StrCharIsCodePoint(s: string, index: nat)
    requires CodePoints(s).Ok? && index < |CodePoints(s).value|
    ensures StrChar(s, index) == Ok(CodePoints(s).value[index])
  {
    SkipToCodePoint(s, 0, index);
  }

  /** On an all-ASCII string getStrChar(s, i) is the single byte s[i]. */
  lemma AsciiStrChar(s: string, index: nat)
    requires IsAscii(s) && index < |s|
    ensures StrChar(s, index) == Ok([s[index]])
  {
    AsciiCodePoints(s, 0);
    StrCharIsCodePoint(s, index);
  }

  /** getStrLen, as the source's loop computes it. */
  method GetStrLen(s: string) returns (r: Result<nat>)
    ensures r == StrLen(s)
  {
    var len: nat := 0;
    var i: nat := 0;
    while i < |s|
      invariant StrLen(s) == (var rest := CodePointsFrom(s, i); if rest.Ok? then Ok(|rest.value| + len) else Err(rest.error))
      decreases |s| - i
    {
      var w := Width(s[i]);
      if w == 0 {
        return Err(InvalidEncoding);
      }
      i := i + w;
      len := len + 1;
    }
    return Ok(len);
  }

  /** getStrChar, as the source's loops compute it. */
  method GetStrChar(s: string, index: nat) returns (r: Result<string>)
    ensures r == StrChar(s, index)
  {
    var i: nat := 0;
    var count: nat := 0;
    while i < |s| && count < index
      invariant count <= index
      invariant Skip(s, 0, index) == Skip(s, i, index - count)
      decreases index - count
    {
      var c := s[i];
      var w := Width(c);
      if w == 0 {
        return Err(InvalidEncoding);
      }
      i := i + w;
      count := count + 1;
    }
    if i > |s| {
      return Err(Undefined);
    }
    if i == |s| {
      return Ok([]);
    }
    var charLen := Width(s[i]);
    if charLen == 0 {
      charLen := 1;
    }
    return Ok(s[i..Min(i + charLen, |s|)]);
  }

  // ---- facts used by the trimming methods ------------------------------

  lemma {:induction false} ConcatAppend(a: seq<string>, b: seq<string>)
    ensures Concat(a + b) == Concat(a) + Concat(b)
    decreases |a|
  {
    if |a| > 0 {
      ConcatAppend(a[1..], b);
      assert (a + b)[1..] == a[1..] + b;
    } else {
      assert a + b == b;
    }
  }

  /** Chunks that are never empty concatenate to at least one byte each, so
      nothing but the empty sequence concatenates to the empty string. */
  lemma {:induction false} ConcatLength(parts: seq<string>)
    requires forall k :: 0 <= k < |parts| ==> |parts[k]| > 0
    ensures |Concat(parts)| >= |parts|
    decreases |parts|
  {
    if |parts| > 0 {
      ConcatLength(parts[1..]);
    }
  }

  /** Skipping one more code point continues from where `count` skips stopped. */
  lemma {:induction false} SkipLast(s: string, i: nat, count: nat)
    ensures Skip(s, i, count + 1) ==
      match Skip(s, i, count)
      case Err(e) => Err(e)
      case Ok(p) =>
        if p >= |s| then Ok(p)
        else if Width(s[p]) == 0 then Err(InvalidEncoding)
        else Ok(p + Width(s[p]))
    decreases count
  {
    if count > 0 && i < |s| && Width(s[i]) != 0 {
      SkipLast(s, i + Width(s[i]), count - 1);
    }
  }

  /** Each skipped code point takes at least one byte. */
  lemma {:induction false} SkipAdvances(s: string, i: nat, count: nat)
    requires Skip(s, i, count).Ok?
    ensures Skip(s, i, count).value >= Min(i + count, |s|)
    decreases count
  {
    if count > 0 && i < |s| {
      SkipAdvances(s, i + Width(s[i]), count - 1);
    }
  }

  /** Every code point of `s` is complete: none is cut short by the end of the string. */
  predicate WellEncoded(s: string) {
    && CodePoints(s).Ok?
    && forall k :: 0 <= k < |CodePoints(s).value| ==> |CodePoints(s).value[k]| == Width(CodePoints(s).value[k][0])
  }

  /** In a well-encoded string, skipping k code points stops at the byte
      length of the first k of them, and at the end once k reaches their count. */
  lemma {:induction false} WellEncodedSkip(s: string, k: nat)
    requires WellEncoded(s)
    ensures var cps := CodePoints(s).value;
      Skip(s, 0, k) == Ok(|Concat(cps[..Min(k, |cps|)])|)
    decreases k
  {
    var cps := CodePoints(s).value;
    if k > 0 {
      var j := k - 1;
      WellEncodedSkip(s, j);
      if j < |cps| {
        WellEncodedStep(s, j);
      } else {
        CodePointsConcat(s, 0);
        SkipLast(s, 0, j);
        assert cps[..|cps|] == cps;
      }
    }
  }

  /** The chunks before `j`, chunk `j` and the chunks after it, joined. */
  lemma ConcatAround(cps: seq<string>, j: nat)
    requires j < |cps|
    ensures Concat(cps) == Concat(cps[..j]) + cps[j] + Concat(cps[j + 1..])
    ensures |Concat(cps[..j + 1])| == |Concat(cps[..j])| + |cps[j]|
  {
    assert cps == cps[..j + 1] + cps[j + 1..];
    ConcatAppend(cps[..j + 1], cps[j + 1..]);
    assert cps[..j + 1] == cps[..j] + [cps[j]];
    ConcatAppend(cps[..j], [cps[j]]);
    assert Concat([cps[j]]) == cps[j];
  }

  /** Skipping one more code point from a complete lead byte moves past it. */
  lemma SkipOneMore(s: string, count: nat, p: nat)
    requires Skip(s, 0, count) == Ok(p) && p < |s| && Width(s[p]) != 0
    ensures Skip(s, 0, count + 1) == Ok(p + Width(s[p]))
  {
    SkipLast(s, 0, count);
  }

  /** The first byte of the middle one of three joined strings. */
  lemma JoinedAt(a: string, b: string, c: string)
    requires |b| > 0
    ensures |a| + |b| <= |a + b + c| && (a + b + c)[|a|] == b[0]
  {
  }

  /** Skipping one more code point of a well-encoded string moves past it. */
  lemma WellEncodedStep(s: string, j: nat)
    requires WellEncoded(s) && j < |CodePoints(s).value|
    requires Skip(s, 0, j) == Ok(|Concat(CodePoints(s).value[..j])|)
    ensures Skip(s, 0, j + 1) == Ok(|Concat(CodePoints(s).value[..j + 1])|)
  {
    var cps := CodePoints(s).value;
    var p := |Concat(cps[..j])|;
    CodePointsConcat(s, 0);
    assert s[0..] == s;
    ConcatAround(cps, j);
    JoinedAt(Concat(cps[..j]), cps[j], Concat(cps[j + 1..]));
    assert s[p] == cps[j][0] && Width(s[p]) == |cps[j]|;
    SkipOneMore(s, j, p);
    assert |Concat(cps[..j + 1])| == p + Width(s[p]);
  }

}

=== FILE: values.dfy ===
/** Runtime values and the container operations of core/value.cpp.

    Values are modelled by value: a list holds its elements, a dict holds
    its entries, and a mutation returns the updated container instead of
    changing a shared cell. A dict is an association list whose keys are
    kept pairwise distinct (`KeysUnique`); new keys go at the end. */
module Values {
  import opened Errors

  /** The scalar alternative (ValueBase): int, float, bool and string. A float
      is kept as the text of its literal; no floating-point arithmetic is modelled. */
  datatype Scalar = Int(i: int) | Float(text: string) | Bool(b: bool) | Str(s: string)

  datatype Value =
    | Null
    | Base(base: Scalar)
    | List(items: seq<Value>)
    | Dict(entries: seq<(Scalar, Value)>)

  predicate KeysUnique(entries: seq<(Scalar, Value)>) {
    forall i, j :: 0 <= i < j < |entries| ==> entries[i].0 != entries[j].0
  }

  /** Position of the entry for `k`: a linear search for the first match. */
  function IndexOfKey(entries: seq<(Scalar, Value)>, k: Scalar): (r: Option<nat>)
    ensures r.Some? ==> r.value < |entries| && entries[r.value].0 == k
    ensures r.Some? ==> forall j :: 0 <= j < r.value ==> entries[j].0 != k
    ensures r.None? ==> forall j :: 0 <= j < |entries| ==> entries[j].0 != k
  {
    if |entries| == 0 then None
    else if entries[0].0 == k then Some(0)
    else
      match IndexOfKey(entries[1..], k)
      case None => None
      case Some(i) => Some(i + 1)
  }

  function Lookup(entries: seq<(Scalar, Value)>, k: Scalar): Option<Value> {
    match IndexOfKey(entries, k)
    case None => None
    case Some(i) => Some(entries[i].1)
  }

  /** The key column of a dict, in entry order. */
  function KeysOf(entries: seq<(Scalar, Value)>): (r: seq<Scalar>)
    ensures |r| == |entries| && forall i :: 0 <= i < |r| ==> r[i] == entries[i].0
  {
    seq(|entries|, i requires 0 <= i < |entries| => entries[i].0)
  }

  /** Two dicts with the same key column find every key at the same position. */
  lemma SameKeysSameIndex(a: seq<(Scalar, Value)>, b: seq<(Scalar, Value)>, k: Scalar)
    requires KeysOf(a) == KeysOf(b)
    ensures IndexOfKey(a, k) == IndexOfKey(b, k)
  {
    var ia, ib := IndexOfKey(a, k), IndexOfKey(b, k);
    assert forall j :: 0 <= j < |a| ==> a[j].0 == KeysOf(a)[j] == KeysOf(b)[j] == b[j].0;
    if ia.Some? && ib.Some? {
      assert !(ia.value < ib.value) && !(ib.value < ia.value);
    }
  }

  /** `asDict()[key] = value`: overwrite the entry of `k` where it is, or add one at the end. */
  function SetEntry(entries: seq<(Scalar, Value)>, k: Scalar, x: Value): seq<(Scalar, Value)> {
    match IndexOfKey(entries, k)
    case Some(i) => entries[i := (k, x)]
    case None => entries + [(k, x)]
  }

  /** `asDict().erase(key)` on a present key. */
  function RemoveEntry(entries: seq<(Scalar, Value)>, i: nat): seq<(Scalar, Value)>
    requires i < |entries|
  {
    entries[..i] + entries[i + 1..]
  }

  lemma SetEntryLookup(entries: seq<(Scalar, Value)>, k: Scalar, x: Value, k': Scalar)
    ensures Lookup(SetEntry(entries, k, x), k) == Some(x)
    ensures k' != k ==> Lookup(SetEntry(entries, k, x), k') == Lookup(entries, k')
    ensures KeysUnique(entries) ==> KeysUnique(SetEntry(entries, k, x))
    ensures |SetEntry(entries, k, x)| == if Lookup(entries, k).Some? then |entries| else |entries| + 1
  {
    var e := SetEntry(entries, k, x);
    match IndexOfKey(entries, k)
    case Some(i) =>
      assert KeysOf(e) == KeysOf(entries);
      SameKeysSameIndex(e, entries, k);
      SameKeysSameIndex(e, entries, k');
    case None =>
      if k' != k {
        match IndexOfKey(entries, k')
        case None =>
          assert IndexOfKey(e, k') == None by {
            assert forall j :: 0 <= j < |e| ==> e[j].0 != k';
          }
        case Some(i) =>
          assert IndexOfKey(e, k') == Some(i) by {
            var r := IndexOfKey(e, k');
            assert e[i].0 == k';
            assert r.Some?;
            assert !(r.value < i) && !(i < r.value);
          }
      }
      assert IndexOfKey(e, k) == Some(|entries|) by {
        var r := IndexOfKey(e, k);
        assert e[|entries|].0 == k;
        assert r.Some? && !(r.value < |entries|);
      }
  }

  lemma RemoveEntryShift(entries: seq<(Scalar, Value)>, i: nat)
    requires i < |entries|
    ensures var e := RemoveEntry(entries, i);
      && |e| == |entries| - 1
      && (forall j :: 0 <= j < i ==> e[j] == entries[j])
      && (forall j :: i <= j < |e| ==> e[j] == entries[j + 1])
  {
  }

  lemma RemoveEntryLookup(entries: seq<(Scalar, Value)>, k: Scalar, k': Scalar)
    requires KeysUnique(entries) && IndexOfKey(entries, k).Some?
    ensures var e := RemoveEntry(entries, IndexOfKey(entries, k).value);
      && Lookup(e, k) == None
      && (k' != k ==> Lookup(e, k') == Lookup(entries, k'))
      && KeysUnique(e)
  {
    var i := IndexOfKey(entries, k).value;
    var e := RemoveEntry(entries, i);
    RemoveEntryShift(entries, i);
    assert IndexOfKey(e, k) == None by {
      assert forall j :: 0 <= j < |e| ==> e[j].0 != k;
    }
    if k' != k {
      RemoveOtherKey(entries, i, k');
    }
  }

  lemma RemoveOtherKey(entries: seq<(Scalar, Value)>, i: nat, k': Scalar)
    requires i < |entries| && entries[i].0 != k'
    ensures Lookup(RemoveEntry(entries, i), k') == Lookup(entries, k')
  {
    var e := RemoveEntry(entries, i);
    RemoveEntryShift(entries, i);
    match IndexOfKey(entries, k')
    case None =>
      assert IndexOfKey(e, k') == None by {
        assert forall j :: 0 <= j < |e| ==> e[j].0 != k';
      }
    case Some(p) =>
      var q := if p < i then p else p - 1;
      assert e[q] == entries[p];
      var r := IndexOfKey(e, k');
      assert r.Some?;
      assert !(r.value < q) && !(q < r.value);
  }

  // ---- list operations ------------------------------------------------

  /** updateListElement: replace cell `index` of a list. */
  function UpdateListElement(v: Value, index: int, x: Value): (r: Result<Value>)
    ensures !v.List? ==> r == Err(TypeError)
    ensures v.List? && !(0 <= index < |v.items|) ==> r == Err(IndexError)
    ensures v.List? && 0 <= index < |v.items| ==>
      && r.Ok? && r.value.List? && |r.value.items| == |v.items|
      && r.value.items[index] == x
      && forall j :: 0 <= j < |v.items| && j != index ==> r.value.items[j] == v.items[j]
  {
    if !v.List? then Err(TypeError)
    else if !(0 <= index < |v.items|) then Err(IndexError)
    else Ok(List(v.items[index := x]))
  }

  /** length: the number of elements of a list. */
  function Length(v: Value): (r: Result<nat>)
    ensures !v.List? ==> r == Err(TypeError)
    ensures v.List? ==> r == Ok(|v.items|)
  {
    if !v.List? then Err(TypeError) else Ok(|v.items|)
  }

  /** append: the list grows by one, ending in `x`. */
  function Append(v: Value, x: Value): (r: Result<Value>)
    ensures !v.List? ==> r == Err(TypeError)
    ensures v.List? ==>
      && r.Ok? && r.value.List? && |r.value.items| == |v.items| + 1
      && r.value.items[..|v.items|] == v.items && r.value.items[|v.items|] == x
  {
    if !v.List? then Err(TypeError) else Ok(List(v.items + [x]))
  }

  /** remove: element `index` is erased and the later ones move down by one. */
  function Remove(v: Value, index: int): (r: Result<Value>)
    ensures !v.List? ==> r == Err(TypeError)
    ensures v.List? && !(0 <= index < |v.items|) ==> r == Err(IndexError)
    ensures v.List? && 0 <= index < |v.items| ==>
      && r.Ok? && r.value.List? && |r.value.items| == |v.items| - 1
      && (forall j :: 0 <= j < index ==> r.value.items[j] == v.items[j])
      && (forall j :: index <= j < |r.value.items| ==> r.value.items[j] == v.items[j + 1])
  {
    if !v.List? then Err(TypeError)
    else if !(0 <= index < |v.items|) then Err(IndexError)
    else Ok(List(v.items[..index] + v.items[index + 1..]))
  }

  /** put: `x` is inserted so that it sits at `index`; inserting at the end is allowed. */
  function Put(v: Value, index: int, x: Value): (r: Result<Value>)
    ensures !v.List? ==> r == Err(TypeError)
    ensures v.List? && !(0 <= index <= |v.items|) ==> r == Err(IndexError)
    ensures v.List? && 0 <= index <= |v.items| ==>
      && r.Ok? && r.value.List? && |r.value.items| == |v.items| + 1
      && r.value.items[index] == x
      && (forall j :: 0 <= j < index ==> r.value.items[j] == v.items[j])
      && (forall j :: index < j < |r.value.items| ==> r.value.items[j] == v.items[j - 1])
  {
    if !v.List? then Err(TypeError)
    else if !(0 <= index <= |v.items|) then Err(IndexError)
    else Ok(List(v.items[..index] + [x] + v.items[index..]))
  }

  /** Removing what was just put back restores the list. */
  lemma RemoveUndoesPut(v: Value, index: int, x: Value)
    requires Put(v, index, x).Ok?
    ensures Remove(Put(v, index, x).value, index) == Ok(v)
  {
    var w := Put(v, index, x).value;
    assert Remove(w, index).value.items == v.items;
  }

  /** Putting back the removed element restores the list. */
  lemma PutUndoesRemove(v: Value, index: int)
    requires Remove(v, index).Ok?
    ensures Put(Remove(v, index).value, index, v.items[index]) == Ok(v)
  {
    var w := Remove(v, index).value;
    assert Put(w, index, v.items[index]).value.items == v.items;
  }

  /** Appending is putting at the end. */
  lemma AppendIsPutAtEnd(v: Value, x: Value)
    requires v.List?
    ensures Append(v, x) == Put(v, |v.items|, x)
  {
    assert Append(v, x).value.items == Put(v, |v.items|, x).value.items;
  }

  // ---- dict operations ------------------------------------------------

  /** setDictElement: afterwards `k` maps to `x` and every other key is unchanged. */
  function SetDictElement(v: Value, k: Scalar, x: Value): (r: Result<Value>)
    ensures !v.Dict? <==> r == Err(TypeError)
    ensures r.Ok? ==> r.value.Dict? && Lookup(r.value.entries, k) == Some(x)
    ensures r.Ok? ==> forall k' :: k' != k ==> Lookup(r.value.entries, k') == Lookup(v.entries, k')
    ensures r.Ok? && KeysUnique(v.entries) ==> KeysUnique(r.value.entries)
  {
    if !v.Dict? then Err(TypeError)
    else
      var e := SetEntry(v.entries, k, x);
      assert forall k' :: k' != k ==> Lookup(e, k') == Lookup(v.entries, k') by {
        forall k' | k' != k ensures Lookup(e, k') == Lookup(v.entries, k') {
          SetEntryLookup(v.entries, k, x, k');
        }
      }
      SetEntryLookup(v.entries, k, x, k);
      Ok(Dict(e))
  }

  /** dictSize: the number of entries, which is the number of distinct keys. */
  function DictSize(v: Value): (r: Result<nat>)
    ensures !v.Dict? <==> r == Err(TypeError)
    ensures r.Ok? ==> r.value == |v.entries|
  {
    if !v.Dict? then Err(TypeError) else Ok(|v.entries|)
  }

  /** removeKey: an absent key is a NameError; a present one disappears, and
      with it exactly one entry. */
  function RemoveKey(v: Value, k: Scalar): (r: Result<Value>)
    ensures !v.Dict? <==> r == Err(TypeError)
    ensures v.Dict? && Lookup(v.entries, k).None? <==> r == Err(NameError)
    ensures r.Ok? ==> r.value.Dict? && |r.value.entries| == |v.entries| - 1
    ensures r.Ok? ==> forall k' :: k' != k ==> Lookup(r.value.entries, k') == Lookup(v.entries, k')
    ensures r.Ok? && KeysUnique(v.entries) ==> KeysUnique(r.value.entries) && Lookup(r.value.entries, k).None?
  {
    if !v.Dict? then Err(TypeError)
    else
      match IndexOfKey(v.entries, k)
      case None => Err(NameError)
      case Some(i) =>
        var e := RemoveEntry(v.entries, i);
        RemoveEntryShift(v.entries, i);
        assert forall k' :: k' != k ==> Lookup(e, k') == Lookup(v.entries, k') by {
          forall k' | k' != k ensures Lookup(e, k') == Lookup(v.entries, k') {
            RemoveOtherKey(v.entries, i, k');
          }
        }
        assert KeysUnique(v.entries) ==> KeysUnique(e) && Lookup(e, k).None? by {
          if KeysUnique(v.entries) {
            RemoveEntryLookup(v.entries, k, k);
          }
        }
        Ok(Dict(e))
  }

  /** keyExists: whether `k` has an entry; the dict is not changed. */
  function KeyExists(v: Value, k: Scalar): (r: Result<bool>)
    ensures !v.Dict? <==> r == Err(TypeError)
    ensures r.Ok? ==> (r.value <==> exists j :: 0 <= j < |v.entries| && v.entries[j].0 == k)
  {
    if !v.Dict? then Err(TypeError) else Ok(Lookup(v.entries, k).Some?)
  }

  /** getDictKeys: every key exactly once, so as many keys as dictSize reports. */
  function GetDictKeys(v: Value): (r: Result<seq<Scalar>>)
    ensures !v.Dict? <==> r == Err(TypeError)
    ensures r.Ok? ==> |r.value| == |v.entries|
    ensures r.Ok? ==> forall k :: k in r.value <==> Lookup(v.entries, k).Some?
    ensures r.Ok? && KeysUnique(v.entries) ==> forall i, j :: 0 <= i < j < |r.value| ==> r.value[i] != r.value[j]
  {
    if !v.Dict? then Err(TypeError)
    else
      var ks := KeysOf(v.entries);
      assert forall k :: k in ks <==> IndexOfKey(v.entries, k).Some? by {
        forall k ensures k in ks <==> IndexOfKey(v.entries, k).Some? {
          if k in ks {
            var j :| 0 <= j < |ks| && ks[j] == k;
            assert v.entries[j].0 == k;
          }
        }
      }
      Ok(ks)
  }

  /** After setDictElement(k, v), keyExists(k) holds and the size reflects
      whether the key was new. */
  lemma SetThenExists(v: Value, k: Scalar, x: Value)
    requires v.Dict?
    ensures KeyExists(SetDictElement(v, k, x).value, k) == Ok(true)
    ensures DictSize(SetDictElement(v, k, x).value).value
      == DictSize(v).value + (if KeyExists(v, k).value then 0 else 1)
  {
    SetEntryLookup(v.entries, k, x, k);
  }
}
